=== FILE: README.md ===
# A verified model of the spiritual-feed web app's decision logic

The application is a small social site. People post images and videos with
a caption and a verse, like them, comment on them, look each other up, and
chat one to one with text, pictures or voice notes. The server is an Express
application over MongoDB. The client is a React single-page app with an
offline layer: a queue of pending writes in `localStorage`, an axios
interceptor that fills it, and a service worker that caches GET responses.

This project models the decision logic of that system in Dafny. It covers:

- the offline queue and the two request interceptors (`OfflineQueue`, `ApiClient`);
- the service worker's install, activate and fetch routing, with its three cache
  strategies (`ServiceWorker`);
- every route of the post, chat, user, auth and debug routers: validation,
  authorisation, the mutation, the recomputed counters and the answer
  (`PostRoutes`, `ChatRoutes`, `UserRoutes`, `AuthRoutes`, `DebugRoutes`);
- the client-side URL builders, media fallback lists and local list updates
  (`PostCard`, `Media`, `FeedClient`, `ChatClient`, `UserProfile`, `LanguageButton`).

The following modules are shared:

- `Common`: option values, route replies, `findIndex`, `filter` and `splice`.
- `Strings`: JavaScript's `trim`, ASCII lower-casing and the slash strips.
- `Paging`: `parseInt`, the page and limit clamps, `Math.ceil` page counts and
  regular-expression escaping.
- `Sorting`: a stable sort by timestamp.
- `Records`: the stored documents.

Collections are sequences of records, and every route answers
`Ok(body)` or `Err(status, message)`. Whatever the code cannot see is a
parameter of the member that needs it. That covers:

- the network (`success`, `net`, `fetchShell`);
- URL parsing (`pathnameOf`);
- ObjectId validity (`isId`);
- bcrypt (`hash`, `compare`);
- fresh ids and clocks (`newId`, `id`, `now`);
- the database's regular-expression match and collation order (`matches`, `rank`);
- file existence (`fileExists`).

A window the database computes from a NaN `skip` or `limit` is the parameter
`otherwise`.

## Model

| member | source | states |
|---|---|---|
| OfflineQueue.GetAll | client/src/offlineQueue.js:9-13 | a missing or unreadable key reads as the empty list |
| OfflineQueue.SetAll | client/src/offlineQueue.js:15-17 | reading back what was written returns the same list |
| OfflineQueue.PushRequest | client/src/offlineQueue.js:3-7 | exactly one job is added, at the end, carrying the fresh id, the time and the config; the earlier jobs are unchanged and in order |
| OfflineQueue.FlushWith | client/src/offlineQueue.js:20-35 | every stored job is replayed once, in stored order, whatever earlier replays did; an empty store is left untouched; otherwise the store ends with the failed jobs |
| OfflineQueue.FailedMembers | client/src/offlineQueue.js:24-34 | a job is kept exactly when it was stored and its replay failed |
| OfflineQueue.FailedAppend | client/src/offlineQueue.js:24-34 | keeping the failures keeps their relative order |
| OfflineQueue.FlushKeepsFailures | client/src/offlineQueue.js:24-34 | after a flush, a job is in the store if and only if it was in the snapshot and failed |
| OfflineQueue.FlushLosesConcurrentPush | client/src/offlineQueue.js:20-35 | a job pushed after the snapshot is in the store until the write-back, and gone after it |
| ApiClient.ServerOrigin | client/src/api.js:6-7 | the origin never ends in a slash and is the configured URL up to its trailing slashes |
| ApiClient.BaseURL | client/src/api.js:9 | the axios base is exactly the origin followed by "/api", with one slash between them |
| ApiClient.AttachToken | client/src/api.js:12-16 | a non-empty token sets Authorization to "Bearer " and the token; every other header and field is kept; with no token the config is unchanged |
| ApiClient.OfflineGate | client/src/api.js:19-37 | online, or offline with a GET in any case, the request passes and nothing is queued; offline, a write with a JSON body queues one job and rejects as queued; a FormData write queues nothing and rejects with "offline" |
| ApiClient.DispatchSpec | client/src/api.js:12-37 | with both interceptors in axios order, an online request carries the token and leaves the queue alone, and a queued job keeps the caller's headers without the token |
| ServiceWorker.Open | client/public/sw.js:12 | opening creates the bucket only when missing and keeps names unique |
| ServiceWorker.Put | client/public/sw.js:65 | a put makes the key answer the response and changes no other lookup |
| ServiceWorker.Install | client/public/sw.js:1-15 | the app-shell bucket is created; installing succeeds exactly when every shell entry fetches with a 2xx status, and then each entry answers its fetched response; nothing else changes |
| ServiceWorker.Activate | client/public/sw.js:18-28 | a bucket survives exactly when its name contains the version |
| ServiceWorker.ActivateKeepsCurrent | client/public/sw.js:18-28 | all four current buckets survive activation, while a bucket of an older version is deleted |
| ServiceWorker.Route | client/public/sw.js:31-58 | non-GET and cross-origin requests are left to the browser; same-origin "/api/" goes network-first, "/uploads/" stale-while-revalidate, everything else cache-first, each with its versioned bucket |
| ServiceWorker.NetworkFirstServe | client/public/sw.js:61-75 | a network response is stored and returned whatever its status; on failure the cached entry, else the offline page for HTML requests, else a 503 JSON body |
| ServiceWorker.OpenKeepsLookups | client/public/sw.js:62 | opening a bucket changes no lookup |
| ServiceWorker.StaleWhileRevalidateServe | client/public/sw.js:77-85 | the fetch always starts and refreshes the cache on success; the cached entry wins, else the network result, which is absent on failure |
| ServiceWorker.SwrOfflinePageUnreachable | client/public/sw.js:84 | the offline-page operand is never chosen: a missing cache entry is undefined, but the pending fetch is a Promise object and so truthy |
| ServiceWorker.PickSwr | client/public/sw.js:84 | `a \|\| b \|\| c` picks the cache entry exactly when it is truthy, and the offline page exactly when neither earlier operand is |
| ServiceWorker.CacheFirstServe | client/public/sw.js:87-101 | a hit is returned without fetching; a miss fetches, stores and returns; a failed fetch gives the offline page to HTML requests and a 503 text otherwise |
| ServiceWorker.HandleFetch | client/public/sw.js:31-58 | the handler responds exactly to same-origin GET requests and keeps bucket names unique |
| Strings.TrimSpec | server/routes/postRoutes.js:65 | trimmed text has no white space at either end, and text is blank exactly when every character is white space |
| Strings.TrimIdempotent | server/routes/postRoutes.js:65 | trimming twice is trimming once |
| Strings.LowerTrimCommute | server/routes/authRoutes.js:18 | lower-casing and trimming commute, so the stored email does not depend on their order |
| Strings.LastNonEmptySegment | server/routes/postRoutes.js:36-37 | the last non-empty slash-separated segment is what follows the last slash once trailing slashes are gone |
| Paging.ParseIntDecimal | server/routes/postRoutes.js:66-67 | parseInt reads back every decimal numeral as its value |
| Paging.ParseIntNegative | server/routes/postRoutes.js:66-67 | parseInt reads a minus sign and a numeral as the negative value |
| Paging.PageOf | server/routes/postRoutes.js:66 | a page is NaN or at least 1, and NaN exactly when the parameter (or its default "1") does not parse |
| Paging.PageOfDecimal | server/routes/postRoutes.js:66 | the decimal numeral of a page of at least 1 is read as that page |
| Paging.LimitOf | server/routes/postRoutes.js:67 | a limit is NaN or between 1 and 50, and NaN exactly when the parameter (or its default) does not parse |
| Paging.LimitOfDecimal | server/routes/postRoutes.js:67 | the decimal numeral of a limit from 1 to 50 is read as that limit, whatever the default |
| Paging.SkipOf | server/routes/postRoutes.js:68 | the skip is non-negative for a valid page and limit, and NaN when either is NaN |
| Paging.PagesOf | server/routes/postRoutes.js:90 | the page count is a number exactly when the limit is a number of at least 1 |
| Paging.PagesCover | server/routes/postRoutes.js:90 | the page count is the least count whose pages hold every result |
| Paging.EscapeIsLiteral | server/routes/postRoutes.js:72 | the escaped query is a pattern without unescaped special characters that stands for exactly the query text |
| Paging.PageHoldsResult | server/routes/postRoutes.js:66-85 | the result at position i of page p with limit l is the result at (p-1)*l+i of the whole ordered list |
| Paging.WindowItems | server/routes/postRoutes.js:83-84 | `.skip(skip).limit(limit)` with a valid window is exactly the slice from skip to skip+limit, cut to the list; its length is the shorter of the limit and what remains after skip |
| Paging.PlanSearch | server/routes/postRoutes.js:65-72 | a blank trimmed query answers at once; otherwise the lookup uses a literal pattern for the trimmed query |
| Paging.Answer | server/routes/postRoutes.js:70-90 | the empty answer has no items, total 0 and 0 pages; a lookup answer carries the found items, their total and the page count for the limit |
| Sorting.SortBy | server/routes/chatRoutes.js:97 | the result is a permutation of the input, ordered by the key |
| Sorting.PrefixBeforeRest | server/routes/postRoutes.js:126-127 | in a sorted list every element of a prefix comes before every later element |
| PostRoutes.FilenameFromUrl | server/routes/postRoutes.js:30-44 | the name has no slash; an empty URL gives ""; an http(s) URL gives its last non-empty path segment, or "" when it does not parse; any other URL gives what follows the last slash once its leading slashes and a leading "uploads" segment in any case are gone, which is a suffix of the URL |
| PostRoutes.FilenameOfUploadsPath | server/routes/postRoutes.js:39 | "/uploads/name" and "uploads/name" both give the name |
| PostRoutes.FilenameOfUpperUploadsPath | server/routes/postRoutes.js:39 | the uploads prefix is removed in any case |
| PostRoutes.FilenameOfBareName | server/routes/postRoutes.js:39 | a bare file name is its own file name |
| PostRoutes.FilenameOfStoredPath | server/routes/postRoutes.js:38-43 | any number of leading slashes, then "uploads" in any case and a slash, then a path: the file name is what follows the last slash of that path |
| PostRoutes.ToPublicUrl | server/routes/postRoutes.js:25-28 | the public URL is the configured base (or the request's own when none is set) without its trailing slashes, then "/uploads/" and the name, so no slash is doubled before it |
| PostRoutes.PublicUrlFilenameRoundTrip | server/routes/postRoutes.js:25-44 | when the public base is an http(s) origin and the URL parser returns the path "/uploads/<name>" unchanged, the file name a post was created with is the one its URL gives back |
| PostRoutes.Feed | server/routes/postRoutes.js:123-134 | the feed holds the newest fifty posts (all of them when there are fewer), newest first, and no left-out post is newer than a shown one |
| PostRoutes.SearchPosts | server/routes/postRoutes.js:63-96 | the answer echoes the trimmed query and the clamped page; a blank query answers an empty page; otherwise the items are exactly the skip..skip+limit slice of the matching posts sorted newest first, with the number of matches and the page count |
| PostRoutes.NewestFirst | server/routes/postRoutes.js:82 | the posts are reordered, none lost or added, so that creation times never increase |
| PostRoutes.NewestFirstPage | server/routes/postRoutes.js:82-84 | a valid window is exactly the skip..skip+limit slice of the newest-first order, at most limit posts, all from the matches |
| PostRoutes.MediaTypeOf | server/routes/postRoutes.js:102-103 | a post is a video exactly when its lowercased mime type starts with "video/" |
| PostRoutes.CreatePost | server/routes/postRoutes.js:98-118 | without a file the post is refused with 400 and nothing is stored; otherwise exactly one post is added under the new id and time, owned by the requester, with the given caption and verse (or ""), the public URL of its file as `mediaUrl`, "video" exactly for a video mime type, no likes, no comments and no legacy image or video URL |
| PostRoutes.CreatedPostFileRoundTrip | server/routes/postRoutes.js:98-118 | a post created under a fresh id, with a public URL the parser leaves as it is: its media route serves exactly the uploaded file when it exists, and its owner's deletion names that file and gives back the collection as it was before the post |
| PostRoutes.ToggleLikes | server/routes/postRoutes.js:142-149 | liked is true exactly when the requester had not liked; then the requester is appended, otherwise one occurrence is removed |
| PostRoutes.LikeTwiceRestores | server/routes/postRoutes.js:142-149 | liking then unliking restores the likes |
| PostRoutes.ToggleKeepsLikesDistinct | server/routes/postRoutes.js:142-149 | a list of likes without duplicates keeps none after a toggle |
| PostRoutes.ToggleAnswerIsMembership | server/routes/postRoutes.js:142-151 | with distinct likes, the answer's liked flag says whether the requester is among the new likes |
| PostRoutes.LikeToggle | server/routes/postRoutes.js:136-154 | an invalid id gives 400 and an unknown post 404; otherwise only that post changes, and its count equals the new number of likes |
| PostRoutes.DeletePost | server/routes/postRoutes.js:156-173 | the delete succeeds exactly for the owner of an existing post; others get 403, 404 or 400 and nothing changes; on success exactly that post is removed, and the file named is the one in `mediaUrl` alone, because the hydrated document shows no legacy `imageUrl` or `videoUrl` |
| PostRoutes.DeletePostIntended | server/routes/postRoutes.js:156-173 | with the stored fields read, the same answers and removal as the route, but the file named comes from the first non-empty of `mediaUrl`, `imageUrl` and `videoUrl` |
| PostRoutes.DeleteRemovesServedFile | server/routes/postRoutes.js:159-164 | with the stored fields read, the file deletion removes is exactly the file the media route serves |
| PostRoutes.LegacyFileKeptOnDelete | server/routes/postRoutes.js:159-164 | a post stored with only a relative `imageUrl`: the media route serves its file, the route as written names no file to remove, the intended read names it |
| PostRoutes.ListComments | server/routes/postRoutes.js:178-189 | an invalid id gives 400 and an unknown post 404; otherwise the post's comments are listed newest first, as a permutation, with the stored count |
| PostRoutes.AddComment | server/routes/postRoutes.js:191-213 | blank text gives 400 and an unknown post 404; otherwise the comment is appended with the trimmed text and the count equals the new number of comments |
| PostRoutes.DeleteComment | server/routes/postRoutes.js:215-241 | an invalid id gives 400, an unknown post 404 "Post not found", an unknown comment 404 "Comment not found"; anyone but the author or the post's owner gets 403; otherwise exactly that comment goes and the count is recomputed |
| PostRoutes.MediaFile | server/routes/postRoutes.js:243-258 | an invalid id gives 400 and an unknown post 404; a file is served exactly when the post's media URL yields a non-empty name of an existing file, and every other case is 404 "File not found"; a served name has no slash |
| ChatRoutes.FilenameFromUrl | server/routes/chatRoutes.js:39-51 | like the post routes' helper, with the same result for relative URLs, but an unparsable http(s) URL falls back to what follows its last slash |
| ChatRoutes.FilenameHelpersAgree | server/routes/chatRoutes.js:39-51 | the two helpers agree on every input except an http(s) URL that does not parse |
| ChatRoutes.PublicUrl | server/routes/chatRoutes.js:34-37 | the URL is the base as given, then "/uploads/" and the name |
| ChatRoutes.PublicUrlKeepsTrailingSlash | server/routes/chatRoutes.js:34-37 | a base ending in a slash gives a doubled slash here but not in the post routes |
| ChatRoutes.ListUsers | server/routes/chatRoutes.js:53-65 | a non-blank query that is not a valid regular expression gives the error handler's 500 with the SyntaxError's message, and only it fails; otherwise the cards of the first min(50, n) of the n listable users (not the requester, matching a non-blank query) in stored order, each card one of those users |
| ChatRoutes.ListUsersComplete | server/routes/chatRoutes.js:53-65 | whenever the query compiles (or is blank) and at most fifty users are listable, every listable user is listed |
| ChatRoutes.OpenConversation | server/routes/chatRoutes.js:67-82 | an invalid id or oneself gives 400; otherwise the answer is a conversation of exactly the two people, reused when one exists and created otherwise |
| ChatRoutes.OpenConversationStable | server/routes/chatRoutes.js:67-82 | opening the same chat again, from either side, returns the same conversation and creates nothing |
| ChatRoutes.Access | server/routes/chatRoutes.js:88-94 | an invalid id gives 400, an unknown conversation 404, and a known conversation the requester is not part of 403 "Not a participant"; otherwise the conversation's position |
| ChatRoutes.GetMessages | server/routes/chatRoutes.js:84-102 | a participant gets exactly the conversation's messages, oldest first |
| ChatRoutes.ChatMediaOf | server/routes/chatRoutes.js:131-136 | an image/ mime type gives an image, else an audio/ one gives audio, else nothing |
| ChatRoutes.SendMessage | server/routes/chatRoutes.js:104-151 | access errors come first, then blank text without a file gives 400, then an unknown mime type gives 400; a sent message has the trimmed text, the requester as sender and its media fields set only with a file |
| ChatRoutes.SentMessageIsListed | server/routes/chatRoutes.js:84-151 | a sent message is among the conversation's messages read afterwards |
| ChatRoutes.SentMessageIsLast | server/routes/chatRoutes.js:96-97 | when no stored message is newer than the send time, the conversation read afterwards is the one read before with the sent message added at the end |
| ChatRoutes.MessagesAppendLast | server/routes/chatRoutes.js:96-97 | adding a message no older than any other appends it to its conversation's oldest-first list |
| ChatRoutes.MediaFile | server/routes/chatRoutes.js:153-168 | an invalid id gives 400, any other failure 404 "File not found"; the answer is Ok exactly when the message exists, has a media URL, and the file named by that URL exists, and then the name handed to `sendFile` is exactly that file name, which has no slash |
| ChatRoutes.UploadsUrlNamesFile | server/routes/chatRoutes.js:161 | an http(s) media URL whose parsed path is "/uploads/<name>" names that file |
| ChatRoutes.StoredUploadIsServed | server/routes/chatRoutes.js:153-168 | a message, alone with its id, whose media URL has the parsed path "/uploads/<name>": the media route hands that file to `sendFile` when it exists and answers 404 otherwise |
| ChatRoutes.SentFileIsServed | server/routes/chatRoutes.js:104-168 | a message sent with a file under a fresh id, with a public URL the parser leaves as it is: its media route hands exactly the uploaded file to `sendFile` when it exists, and answers 404 otherwise |
| ChatRoutes.EmptyNameReachesSendFile | server/routes/chatRoutes.js:158-166 | a message whose media URL is the bare uploads directory yields the empty name, so the chat route passes the uploads directory itself to `sendFile`, while the post media route answers 404 "File not found" for the same URL |
| UserRoutes.AbsoluteUrl | server/routes/userRoutes.js:25-30 | the base without trailing slashes and the path without leading slashes, joined by exactly one slash |
| UserRoutes.AbsoluteUrlIgnoresExtraSlashes | server/routes/userRoutes.js:25-30 | extra slashes on either side of the join make no difference |
| UserRoutes.AvatarOrNull | server/routes/userRoutes.js:48-66 | an empty avatar URL becomes null |
| UserRoutes.CleanPrivate | server/routes/userRoutes.js:48-56 | the own view carries the email, a null for no avatar and "" for no bio |
| UserRoutes.PublicIsPrivateWithoutEmail | server/routes/userRoutes.js:48-68 | the public view is the own view with the email left out |
| UserRoutes.GetMe | server/routes/userRoutes.js:70-76 | the requester's own view, or 404 exactly when the account is missing |
| UserRoutes.EditProfile | server/routes/userRoutes.js:83-85 | a non-blank username is stored trimmed, any string bio is stored as given, and nothing else changes, timestamps included |
| UserRoutes.UpdateMe | server/routes/userRoutes.js:78-98 | a missing account gives 404; a username another user holds gives 400 "Username already taken" and changes nothing; otherwise only the requester changes, and the saved requester is exactly the edited profile, with `updatedAt` set to the current time when the edit changed something and kept otherwise; the answer is its private view |
| UserRoutes.UpdateMeKeepsNamesUnique | server/routes/userRoutes.js:78-98 | editing a profile never makes two users share a name |
| UserRoutes.UpdateAvatar | server/routes/userRoutes.js:100-119 | a missing file gives 400 and a missing account 404; otherwise the avatar becomes the absolute URL of the upload, and the previous avatar's file is removed exactly when it exists |
| UserRoutes.AbsoluteUrlLastSegment | server/routes/userRoutes.js:109-114 | the stored avatar URL ends with the upload's file name |
| UserRoutes.AvatarReplacedNextTime | server/routes/userRoutes.js:100-119 | the next avatar upload removes the file this one stored |
| UserRoutes.IdOrName | server/routes/userRoutes.js:130-133 | a valid id that names a user finds that user; otherwise the username is tried |
| UserRoutes.PublicProfile | server/routes/userRoutes.js:127-140 | 404 exactly when no user is found; otherwise the public view with the number of the user's posts |
| UserRoutes.UserPosts | server/routes/userRoutes.js:142-175 | an unknown user gives 404; otherwise the posts are exactly the skip..skip+limit slice of the user's posts sorted newest first, twelve to a page by default, with total and page count |
| UserRoutes.SearchUsers | server/routes/userRoutes.js:177-202 | no q key answers an empty list; a blank q an empty page; otherwise the items list exactly the skip..skip+limit slice of the matching users in name order, with total and page count |
| UserRoutes.NamePage | server/routes/userRoutes.js:190-198 | a valid window lists exactly the skip..skip+limit slice of the hits in name order; each listed user is a hit, in name order |
| UserRoutes.ByName | server/routes/userRoutes.js:193 | the hits are reordered, none lost or added, so that name ranks never decrease |
| UserRoutes.RouteGet | server/routes/userRoutes.js:70-177 | the empty path reaches the search, "me" the own profile, and any other segment the profile lookup |
| UserRoutes.SearchPathIsProfileLookup | server/routes/userRoutes.js:127-140 | "/api/users/search" is a profile lookup for a user called "search" |
| AuthRoutes.Register | server/routes/authRoutes.js:14-26 | a missing field gives 400 and a clash 409, with nothing stored; a username or email that is only white space fails the schema's `required` rule and gives 500 with Mongoose's validation message, storing nothing; otherwise one account is added with the trimmed username and the lower-cased, trimmed email |
| AuthRoutes.RegisterKeepsAccounts | server/routes/authRoutes.js:14-26 | registration keeps usernames and emails unique |
| AuthRoutes.LoginIdentifier | server/routes/authRoutes.js:30 | the first field that is present, empty or not, trimmed |
| AuthRoutes.EmptyIdentifierWins | server/routes/authRoutes.js:30 | an empty identifier shadows a good email |
| AuthRoutes.LookupAccount | server/routes/authRoutes.js:34 | an identifier with "@" finds the first account with that lower-cased email; any other identifier finds the first account with that username |
| AuthRoutes.Login | server/routes/authRoutes.js:28-42 | an empty identifier or password gives 400; an unknown account, a missing hash and a wrong password all give the same 401; success answers that account |
| AuthRoutes.LoginSucceeds | server/routes/authRoutes.js:28-42 | the account named, with a matching password, logs in |
| AuthRoutes.RegisterThenLoginByEmail | server/routes/authRoutes.js:14-42 | whoever registers can log in with the email as they typed it |
| AuthRoutes.RegisterThenLoginByName | server/routes/authRoutes.js:14-42 | whoever registers can log in with the username when it has no "@" |
| AuthRoutes.AuthMe | server/routes/authRoutes.js:44-49 | the requester's card, or null exactly when the account is missing |
| DebugRoutes.StripSchemeHost | server/routes/debugRoutes.js:46 | the scheme and host strip leaves a suffix, and changes nothing on a URL not starting with "http" |
| DebugRoutes.FixedUrl | server/routes/debugRoutes.js:46-48 | the base, a slash, and the path without leading slashes, with "uploads/" in front unless it starts with "uploads" |
| DebugRoutes.FixedUrlIsAbsolute | server/routes/debugRoutes.js:36-50 | a rewritten URL starts with "http", so it differs from the relative one it replaces |
| DebugRoutes.FixIsIdempotent | server/routes/debugRoutes.js:40-55 | a second pass rewrites nothing |
| DebugRoutes.FixAll | server/routes/debugRoutes.js:38-55 | over the documents as the loop reads them: every post with a relative `imageUrl` is rewritten, the rest are kept, and the count is the number rewritten, at most the total |
| Records.Hydrated | server/models/post.js:13-30 | a hydrated post shows no `imageUrl` or `videoUrl`, and differs from the stored post in nothing else |
| Records.SaveSchemaPaths | server/models/post.js:13-30 | saving a hydrated document keeps the stored legacy fields and writes the schema's paths |
| Records.HydratedMediaUrl | server/models/post.js:13-30 | through a hydrated post the media fallback is `mediaUrl` alone, which differs from the stored fallback exactly for a legacy post with only `imageUrl` |
| DebugRoutes.HydratedNeedNoFix | server/routes/debugRoutes.js:37-43 | through the hydrated documents `Post.find({})` returns, no post needs the rewrite, and saving them writes back what was stored |
| DebugRoutes.FixImageUrls | server/routes/debugRoutes.js:29-58 | with an admin token set, a request without it gets 401 and no post changes; otherwise no post changes and the report counts no update out of all posts, because the loop reads `imageUrl` on hydrated documents |
| DebugRoutes.FixImageUrlsIntended | server/routes/debugRoutes.js:29-58 | the route reading the stored `imageUrl`: the same 401 guard; otherwise every post with a relative URL is rewritten under the request's base and counted |
| DebugRoutes.LegacyPostMissed | server/routes/debugRoutes.js:37-43 | a post with a relative stored `imageUrl` needs the rewrite and the intended pass counts it, but its hydrated document needs none |
| PostCard.CandidatesFor | client/src/components/PostCard.jsx:6-15 | nothing for an empty value, an absolute URL on its own, otherwise exactly two URLs under the server origin: the cleaned path, and the cleaned path without a leading "uploads" segment under "/uploads/" |
| PostCard.CandidatesOfTrimmed | client/src/components/PostCard.jsx:9-14 | the cleaned path drops one leading "./" or "../" and then every leading slash; the two candidates are the origin with the cleaned path and the origin's "/uploads/" with the cleaned path without its "uploads" segment |
| PostCard.StoredFormsShareUploadsCandidate | client/src/components/PostCard.jsx:10-13 | however an upload's URL was stored, the second candidate is the file under "/uploads/" |
| PostCard.MediaList | client/src/components/PostCard.jsx:17-22 | the media route first, then the candidates: one to three non-empty URLs |
| PostCard.TryNext | client/src/components/PostCard.jsx:33 | the index moves on exactly when a next candidate exists, and stays in range |
| PostCard.ErrorsWalkTheList | client/src/components/PostCard.jsx:33-46 | after k errors the index is k, or the last index once k reaches it |
| PostCard.MediaAlwaysHasSource | client/src/components/PostCard.jsx:27-35 | whatever errors happen, there is a source |
| PostCard.OnProps | client/src/components/PostCard.jsx:25 | a new post id or raw URL starts over at the first candidate |
| PostCard.VideoBySuffix | client/src/components/PostCard.jsx:28-31 | a URL ending in .mp4 or .webm, in any case, plays as a video |
| PostCard.VideoWithQuery | client/src/components/PostCard.jsx:28-31 | so does one with a query string after the extension |
| PostCard.DeleteButtonMatchesServer | client/src/components/PostCard.jsx:120-123 | for a signed-in viewer, the delete button shows exactly when the server would allow the delete |
| PostCard.SignedOutSeesDeleteOnOrphan | client/src/components/PostCard.jsx:120-123 | with nobody signed in, a comment without an author still shows the delete button |
| PostCard.PrependComment | client/src/components/PostCard.jsx:112 | the new comment goes first, before the list as it was |
| PostCard.DropComment | client/src/components/PostCard.jsx:129 | exactly the comments with that id go |
| PostCard.AddedCommentKeepsList | client/src/components/PostCard.jsx:105-118 | a list that held the post's comments newest first still does after a comment is added |
| PostCard.DeletedCommentMatchesServer | client/src/components/PostCard.jsx:125-134 | dropping the deleted comment leaves exactly what the server kept |
| Media.BuildMediaSrc | client/src/lib/media.js:1-8 | null for an empty value, an absolute URL as it is, otherwise the trimmed value without leading slashes and without a leading lower-case "uploads" segment, under the origin's "/uploads/" |
| Media.FromTrimmed | client/src/lib/media.js:5-7 | an absolute URL is kept; anything else becomes the origin, "/uploads/" and the value without leading slashes and without a leading lower-case "uploads" segment, which is a suffix of the value |
| Media.FromTrimmedIsClean | client/src/lib/media.js:5-7 | under an absolute origin the result is absolute, with no white space at either end |
| Media.BuildMediaSrcIdempotent | client/src/lib/media.js:1-8 | building from a built URL changes nothing |
| Media.UpperCaseUploadsKept | client/src/lib/media.js:6 | an upper-case "UPLOADS/" prefix is kept here, where the post card and the server remove it |
| Media.UploadsPrefixOfName | client/src/lib/media.js:6 | the slash after "uploads" is optional, so a name starting with "uploads" loses that word |
| FeedClient.Normalize | client/src/pages/Feed.jsx:17-26 | liked exactly when some like prints as the viewer's id; each counter is the server's value when present, else the like count or 0 |
| FeedClient.LoadAll | client/src/pages/Feed.jsx:16-27 | one card per post, in the server's order |
| FeedClient.OnPatch | client/src/pages/Feed.jsx:35-36 | cards with that id are patched, the others are unchanged, and length and order are kept |
| FeedClient.OnRemove | client/src/pages/Feed.jsx:38-39 | exactly the cards with that id go |
| FeedClient.LikePatchMatchesReload | client/src/pages/Feed.jsx:35-36 | patching the like answer into a card shows what reloading the feed would show |
| FeedClient.RemoveMatchesReload | client/src/pages/Feed.jsx:38-39 | removing a deleted post's card leaves the feed a reload would build |
| ChatClient.MediaList | client/src/pages/Chat.jsx:12-17 | the proxy route first, then the stored URL when there is one |
| ChatClient.Render | client/src/pages/Chat.jsx:25-49 | no media type shows nothing; otherwise an audio player or a picture whose source is on the list |
| ChatClient.OnAudioError | client/src/pages/Chat.jsx:26-31 | an audio error moves to the next source when there is one |
| ChatClient.AudioErrorsWalkTheList | client/src/pages/Chat.jsx:26-31 | after k errors the index is k, or the last index |
| ChatClient.OnImageError | client/src/pages/Chat.jsx:39-47 | an image error moves on and always marks the image as not found |
| ChatClient.ImageMarkedAfterAnyError | client/src/pages/Chat.jsx:39-47 | after any error the picture is dimmed, even when a fallback remains |
| ChatClient.FallbackImageDimmed | client/src/pages/Chat.jsx:39-47 | the stored URL, tried after the proxy fails, is shown dimmed; the corrected handler shows it plain |
| ChatClient.OnImageErrorIntended | client/src/pages/Chat.jsx:39-47 | the corrected handler marks the image only when no fallback is left |
| ChatClient.IntendedMarksOnlyAtEnd | client/src/pages/Chat.jsx:39-47 | with the corrected handler, after k errors the image is marked exactly when k reaches the list's length |
| ChatClient.OnProps | client/src/pages/Chat.jsx:23 | a new message id or media URL starts over at the proxy |
| ChatClient.Peer | client/src/pages/Chat.jsx:131-134 | no conversation or nobody signed in gives none; otherwise the first participant other than the viewer |
| ChatClient.OpenedChatIsWithPeer | client/src/pages/Chat.jsx:81-134 | after opening a chat with someone, the peer shown is that person |
| ChatClient.SendForm | client/src/pages/Chat.jsx:111-121 | nothing is sent without a conversation or with blank text and no file; the form carries the trimmed text only when non-blank, and the file only when chosen |
| ChatClient.AfterSend | client/src/pages/Chat.jsx:122-125 | a sent message is appended and the inputs are cleared; a failure changes nothing |
| ChatClient.FormPassesPresenceCheck | client/src/pages/Chat.jsx:111-122 | a form the client sends never meets the server's "Provide text or a media file" error |
| ChatClient.SendMatchesReload | client/src/pages/Chat.jsx:122-123 | the messages shown after a send are those a reload would show |
| UserProfile.BuildMediaSrc | client/src/pages/UserProfile.jsx:6-11 | "" for "", an absolute URL as it is, otherwise the path under the origin without "/uploads/" |
| UserProfile.SameJoinAsServer | client/src/pages/UserProfile.jsx:6-11 | the join is the server's absoluteUrl join |
| UserProfile.BuildMediaSrcIdempotent | client/src/pages/UserProfile.jsx:6-11 | building from a built URL changes nothing |
| UserProfile.BareNameDiffersFromMedia | client/src/pages/UserProfile.jsx:6-11 | a bare file name lands under the origin here, and under "/uploads/" in the shared helper |
| UserProfile.CardUrl | client/src/pages/UserProfile.jsx:14 | the media URL, else the image URL |
| UserProfile.VideoOnlyPostHasNoUrl | client/src/pages/UserProfile.jsx:14 | a post with only a video URL gets no source on the profile, where the post card uses it |
| UserProfile.QueryVideoShowsAsImage | client/src/pages/UserProfile.jsx:15-17 | a video URL with a query string is an image here and a video on the post card |
| UserProfile.TimeTextReadsBack | client/src/pages/UserProfile.jsx:66 | the stamp reads back as the time it was made from |
| UserProfile.AvatarSrc | client/src/pages/UserProfile.jsx:63-67 | none exactly without an avatar; otherwise the URL with "&" or "?" and a stamp of the last update |
| UserProfile.NewStampNewAvatar | client/src/pages/UserProfile.jsx:63-67 | a later update gives a different address, so the browser fetches again |
| UserProfile.PagerOf | client/src/pages/UserProfile.jsx:53-55 | a missing or zero page is 1, missing pages 0 |
| UserProfile.PrevTarget | client/src/pages/UserProfile.jsx:112-117 | the previous page is fetched exactly when the page is past the first |
| UserProfile.NextTarget | client/src/pages/UserProfile.jsx:122-127 | the next page is fetched exactly when the page is before the last |
| UserProfile.LoadPage | client/src/pages/UserProfile.jsx:50-55 | a page is loaded exactly when the user is found |
| UserProfile.LoadedPageIsRequested | client/src/pages/UserProfile.jsx:50-55 | a loaded page is the one requested, with the total and the ceiling page count for twelve to a page |
| UserProfile.NextThenPrevReturns | client/src/pages/UserProfile.jsx:112-127 | Next then Prev comes back to the page it started from |
| UserProfile.OnId | client/src/pages/UserProfile.jsx:42-61 | an unknown user leaves the page as it was; otherwise the profile and its first page |
| UserProfile.PostsCountMatchesPager | client/src/pages/UserProfile.jsx:91 | the post count shown equals the pager's total |
| UserProfile.UnknownUserKeepsPrevious | client/src/pages/UserProfile.jsx:47-49 | a failed lookup keeps the previous user on screen |
| LanguageButton.CurrentIndex | client/src/components/LanguageButton.jsx:19 | the entry whose code is the language, else English |
| LanguageButton.KnownCodeIsCurrent | client/src/components/LanguageButton.jsx:4-19 | every listed code is shown as its own entry |
| LanguageButton.ChangeTo | client/src/components/LanguageButton.jsx:34-37 | the language is set and the menu closes |
| LanguageButton.OnCycle | client/src/components/LanguageButton.jsx:39-43 | the entry after the current one, wrapping round |
| LanguageButton.CycleMovesOn | client/src/components/LanguageButton.jsx:39-43 | n presses move n entries on, modulo three, so three presses come back |
| LanguageButton.OnToggle | client/src/components/LanguageButton.jsx:64 | the menu flips and the language stays |
| LanguageButton.OnWindowClick | client/src/components/LanguageButton.jsx:22-32 | a click outside closes the menu; one inside leaves it |
| LanguageButton.OneOptionSelected | client/src/components/LanguageButton.jsx:87-92 | exactly one option is selected: the current one |
| LanguageButton.PickedOptionIsSelected | client/src/components/LanguageButton.jsx:87-92 | a picked option becomes the selected one and the menu closes |

## Left out

- Real storage, network and files are left out. localStorage, CacheStorage, fetch and axios are values and oracle parameters. So are the multer disk storage, `fs.existsSync`, `fs.unlinkSync` and `res.sendFile`.
- Mongoose is left out: queries, `populate`, indexes and hooks. Records carry ids where the database would populate user cards. A duplicate-key error is modelled as the unique-name check it stands for.
- bcrypt, JWT signing and its secret and expiry, `crypto.randomUUID`, `Date.now` and `isValidObjectId` are parameters.
- The JavaScript regular-expression engine is left out. The search match is the `matches` oracle, and only the escaping is modelled. The chat user list's unescaped query is an oracle too.
- Concurrency is left out. A flush is modelled as running alone. The lost update is stated separately as a lemma about the interleaving that loses a job.
- The `online` event wiring and the service worker's lifecycle (`skipWaiting`, `clients.claim`) are left out.
- A 206 or opaque response that `cache.put` would reject is left out.
- JSON fields of a type other than string are left out, except where the route tests `typeof`. So is a query value given as an array.
- Floating point is left out: `parseInt` beyond 2^53 and `Math.ceil` are taken exactly.
- Lower-casing is ASCII only. Unicode characters such as the Kelvin sign, which `toLowerCase` maps to ASCII, are not modelled.
- Two debug routes are left out: GET /uploads and GET /base. They only list a directory and echo the base URL.
- The comment router is not part of this model.
- Polling every 3000 ms, scrolling, alerts and loading flags are left out.
- React's intermediate renders and the effect's `dead` cancellation are left out. Each state update is applied as one step.
- `loadUsers` and `loadMessages` store the server's lists as they are, so they have no member of their own.
- The comment loader's `commentsCount ?? length` fallback is left out, because the server always sends the count.
- The chat file preview and the profile's initial-letter placeholder are left out.
- `changeLanguage` is taken to take effect at once.
- The `Date.now()` fallback of the avatar stamp is left out, because stored users always have `updatedAt`.
- The DOM hit test behind the menu's outside click is a boolean parameter.
- PostRoutes.PublicUrlFilenameRoundTrip: holds only when the URL parser returns the path "/uploads/<name>" unchanged. Multer keeps '#', '?', '%', '\\' and non-ASCII characters of the original name, and `new URL` then cuts the path at '#' or '?', or percent-encodes it, so the name read back differs. The parser is the `pathnameOf` oracle.
- PostRoutes.NewestFirst: posts with equal creation times keep their stored order (a stable sort). MongoDB leaves the order of ties unspecified, so the server may list them in another order. The same holds for `UserRoutes.ByName` and the chat message order.
- ChatRoutes.ListUsers: the SyntaxError's message is the `regexError` oracle; which queries fail to compile is not modelled.
- ChatRoutes.MediaFile: `Ok(name)` means the path of `name` in the uploads directory is handed to `res.sendFile`. What `sendFile` then does is not modelled. For a directory, as with the empty name, Express passes the request on, and the app's fallback answers 404 "Not found".
- AuthRoutes.Register: when both the username and the email are blank, the two entries of the validation message are listed in the schema's order. Other ways `User.create` can fail, such as a unique-index race with a concurrent registration, are not modelled.
- OfflineQueue.GetAll: a stored value that parses to something truthy but not a list is returned as it is by `getAll`, and `push` then throws. Only the app writes the key, and it always writes a list, so the model has no such slot.
- LanguageButton.CycleMovesOn: three presses coming back is stated as the index moving n places modulo three, not as a separate lemma on `CycleTimes(b, 3)`.

## Findings

| source | as written | input that shows it | evidently intended | confidence | as-written member | corrected member |
|---|---|---|---|---|---|---|
| server/routes/debugRoutes.js:41 | the loop reads `p.imageUrl` from documents of `Post.find({})`. These are hydrated, and the post schema (server/models/post.js:13-30) no longer declares `imageUrl`, so the value is undefined, every post is skipped and the route reports 0 updated | a post stored with `imageUrl` "uploads/x.jpg" | read and write the stored field (`p.get("imageUrl")`, `p.set("imageUrl", …, { strict: false })`), so that relative URLs are rewritten and counted | not executed | DebugRoutes.LegacyPostMissed | DebugRoutes.FixImageUrlsIntended |
| server/routes/postRoutes.js:164 | the fallback `post.mediaUrl \|\| post.imageUrl \|\| post.videoUrl` reads a hydrated document from `findById` without `.lean()`, so the legacy fields are undefined, and a post with only `imageUrl` keeps its upload file after deletion | a post with `mediaUrl` "" and `imageUrl` "uploads/x.jpg" whose file exists: GET /:id/media serves x.jpg, and DELETE removes no file | read the stored fields, as the media route does with `.lean()`, so that deletion removes the file the media route serves | not executed | PostRoutes.LegacyFileKeptOnDelete | PostRoutes.DeleteRemovesServedFile |
| client/src/pages/Chat.jsx:39-47 | the image error handler saves `i`, calls `tryNext`, and then compares the saved value with `i`. Both are the same value captured by the render, because `setI` only schedules the update, so every image error dims the picture and labels it "image not found" | a picture message with a stored `mediaUrl` whose proxy URL fails to load: the stored URL is then shown dimmed and labelled, even if it loads | mark the picture only when no fallback is left, as the post card's handler does (client/src/components/PostCard.jsx:45-50) | not executed | ChatClient.FallbackImageDimmed | ChatClient.IntendedMarksOnlyAtEnd |

Behaviours of the code that the model keeps as written:

- stale-while-revalidate never serves the offline page;
- chat upload URLs keep a trailing slash of the configured base;
- "/api/users/search" reaches the profile lookup;
- an empty login identifier shadows the email;
- the debug fixer's scheme-and-host strip never applies;
- the chat media route has no empty-name guard, so a message whose media URL is the bare uploads directory reaches `sendFile` with the uploads directory itself (the post media route answers 404 "File not found" at once).

=== FILE: api_client.dfy ===
/** The axios instance of client/src/api.js: the server origin and base URL,
    the token interceptor, and the offline gate that queues or refuses
    mutating requests while the browser is offline. */
module ApiClient {
  import opened Common
  import opened Strings
  import opened OfflineQueue

  const DefaultOrigin: string := "http://localhost:5000"

  /** `(VITE_API_URL || "http://localhost:5000").replace(/\/+$/, "")` */
  function ServerOrigin(env: Option<string>): (o: string)
    ensures o == [] || o[|o| - 1] != '/'
    ensures (env == None || env == Some("")) ==> o == DefaultOrigin
    ensures env.Some? && env.value != "" ==>
              StartsWith(env.value, o) && forall i :: |o| <= i < |env.value| ==> env.value[i] == '/'
  {
    var raw := if env.Some? && env.value != "" then env.value else DefaultOrigin;
    StripTrailingSlashes(raw)
  }

  /** `${serverOrigin}/api`: the origin joined to "api" by exactly one slash. */
  function BaseURL(env: Option<string>): (b: string)
    ensures EndsWith(b, "/api")
    ensures |b| == 4 || b[|b| - 5] != '/'
    ensures StartsWith(b, ServerOrigin(env))
    ensures b == ServerOrigin(env) + "/api"
  {
    var o := ServerOrigin(env);
    assert (o + "/api")[..|o|] == o;
    o + "/api"
  }

  /** The first request interceptor: with a stored token (a non-empty
      string), set `Authorization: Bearer <token>`; otherwise leave the
      config as it is. */
  function AttachToken(cfg: RequestConfig, token: Option<string>): (r: RequestConfig)
    ensures r.url == cfg.url && r.verb == cfg.verb && r.data == cfg.data
    ensures r.params == cfg.params && r.baseURL == cfg.baseURL
    ensures forall h :: h in cfg.headers && h != "Authorization" ==> h in r.headers && r.headers[h] == cfg.headers[h]
    ensures forall h :: h in r.headers && h != "Authorization" ==> h in cfg.headers
    ensures token.Some? && token.value != "" ==>
              "Authorization" in r.headers && r.headers["Authorization"] == "Bearer " + token.value
    ensures !(token.Some? && token.value != "") ==> r == cfg
  {
    match token
    case Some(t) =>
      if t != "" then cfg.(headers := cfg.headers["Authorization" := "Bearer " + t]) else cfg
    case None => cfg
  }

  /** `(config.method || 'get').toLowerCase() !== 'get'` */
  predicate IsMutating(cfg: RequestConfig) {
    var m := if cfg.verb.Some? && cfg.verb.value != "" then cfg.verb.value else "get";
    Lower(m) != "get"
  }

  /** The fields `pushRequest` copies out of the config: url, method, data,
      headers and baseURL. Anything else (here: `params`) is dropped. */
  function Captured(cfg: RequestConfig): RequestConfig {
    RequestConfig(cfg.url, cfg.verb, cfg.data, cfg.headers, map[], cfg.baseURL)
  }

  /** What the offline interceptor does with a request: let it through,
      reject it with `{ __queued: true }` after queueing it, or reject it
      with `{ message: 'offline' }`. */
  datatype Gate = Proceed(config: RequestConfig) | RejectQueued | RejectOffline(message: string)

  datatype GateResult = GateResult(gate: Gate, slot: Slot)

  /** The second request interceptor. `id` and `now` stand for
      `crypto.randomUUID()` and `Date.now()` of the job it may queue. */
  function OfflineGate(online: bool, cfg: RequestConfig, slot: Slot, id: string, now: int): (r: GateResult)
    ensures online ==> r == GateResult(Proceed(cfg), slot)
    ensures !online && !IsMutating(cfg) ==> r == GateResult(Proceed(cfg), slot)
    ensures !online && IsMutating(cfg) && cfg.data != Form ==>
              r.gate == RejectQueued && GetAll(r.slot) == GetAll(slot) + [Job(id, now, Captured(cfg))]
    ensures !online && IsMutating(cfg) && cfg.data == Form ==>
              r == GateResult(RejectOffline("offline"), slot)
    ensures r.gate.RejectQueued? <==> !online && IsMutating(cfg) && cfg.data != Form
  {
    if online then GateResult(Proceed(cfg), slot)
    else if IsMutating(cfg) then
      if cfg.data != Form then
        var s := PushRequest(slot, Captured(cfg), id, now);
        assert GetAll(s) == GetAll(slot) + [Job(id, now, Captured(cfg))];
        GateResult(RejectQueued, s)
      else GateResult(RejectOffline("offline"), slot)
    else GateResult(Proceed(cfg), slot)
  }

  /** The whole request chain. axios runs request interceptors in the
      reverse order of registration, so the offline gate (registered second)
      sees the request before the token is attached. */
  function Dispatch(online: bool, token: Option<string>, cfg: RequestConfig, slot: Slot, id: string, now: int): GateResult {
    var g := OfflineGate(online, cfg, slot, id, now);
    match g.gate
    case Proceed(c) => GateResult(Proceed(AttachToken(c, token)), g.slot)
    case _ => g
  }

  /** Online, every request goes out with the token attached and the queue
      untouched. Offline, a GET still goes out; a queued job carries the
      caller's own headers, without the Authorization header. */
  lemma DispatchSpec(online: bool, token: Option<string>, cfg: RequestConfig, slot: Slot, id: string, now: int)
    ensures online ==> Dispatch(online, token, cfg, slot, id, now) == GateResult(Proceed(AttachToken(cfg, token)), slot)
    ensures !IsMutating(cfg) ==> Dispatch(online, token, cfg, slot, id, now).slot == slot
    ensures var r := Dispatch(online, token, cfg, slot, id, now);
            r.gate.RejectQueued? ==> |GetAll(r.slot)| == |GetAll(slot)| + 1 &&
                                     GetAll(r.slot)[|GetAll(slot)|].config.headers == cfg.headers
  {
  }
}

=== FILE: auth_routes.dfy ===
/** The decision logic of server/routes/authRoutes.js: registration
    (presence checks on the raw fields, the clash check and the stored
    normal forms) and login (which field is the identifier, email or
    username lookup, and one answer for every credential failure).
    `hash` and `compare` stand for bcrypt; the JWT is signed over the
    answer's `subject`. */
module AuthRoutes {
  import opened Common
  import opened Strings
  import opened Records

  /** The user part of an auth answer: `_id username email avatarUrl`. */
  datatype AuthCard = AuthCard(id: Id, username: string, email: string, avatarUrl: string)

  /** `{ token, user }`, with the token's subject in place of the token. */
  datatype AuthAnswer = AuthAnswer(subject: Id, user: AuthCard)

  function CardOf(u: User): AuthCard {
    AuthCard(u.id, u.username, u.email, u.avatarUrl)
  }

  /** The stored form of an email: `email.toLowerCase().trim()`. */
  function NormalEmail(e: string): string {
    Trim(Lower(e))
  }

  /** No two accounts share a username or an email (the schema's unique
      indexes). */
  predicate Accounts(users: seq<User>) {
    forall i, j :: 0 <= i < j < |users| ==> users[i].username != users[j].username && users[i].email != users[j].email
  }

  /** Some account already has this email or this username. */
  predicate Clash(users: seq<User>, email: string, username: string) {
    exists j | 0 <= j < |users| :: users[j].email == email || users[j].username == username
  }

  /** The message of the ValidationError `User.create` throws when the
      `required` rule of the user schema (server/models/User.js:5-6) fails:
      the model's name, then one "path: message" entry per failing path,
      in the schema's order, joined by ", ". */
  function RequiredMessage(nameMissing: bool, emailMissing: bool): (m: string)
    requires nameMissing || emailMissing
  {
    var name := "username: Path `username` is required.";
    var mail := "email: Path `email` is required.";
    "User validation failed: "
    + (if nameMissing && emailMissing then name + ", " + mail else if nameMissing then name else mail)
  }

  datatype AuthOutcome = AuthOutcome(reply: Reply<AuthAnswer>, users: seq<User>)

  /** POST /api/auth/register. Absent fields default to "". The presence
      check runs on the raw values; a clash on the normalised email or the
      trimmed username answers 409; a name or email that trims to nothing
      fails the schema's `required` rule, and the error handler answers
      500 with the validation message. */
  function Register(users: seq<User>, username: Option<string>, email: Option<string>, password: Option<string>,
                    hash: string -> string, newId: Id, now: int): (o: AuthOutcome)
    ensures o.reply.Err? ==> o.users == users
    ensures username.GetOr("") == "" || email.GetOr("") == "" || password.GetOr("") == "" ==>
              o.reply == Err(400, "Missing fields: username, email, password")
    ensures username.GetOr("") != "" && email.GetOr("") != "" && password.GetOr("") != ""
            && Clash(users, NormalEmail(email.GetOr("")), Trim(username.GetOr(""))) ==>
              o.reply == Err(409, "Username or email already in use")
    ensures username.GetOr("") != "" && email.GetOr("") != "" && password.GetOr("") != ""
            && !Clash(users, NormalEmail(email.GetOr("")), Trim(username.GetOr("")))
            && (Trim(username.GetOr("")) == "" || NormalEmail(email.GetOr("")) == "") ==>
              o.reply == Err(500, RequiredMessage(Trim(username.GetOr("")) == "", NormalEmail(email.GetOr("")) == ""))
    ensures o.reply.Ok? <==>
              username.GetOr("") != "" && email.GetOr("") != "" && password.GetOr("") != ""
              && !Clash(users, NormalEmail(email.GetOr("")), Trim(username.GetOr("")))
              && Trim(username.GetOr("")) != "" && NormalEmail(email.GetOr("")) != ""
    ensures o.reply.Ok? ==>
              var u := User(newId, Trim(username.GetOr("")), NormalEmail(email.GetOr("")), Some(hash(password.GetOr(""))),
                            "", Some(""), now, now);
              o.users == users + [u] && o.reply.body == AuthAnswer(newId, CardOf(u))
  {
    var name, mail, pwd := username.GetOr(""), email.GetOr(""), password.GetOr("");
    if name == "" || mail == "" || pwd == "" then
      AuthOutcome(Err(400, "Missing fields: username, email, password"), users)
    else if Clash(users, NormalEmail(mail), Trim(name)) then
      AuthOutcome(Err(409, "Username or email already in use"), users)
    else if Trim(name) == "" || NormalEmail(mail) == "" then
      AuthOutcome(Err(500, RequiredMessage(Trim(name) == "", NormalEmail(mail) == "")), users)
    else
      var u := User(newId, Trim(name), NormalEmail(mail), Some(hash(pwd)), "", Some(""), now, now);
      AuthOutcome(Ok(AuthAnswer(newId, CardOf(u))), users + [u])
  }

  /** Registration keeps usernames and emails unique. */
  lemma RegisterKeepsAccounts(users: seq<User>, username: Option<string>, email: Option<string>, password: Option<string>,
                              hash: string -> string, newId: Id, now: int)
    requires Accounts(users)
    ensures Accounts(Register(users, username, email, password, hash, newId, now).users)
  {
    var o := Register(users, username, email, password, hash, newId, now);
    if o.reply.Ok? {
      var n := |users|;
      forall i, j | 0 <= i < j < |o.users|
        ensures o.users[i].username != o.users[j].username && o.users[i].email != o.users[j].email
      {
        if j == n {
          assert o.users[i] == users[i];
        }
      }
    }
  }

  /** `(identifier ?? email ?? username ?? "").toString().trim()`: the first
      field that is present, even an empty one, then trimmed. */
  function LoginIdentifier(identifier: Option<string>, email: Option<string>, username: Option<string>): (id: string)
    ensures identifier.Some? ==> id == Trim(identifier.value)
    ensures identifier.None? && email.Some? ==> id == Trim(email.value)
    ensures identifier.None? && email.None? ==> id == Trim(username.GetOr(""))
  {
    var raw := if identifier.Some? then identifier.value else if email.Some? then email.value else username.GetOr("");
    Trim(raw)
  }

  /** A present but empty identifier shadows a good email: the login then
      fails its presence check. */
  lemma EmptyIdentifierWins(email: string, username: Option<string>)
    ensures LoginIdentifier(Some(""), Some(email), username) == ""
  {
    assert TrimStart("") == "";
    assert TrimEnd("") == "";
  }

  /** The account a login identifier names: by lowercased email when it
      contains "@", else by exact username; the first match, or -1. */
  function LookupAccount(users: seq<User>, id: string): (k: int)
    ensures -1 <= k < |users|
    ensures Contains(id, "@") && k >= 0 ==> users[k].email == Lower(id) && forall j :: 0 <= j < k ==> users[j].email != Lower(id)
    ensures Contains(id, "@") && k < 0 ==> forall j :: 0 <= j < |users| ==> users[j].email != Lower(id)
    ensures !Contains(id, "@") && k >= 0 ==> users[k].username == id && forall j :: 0 <= j < k ==> users[j].username != id
    ensures !Contains(id, "@") && k < 0 ==> forall j :: 0 <= j < |users| ==> users[j].username != id
  {
    if Contains(id, "@") then FindIndex(users, (u: User) => u.email == Lower(id))
    else FindIndex(users, (u: User) => u.username == id)
  }

  /** POST /api/auth/login. An unknown account, an account without a
      password hash and a wrong password all get the same 401. */
  function Login(users: seq<User>, identifier: Option<string>, email: Option<string>, username: Option<string>,
                 password: Option<string>, compare: (string, string) -> bool): (r: Reply<AuthAnswer>)
    ensures var id := LoginIdentifier(identifier, email, username);
            id == "" || password.GetOr("") == "" ==>
              r == Err(400, "Missing fields: identifier/email/username and password")
    ensures var id := LoginIdentifier(identifier, email, username);
            id != "" && password.GetOr("") != "" && r.Err? ==> r == Err(401, "Invalid credentials")
    ensures r.Ok? <==>
              var id := LoginIdentifier(identifier, email, username);
              var k := LookupAccount(users, id);
              id != "" && password.GetOr("") != "" && k >= 0
              && users[k].passwordHash.GetOr("") != ""
              && compare(password.GetOr(""), users[k].passwordHash.value)
    ensures r.Ok? ==>
              var k := LookupAccount(users, LoginIdentifier(identifier, email, username));
              r.body == AuthAnswer(users[k].id, CardOf(users[k]))
  {
    var id := LoginIdentifier(identifier, email, username);
    var pwd := password.GetOr("");
    if id == "" || pwd == "" then Err(400, "Missing fields: identifier/email/username and password")
    else
      var k := LookupAccount(users, id);
      if k < 0 || users[k].passwordHash.GetOr("") == "" then Err(401, "Invalid credentials")
      else if !compare(pwd, users[k].passwordHash.value) then Err(401, "Invalid credentials")
      else Ok(AuthAnswer(users[k].id, CardOf(users[k])))
  }

  /** A login whose identifier names an account with a hash that accepts
      the password answers with that account. */
  lemma LoginSucceeds(users: seq<User>, identifier: Option<string>, email: Option<string>, username: Option<string>,
                      password: string, compare: (string, string) -> bool, k: nat)
    requires k < |users| && LookupAccount(users, LoginIdentifier(identifier, email, username)) == k
    requires LoginIdentifier(identifier, email, username) != "" && password != ""
    requires users[k].passwordHash.Some? && users[k].passwordHash.value != ""
    requires compare(password, users[k].passwordHash.value)
    ensures Login(users, identifier, email, username, Some(password), compare) == Ok(AuthAnswer(users[k].id, CardOf(users[k])))
  {
    var r := Login(users, identifier, email, username, Some(password), compare);
    assert r.Ok?;
    assert r.body == AuthAnswer(users[k].id, CardOf(users[k]));
  }

  /** Whoever registers can log in with the email as they typed it, when it
      contains "@" and bcrypt accepts the password against its hash. */
  lemma RegisterThenLoginByEmail(users: seq<User>, username: string, email: string, password: string,
                                 hash: string -> string, compare: (string, string) -> bool, newId: Id, now: int)
    requires Register(users, Some(username), Some(email), Some(password), hash, newId, now).reply.Ok?
    requires Contains(Trim(email), "@")
    requires hash(password) != "" && compare(password, hash(password))
    ensures var o := Register(users, Some(username), Some(email), Some(password), hash, newId, now);
            Login(o.users, None, Some(email), None, Some(password), compare) == o.reply
  {
    var o := Register(users, Some(username), Some(email), Some(password), hash, newId, now);
    var id := LoginIdentifier(None, Some(email), None);
    var n := |users|;
    assert !Clash(users, NormalEmail(email), Trim(username));
    NewAccountFoundByEmail(users, o.users[n], email);
    assert o.users == users + [o.users[n]];
    assert id != "" by { assert Contains(id, "@"); }
    LoginSucceeds(o.users, None, Some(email), None, password, compare, n);
  }

  lemma NewAccountFoundByEmail(users: seq<User>, u: User, email: string)
    requires Contains(Trim(email), "@")
    requires u.email == NormalEmail(email)
    requires forall j :: 0 <= j < |users| ==> users[j].email != NormalEmail(email)
    ensures LookupAccount(users + [u], Trim(email)) == |users|
  {
    LowerTrimCommute(email);
    var all := users + [u];
    assert forall j :: 0 <= j < |users| ==> all[j] == users[j];
    assert all[|users|] == u;
  }

  /** Likewise with the username, when it has no "@". */
  lemma RegisterThenLoginByName(users: seq<User>, username: string, email: string, password: string,
                                hash: string -> string, compare: (string, string) -> bool, newId: Id, now: int)
    requires Register(users, Some(username), Some(email), Some(password), hash, newId, now).reply.Ok?
    requires !Contains(Trim(username), "@")
    requires hash(password) != "" && compare(password, hash(password))
    ensures var o := Register(users, Some(username), Some(email), Some(password), hash, newId, now);
            Login(o.users, Some(username), None, None, Some(password), compare) == o.reply
  {
    var o := Register(users, Some(username), Some(email), Some(password), hash, newId, now);
    var id := LoginIdentifier(Some(username), None, None);
    assert id == Trim(username);
    var n := |users|;
    assert o.users[n].username == id;
    assert !Clash(users, NormalEmail(email), Trim(username));
    assert forall j :: 0 <= j < n ==> o.users[j] == users[j] && users[j].username != id;
    assert LookupAccount(o.users, id) == n;
    LoginSucceeds(o.users, Some(username), None, None, password, compare, n);
  }

  /** GET /api/auth/me: the requester's card, or null. */
  function AuthMe(users: seq<User>, me: Id): (r: Option<AuthCard>)
    ensures r.None? <==> forall j :: 0 <= j < |users| ==> users[j].id != me
    ensures r.Some? ==> exists j :: 0 <= j < |users| && users[j].id == me && r.value == CardOf(users[j])
  {
    var k := FindIndex(users, (u: User) => u.id == me);
    if k < 0 then None else Some(CardOf(users[k]))
  }
}

=== FILE: chat_client.dfy ===
/** client/src/pages/Chat.jsx: the media element of a message (the proxy
    route first, then the stored URL), what `send` posts and how it
    appends the answer, opening a conversation, and which participant is
    the peer. */
module ChatClient {
  import opened Common
  import opened Strings
  import opened Records
  import PostCard
  import ChatRoutes

  /** `${serverOrigin}/api/chat/messages/${msg._id}/media` */
  function ProxyUrl(origin: string, id: Id): string {
    origin + "/api/chat/messages/" + id + "/media"
  }

  /** The `list` memo: the proxy route, then the stored `mediaUrl` when it
      is a non-empty string. */
  function MediaList(origin: string, m: Message): (l: seq<string>)
    ensures 1 <= |l| <= 2
    ensures l[0] == ProxyUrl(origin, m.id)
    ensures |l| == 2 <==> m.mediaUrl.GetOr("") != ""
    ensures |l| == 2 ==> l[1] == m.mediaUrl.value
    ensures "" !in l
  {
    var primary := ProxyUrl(origin, m.id);
    assert primary != "" by { assert |primary| >= |"/api/chat/messages/"|; }
    if m.mediaUrl.GetOr("") != "" then [primary, m.mediaUrl.value] else [primary]
  }

  /** The `ChatMedia` element: the message, the candidate index, and
      whether the image was marked "image not found" (the handler writes
      `alt` and `opacity` on the DOM node, which later renders leave as
      they are). */
  datatype MediaView = MediaView(msg: Message, i: nat, marked: bool)

  function Mounted(m: Message): MediaView {
    MediaView(m, 0, false)
  }

  /** What the bubble shows: nothing, an audio player, or an image. */
  datatype Shown = NoMedia | AudioPlayer(src: string) | Picture(src: string, dimmed: bool)

  /** `{m.mediaType && <ChatMedia msg={m} />}` and its body: `null` without
      a media type or a source, `<audio>` for "audio", an image otherwise. */
  function Render(origin: string, v: MediaView): (s: Shown)
    ensures v.msg.mediaType.None? ==> s == NoMedia
    ensures v.msg.mediaType.Some? && v.i < |MediaList(origin, v.msg)| ==> s != NoMedia
    ensures s.AudioPlayer? ==> v.msg.mediaType == Some(ChatAudio) && s.src in MediaList(origin, v.msg)
    ensures s.Picture? ==> v.msg.mediaType == Some(ChatImage) && s.src in MediaList(origin, v.msg) && s.dimmed == v.marked
  {
    var l := MediaList(origin, v.msg);
    var src := PostCard.Src(l, v.i);
    if v.msg.mediaType.None? || src == "" then NoMedia
    else if v.msg.mediaType == Some(ChatAudio) then AudioPlayer(src)
    else
      assert v.msg.mediaType.value == ChatImage;
      Picture(src, v.marked)
  }

  /** `<audio onError={tryNext}>` */
  function OnAudioError(origin: string, v: MediaView): (w: MediaView)
    ensures w.msg == v.msg && w.marked == v.marked
    ensures w.i == PostCard.TryNext(v.i, |MediaList(origin, v.msg)|)
  {
    v.(i := PostCard.TryNext(v.i, |MediaList(origin, v.msg)|))
  }

  /** The image's `onError` as written: `prev` and the `i` it is compared
      with are the same captured value (`setI` only takes effect on the next
      render), so every error marks the image, a fallback or not. */
  function OnImageError(origin: string, v: MediaView): (w: MediaView)
    ensures w.msg == v.msg
    ensures w.i == PostCard.TryNext(v.i, |MediaList(origin, v.msg)|)
    ensures w.marked
  {
    var prev := v.i;
    var captured := v.i;
    v.(i := PostCard.TryNext(v.i, |MediaList(origin, v.msg)|), marked := v.marked || prev == captured)
  }

  /** The handler the comment in it describes: mark the image only once
      there is no fallback left to try. */
  function OnImageErrorIntended(origin: string, v: MediaView): (w: MediaView)
    ensures w.msg == v.msg
    ensures w.i == PostCard.TryNext(v.i, |MediaList(origin, v.msg)|)
    ensures w.marked <==> v.marked || v.i + 1 >= |MediaList(origin, v.msg)|
  {
    var next := PostCard.TryNext(v.i, |MediaList(origin, v.msg)|);
    v.(i := next, marked := v.marked || next == v.i)
  }

  /** The view after `k` image errors from mounting, as written and as
      intended. */
  function ImageAfter(origin: string, m: Message, k: nat): MediaView {
    if k == 0 then Mounted(m) else OnImageError(origin, ImageAfter(origin, m, k - 1))
  }

  function IntendedAfter(origin: string, m: Message, k: nat): MediaView {
    if k == 0 then Mounted(m) else OnImageErrorIntended(origin, IntendedAfter(origin, m, k - 1))
  }

  /** `useEffect(() => setI(0), [msg._id, msg.mediaUrl])`: a new id or URL
      starts over from the proxy; the mark stays on the DOM node. */
  function OnProps(origin: string, v: MediaView, m: Message): (w: MediaView)
    ensures w.msg == m && w.marked == v.marked
    ensures m.id != v.msg.id || m.mediaUrl != v.msg.mediaUrl ==> w.i == 0
    ensures v.i < |MediaList(origin, v.msg)| ==> w.i < |MediaList(origin, m)|
  {
    if m.id != v.msg.id || m.mediaUrl != v.msg.mediaUrl then v.(msg := m, i := 0)
    else v.(msg := m)
  }

  /** Audio errors walk the list and stop at its last entry; the player
      never disappears. */
  lemma AudioErrorsWalkTheList(origin: string, m: Message, k: nat)
    requires m.mediaType == Some(ChatAudio)
    ensures var n := |MediaList(origin, m)|;
            var v := MediaView(m, PostCard.AfterErrors(0, n, k), false);
            v.i == (if k < n - 1 then k else n - 1) && Render(origin, v).AudioPlayer?
  {
    PostCard.ErrorsWalkTheList(|MediaList(origin, m)|, k);
  }

  /** As written, the first failure of the proxy image dims the stored
      image that replaces it, although that fallback may load. */
  lemma FallbackImageDimmed(origin: string, m: Message)
    requires m.mediaType == Some(ChatImage) && m.mediaUrl.GetOr("") != ""
    ensures Render(origin, ImageAfter(origin, m, 1)) == Picture(m.mediaUrl.value, true)
    ensures Render(origin, IntendedAfter(origin, m, 1)) == Picture(m.mediaUrl.value, false)
  {
  }

  /** As intended, after `k` errors the image shows candidate min(k, n-1)
      and is marked exactly when an error hit the last candidate. */
  lemma {:induction false} IntendedMarksOnlyAtEnd(origin: string, m: Message, k: nat)
    ensures var n := |MediaList(origin, m)|;
            var v := IntendedAfter(origin, m, k);
            v.msg == m && v.i == (if k < n - 1 then k else n - 1) && (v.marked <==> k >= n)
  {
    if k > 0 {
      IntendedMarksOnlyAtEnd(origin, m, k - 1);
    }
  }

  /** As written, any error marks the image, whatever is left to try. */
  lemma {:induction false} ImageMarkedAfterAnyError(origin: string, m: Message, k: nat)
    requires k >= 1
    ensures var n := |MediaList(origin, m)|;
            var v := ImageAfter(origin, m, k);
            v.msg == m && v.i == (if k < n - 1 then k else n - 1) && v.marked
  {
    if k > 1 {
      ImageMarkedAfterAnyError(origin, m, k - 1);
    }
  }

  /** `String(m.sender?._id || m.sender) === String(me)`: the bubble is the
      viewer's own. */
  predicate Mine(m: Message, me: Option<Id>) {
    m.sender == Stringify(me)
  }

  /** `peer`: nobody without a conversation or a signed-in viewer, else
      the first participant other than the viewer, if any. */
  function Peer(c: Option<Conversation>, me: Option<Id>): (r: Option<Id>)
    ensures c.None? || me.GetOr("") == "" ==> r.None?
    ensures r.Some? ==> c.Some? && r.value in c.value.participants && r.value != me.GetOr("")
    ensures r.Some? ==> exists k :: 0 <= k < |c.value.participants| && c.value.participants[k] == r.value
                                     && forall j :: 0 <= j < k ==> c.value.participants[j] == me.value
    ensures c.Some? && me.GetOr("") != "" && r.None? ==> forall p :: p in c.value.participants ==> p == me.value
  {
    if c.None? || me.GetOr("") == "" then None
    else
      var ps := c.value.participants;
      var k := FindIndex(ps, (p: Id) => p != me.value);
      if k < 0 then None else Some(ps[k])
  }

  /** The page's state: the open conversation, its messages as shown, and
      the two inputs. */
  datatype ChatView = ChatView(conversation: Option<Conversation>, messages: seq<Message>, text: string, file: Option<Upload>)

  /** `openConversationWith(userId)`: on success the answer becomes the
      conversation and its messages are loaded; a failed load leaves the
      previous messages. On failure (an alert) nothing changes. */
  function OpenWith(v: ChatView, st: ChatRoutes.ChatState, me: Id, userId: Id, isId: Id -> bool, newId: Id, now: int)
    : (r: (ChatView, ChatRoutes.ChatState))
    ensures var o := ChatRoutes.OpenConversation(st, me, userId, isId, newId, now);
            r.1 == o.state
            && (o.reply.Err? ==> r.0 == v)
            && (o.reply.Ok? ==> r.0.conversation == Some(o.reply.body) && r.0.text == v.text && r.0.file == v.file)
  {
    var o := ChatRoutes.OpenConversation(st, me, userId, isId, newId, now);
    if o.reply.Err? then (v, st)
    else
      var c := o.reply.body;
      var loaded := ChatRoutes.GetMessages(o.state, c.id, me, isId);
      (v.(conversation := Some(c), messages := if loaded.Ok? then loaded.body else v.messages), o.state)
  }

  /** Whoever one opens a chat with is the peer the header names. */
  lemma OpenedChatIsWithPeer(v: ChatView, st: ChatRoutes.ChatState, me: Id, userId: Id, isId: Id -> bool, newId: Id, now: int)
    requires me != ""
    requires ChatRoutes.OpenConversation(st, me, userId, isId, newId, now).reply.Ok?
    ensures Peer(OpenWith(v, st, me, userId, isId, newId, now).0.conversation, Some(me)) == Some(userId)
  {
    var c := ChatRoutes.OpenConversation(st, me, userId, isId, newId, now).reply.body;
    var ps := c.participants;
    assert |ps| == 2 && me in ps && userId in ps && userId != me;
    if ps[0] == me {
      assert ps[1] == userId;
    } else {
      assert ps[0] == userId;
    }
  }

  /** The `FormData` of `send`: a "text" field only for non-blank text
      (trimmed), a "media" field only with a file. */
  datatype Form = Form(text: Option<string>, media: Option<Upload>)

  /** `send`'s guards and form: nothing is posted without a conversation
      id, or with blank text and no file. */
  function SendForm(c: Option<Conversation>, text: string, file: Option<Upload>): (f: Option<Form>)
    ensures f.None? <==> c.None? || c.value.id == "" || (IsBlank(text) && file.None?)
    ensures f.Some? ==> f.value.media == file
    ensures f.Some? ==> (f.value.text.Some? <==> !IsBlank(text))
    ensures f.Some? ==> f.value.text.GetOr("") == Trim(text)
  {
    var txt := Trim(text);
    if c.None? || c.value.id == "" then None
    else if txt == "" && file.None? then None
    else Some(Form(if txt != "" then Some(txt) else None, file))
  }

  /** `setMessages(m => [...m, data.message])` and the cleared inputs after
      an answer; after an error (an alert) nothing changes. */
  function AfterSend(v: ChatView, reply: Reply<Message>): (w: ChatView)
    ensures w.conversation == v.conversation
    ensures reply.Err? ==> w == v
    ensures reply.Ok? ==> w.messages == v.messages + [reply.body]
    ensures reply.Ok? ==> w.text == "" && w.file.None?
  {
    if reply.Err? then v else v.(messages := v.messages + [reply.body], text := "", file := None)
  }

  /** The whole of `send` against the server: the form goes to
      POST /api/chat/conversations/:id/messages, whose `text` reads the
      field or "". */
  function Send(v: ChatView, st: ChatRoutes.ChatState, me: Id, isId: Id -> bool,
                envBase: Option<string>, reqBase: string, messageId: Id, now: int): (r: (ChatView, ChatRoutes.ChatState))
    ensures SendForm(v.conversation, v.text, v.file).None? ==> r == (v, st)
  {
    match SendForm(v.conversation, v.text, v.file)
    case None => (v, st)
    case Some(f) =>
      var o := ChatRoutes.SendMessage(st, v.conversation.value.id, me, f.text.GetOr(""), f.media, isId, envBase, reqBase, messageId, now);
      (AfterSend(v, o.reply), o.state)
  }

  /** What `send` posts never gets the server's "Provide text or a media
      file" answer; an accepted message carries the trimmed text, and the
      viewer's own bubble shows it. */
  lemma FormPassesPresenceCheck(c: Conversation, text: string, file: Option<Upload>, st: ChatRoutes.ChatState, me: Id,
                                isId: Id -> bool, envBase: Option<string>, reqBase: string, messageId: Id, now: int)
    requires SendForm(Some(c), text, file).Some?
    ensures var f := SendForm(Some(c), text, file).value;
            var o := ChatRoutes.SendMessage(st, c.id, me, f.text.GetOr(""), f.media, isId, envBase, reqBase, messageId, now);
            && o.reply != Err(400, "Provide text or a media file")
            && ((ChatRoutes.Access(st.convos, c.id, me, isId).Ok?
                 && (file.Some? ==> ChatRoutes.ChatMediaOf(file.value.mimetype).Some?)) ==> o.reply.Ok?)
            && (o.reply.Ok? ==> o.reply.body.text == Trim(text) && Mine(o.reply.body, Some(me)))
  {
    TrimIdempotent(text);
  }

  /** After a successful send the list holds what a reload of the
      conversation would, when it held the last load's answer. */
  lemma SendMatchesReload(v: ChatView, st: ChatRoutes.ChatState, me: Id, isId: Id -> bool,
                          envBase: Option<string>, reqBase: string, messageId: Id, now: int)
    requires v.conversation.Some?
    requires ChatRoutes.GetMessages(st, v.conversation.value.id, me, isId).Ok?
    requires v.messages == ChatRoutes.GetMessages(st, v.conversation.value.id, me, isId).body
    ensures var r := Send(v, st, me, isId, envBase, reqBase, messageId, now);
            var reload := ChatRoutes.GetMessages(r.1, v.conversation.value.id, me, isId);
            reload.Ok? && multiset(r.0.messages) == multiset(reload.body)
  {
    var id := v.conversation.value.id;
    var f := SendForm(v.conversation, v.text, v.file);
    if f.Some? {
      var o := ChatRoutes.SendMessage(st, id, me, f.value.text.GetOr(""), f.value.media, isId, envBase, reqBase, messageId, now);
      if o.reply.Ok? {
        ChatRoutes.SentMessageIsListed(st, id, me, f.value.text.GetOr(""), f.value.media, isId, envBase, reqBase, messageId, now);
        var keep := (m: Message) => m.conversation == id;
        FilterAppend(st.messages, [o.reply.body], keep);
        assert Filter([o.reply.body], keep) == [o.reply.body];
      }
    }
  }
}

=== FILE: chat_routes.dfy ===
/** The decision logic of server/routes/chatRoutes.js: the people one can
    chat with, finding or opening a two-person conversation, reading its
    messages, sending a text or media message, and the media file behind a
    message. Conversations and messages are sequences; `isId` stands for
    `mongoose.isValidObjectId` and `pathnameOf` for `new URL(s).pathname`. */
module ChatRoutes {
  import opened Common
  import opened Strings
  import opened Records
  import opened Sorting
  import PostRoutes

  /** The chat variant of `filenameFromUrl`: like the post routes' one,
      except that an http(s) URL that does not parse falls back to its
      last slash-separated piece instead of "". */
  function FilenameFromUrl(u: string, pathnameOf: string -> Option<string>): (r: string)
    ensures '/' !in r
    ensures IsHttpUrl(u) && pathnameOf(u).Some? ==> r == AfterLastSlash(StripTrailingSlashes(pathnameOf(u).value))
    ensures IsHttpUrl(u) && pathnameOf(u).None? ==> r == AfterLastSlash(u)
    ensures !(IsHttpUrl(u) && pathnameOf(u).Some?) ==> EndsWith(u, r)
    ensures !IsHttpUrl(u) ==> r == AfterLastSlash(StripUploads(StripLeadingSlashes(u), true))
  {
    if IsHttpUrl(u) then
      match pathnameOf(u)
      case Some(p) =>
        LastNonEmptySegment(p);
        LastNonEmpty(SplitOn(p, '/'))
      case None => AfterLastSlash(u)
    else
      var a := StripLeadingSlashes(u);
      var b := StripUploads(a, true);
      var r := AfterLastSlash(b);
      SuffixOfSuffix(u, a, b);
      SuffixOfSuffix(u, b, r);
      r
  }

  /** The two `filenameFromUrl` helpers agree except on an http(s) URL the
      URL parser rejects. */
  lemma FilenameHelpersAgree(u: string, pathnameOf: string -> Option<string>)
    ensures !(IsHttpUrl(u) && pathnameOf(u).None?) ==>
              FilenameFromUrl(u, pathnameOf) == PostRoutes.FilenameFromUrl(u, pathnameOf)
    ensures IsHttpUrl(u) && pathnameOf(u).None? ==>
              PostRoutes.FilenameFromUrl(u, pathnameOf) == "" && FilenameFromUrl(u, pathnameOf) == AfterLastSlash(u)
  {
  }

  /** `publicUrl(req, filename)`: unlike the post routes, the base keeps
      any trailing slash. */
  function PublicUrl(envBase: Option<string>, reqBase: string, filename: string): (url: string)
    ensures var base := if envBase.Some? && envBase.value != "" then envBase.value else reqBase;
            StartsWith(url, base) && url[|base|..] == "/uploads/" + filename
  {
    var base := if envBase.Some? && envBase.value != "" then envBase.value else reqBase;
    var url := base + "/uploads/" + filename;
    assert url[..|base|] == base;
    url
  }

  /** With a base ending in a slash the chat URL has a doubled slash where
      the post URL has one. */
  lemma PublicUrlKeepsTrailingSlash(host: string, filename: string)
    ensures PublicUrl(Some(host + "/"), "", filename) == host + "//uploads/" + filename
    ensures PostRoutes.ToPublicUrl(Some(host + "/"), "", filename) == StripTrailingSlashes(host) + "/uploads/" + filename
  {
    var b := host + "/";
    assert b[|b| - 1] == '/' && b[..|b| - 1] == host;
    assert b + "/uploads/" + filename == host + "//uploads/" + filename;
  }

  /** A user as the chat list shows it: `_id username avatarUrl`. */
  datatype Card = Card(id: Id, username: string, avatarUrl: string)

  function CardOf(u: User): Card {
    Card(u.id, u.username, u.avatarUrl)
  }

  function Cards(us: seq<User>): (cs: seq<Card>)
    ensures |cs| == |us|
    ensures forall i :: 0 <= i < |us| ==> cs[i] == CardOf(us[i])
  {
    if |us| == 0 then [] else [CardOf(us[0])] + Cards(us[1..])
  }

  const UserListLimit: nat := 50

  /** Who the chat list may show for the trimmed query `q`: anyone but the
      requester, and with a non-blank query only users `matches` accepts
      (it stands for the case-insensitive regex test on username or
      email). */
  predicate Listable(u: User, me: Id, q: string, matches: (string, User) -> bool) {
    u.id != me && (q != "" ==> matches(q, u))
  }

  /** The users `User.find(find)` selects, in stored order. */
  function ListHits(users: seq<User>, me: Id, q: string, matches: (string, User) -> bool): (hits: seq<User>)
    ensures forall u :: u in hits <==> u in users && Listable(u, me, q, matches)
  {
    Filter(users, (u: User) => Listable(u, me, q, matches))
  }

  /** What the error handler of server/src/index.js answers for an error
      thrown without a status: 500 with its message. */
  function Thrown<T>(message: string): (r: Reply<T>)
    ensures r.Err? && r.status == 500 && r.error != ""
    ensures message != "" ==> r.error == message
  {
    Err(500, if message == "" then "Server error" else message)
  }

  /** GET /api/chat/users: the first 50 listable users, in stored order,
      as cards. A non-blank query is compiled with `new RegExp(q, "i")`,
      which throws when it is not a valid pattern; `regexError` gives the
      SyntaxError's message for such a query, and the error then reaches
      the error handler. */
  function ListUsers(users: seq<User>, me: Id, rawQ: string, matches: (string, User) -> bool,
                     regexError: string -> Option<string>): (r: Reply<seq<Card>>)
    ensures r.Err? <==> Trim(rawQ) != "" && regexError(Trim(rawQ)).Some?
    ensures r.Err? ==> r == Thrown(regexError(Trim(rawQ)).value)
    ensures r.Ok? ==>
              var hits := ListHits(users, me, Trim(rawQ), matches);
              && |r.body| == (if |hits| <= UserListLimit then |hits| else UserListLimit)
              && forall i :: 0 <= i < |r.body| ==> r.body[i] == CardOf(hits[i])
    ensures r.Ok? ==> forall c :: c in r.body ==> exists u :: u in users && c == CardOf(u) && Listable(u, me, Trim(rawQ), matches)
  {
    var q := Trim(rawQ);
    if q != "" && regexError(q).Some? then Thrown(regexError(q).value)
    else Ok(ListedCards(users, me, q, matches))
  }

  /** The cards of the first 50 listable users, in stored order. */
  function ListedCards(users: seq<User>, me: Id, q: string, matches: (string, User) -> bool): (cs: seq<Card>)
    ensures var hits := ListHits(users, me, q, matches);
            && |cs| == (if |hits| <= UserListLimit then |hits| else UserListLimit)
            && forall i :: 0 <= i < |cs| ==> cs[i] == CardOf(hits[i])
    ensures forall c :: c in cs ==> exists u :: u in users && c == CardOf(u) && Listable(u, me, q, matches)
  {
    var hits := ListHits(users, me, q, matches);
    var shown := Take(hits, UserListLimit);
    assert |shown| == (if |hits| <= UserListLimit then |hits| else UserListLimit);
    var cs := Cards(shown);
    CardsOfHitsSound(users, me, q, matches, cs);
    cs
  }

  /** Cards taken, in order, from the listable users are each a listable
      user's card. */
  lemma CardsOfHitsSound(users: seq<User>, me: Id, q: string, matches: (string, User) -> bool, cs: seq<Card>)
    requires |cs| <= |ListHits(users, me, q, matches)|
    requires forall i :: 0 <= i < |cs| ==> cs[i] == CardOf(ListHits(users, me, q, matches)[i])
    ensures forall c :: c in cs ==> exists u :: u in users && c == CardOf(u) && Listable(u, me, q, matches)
  {
    var hits := ListHits(users, me, q, matches);
    forall c | c in cs
      ensures exists u :: u in users && c == CardOf(u) && Listable(u, me, q, matches)
    {
      var i :| 0 <= i < |cs| && cs[i] == c;
      assert hits[i] in hits;
    }
  }

  /** When at most 50 users are listable and the query compiles (or is
      blank), every listable user is in the list. */
  lemma ListUsersComplete(users: seq<User>, me: Id, rawQ: string, matches: (string, User) -> bool,
                          regexError: string -> Option<string>, u: User)
    requires Trim(rawQ) == "" || regexError(Trim(rawQ)).None?
    requires |ListHits(users, me, Trim(rawQ), matches)| <= UserListLimit
    requires u in users && Listable(u, me, Trim(rawQ), matches)
    ensures ListUsers(users, me, rawQ, matches, regexError).Ok?
    ensures CardOf(u) in ListUsers(users, me, rawQ, matches, regexError).body
  {
    var hits := ListHits(users, me, Trim(rawQ), matches);
    var r := ListUsers(users, me, rawQ, matches, regexError);
    assert u in hits;
    var k :| 0 <= k < |hits| && hits[k] == u;
    assert r.body[k] == CardOf(u);
  }

  /** The conversation `findOne` looks for: exactly two participants,
      both people among them. */
  predicate IsPairOf(c: Conversation, a: Id, b: Id) {
    |c.participants| == 2 && a in c.participants && b in c.participants
  }

  datatype ChatState = ChatState(convos: seq<Conversation>, messages: seq<Message>)

  datatype ChatOutcome<T> = ChatOutcome(reply: Reply<T>, state: ChatState)

  /** POST /api/chat/conversations: the first conversation of exactly the
      two people, or a new one appended. `userId` is
      `(req.body?.userId || "").toString()`. */
  function OpenConversation(st: ChatState, me: Id, userId: string, isId: Id -> bool, newId: Id, now: int): (o: ChatOutcome<Conversation>)
    ensures !isId(userId) ==> o == ChatOutcome(Err(400, "Invalid userId"), st)
    ensures isId(userId) && userId == me ==> o == ChatOutcome(Err(400, "Cannot chat with yourself"), st)
    ensures o.reply.Ok? <==> isId(userId) && userId != me
    ensures o.reply.Ok? ==> IsPairOf(o.reply.body, me, userId) && o.reply.body in o.state.convos
    ensures o.state.messages == st.messages
    ensures o.reply.Ok? ==>
              (o.state.convos == st.convos && o.reply.body == st.convos[FindIndex(st.convos, (c: Conversation) => IsPairOf(c, me, userId))])
              || (o.state.convos == st.convos + [Conversation(newId, [me, userId], now)]
                  && o.reply.body == Conversation(newId, [me, userId], now)
                  && forall c :: c in st.convos ==> !IsPairOf(c, me, userId))
  {
    if !isId(userId) then ChatOutcome(Err(400, "Invalid userId"), st)
    else if userId == me then ChatOutcome(Err(400, "Cannot chat with yourself"), st)
    else
      var k := FindIndex(st.convos, (c: Conversation) => IsPairOf(c, me, userId));
      if k >= 0 then ChatOutcome(Ok(st.convos[k]), st)
      else
        var c := Conversation(newId, [me, userId], now);
        ChatOutcome(Ok(c), st.(convos := st.convos + [c]))
  }

  /** Opening the same chat again, from either side, returns the same
      conversation and creates nothing. */
  lemma {:induction false} OpenConversationStable(st: ChatState, me: Id, other: Id, isId: Id -> bool,
                                                  id1: Id, id2: Id, t1: int, t2: int)
    requires isId(me) && isId(other) && me != other
    requires OpenConversation(st, me, other, isId, id1, t1).reply.Ok?
    ensures var o1 := OpenConversation(st, me, other, isId, id1, t1);
            var o2 := OpenConversation(o1.state, other, me, isId, id2, t2);
            o2.reply == o1.reply && o2.state == o1.state
  {
    var o1 := OpenConversation(st, me, other, isId, id1, t1);
    var p1 := (c: Conversation) => IsPairOf(c, me, other);
    var p2 := (c: Conversation) => IsPairOf(c, other, me);
    var k := FindIndex(st.convos, p1);
    SameFirstIndex(st.convos, p1, p2);
    if k < 0 {
      var cs := st.convos + [Conversation(id1, [me, other], t1)];
      SameFirstIndex(cs, p1, p2);
      assert FindIndex(cs, p1) == |st.convos| by { FirstIndexAtEnd(st.convos, Conversation(id1, [me, other], t1), p1); }
    }
  }

  lemma SameFirstIndex<T>(s: seq<T>, p: T -> bool, q: T -> bool)
    requires forall i :: 0 <= i < |s| ==> p(s[i]) == q(s[i])
    ensures FindIndex(s, p) == FindIndex(s, q)
  {
  }

  lemma FirstIndexAtEnd<T>(s: seq<T>, x: T, p: T -> bool)
    requires forall i :: 0 <= i < |s| ==> !p(s[i])
    requires p(x)
    ensures FindIndex(s + [x], p) == |s|
  {
    assert (s + [x])[|s|] == x;
  }

  function FindConversation(convos: seq<Conversation>, id: Id): (i: int)
    ensures -1 <= i < |convos|
    ensures i >= 0 ==> convos[i].id == id
    ensures i == -1 ==> forall j :: 0 <= j < |convos| ==> convos[j].id != id
  {
    FindIndex(convos, (c: Conversation) => c.id == id)
  }

  /** The checks both message routes make, in order: a valid id, an
      existing conversation, the requester among its participants. */
  function Access(convos: seq<Conversation>, id: Id, me: Id, isId: Id -> bool): (r: Reply<nat>)
    ensures !isId(id) ==> r == Err(400, "Invalid conversation id")
    ensures isId(id) && FindConversation(convos, id) < 0 ==> r == Err(404, "Conversation not found")
    ensures r.Ok? <==> isId(id) && FindConversation(convos, id) >= 0 && me in convos[FindConversation(convos, id)].participants
    ensures r.Ok? ==> r.body == FindConversation(convos, id)
    ensures isId(id) && FindConversation(convos, id) >= 0 && me !in convos[FindConversation(convos, id)].participants ==>
              r == Err(403, "Not a participant")
    ensures r.Err? && r.status == 403 ==> r.error == "Not a participant"
  {
    if !isId(id) then Err(400, "Invalid conversation id")
    else
      var i := FindConversation(convos, id);
      if i < 0 then Err(404, "Conversation not found")
      else if me !in convos[i].participants then Err(403, "Not a participant")
      else Ok(i)
  }

  function MessagesOf(messages: seq<Message>, id: Id): (r: seq<Message>)
    ensures forall m :: m in r <==> m in messages && m.conversation == id
  {
    Filter(messages, (m: Message) => m.conversation == id)
  }

  /** GET /api/chat/conversations/:id/messages: a participant reads the
      conversation's messages, oldest first. */
  function GetMessages(st: ChatState, id: Id, me: Id, isId: Id -> bool): (r: Reply<seq<Message>>)
    ensures r.Err? <==> Access(st.convos, id, me, isId).Err?
    ensures r.Err? ==> r == Err(Access(st.convos, id, me, isId).status, Access(st.convos, id, me, isId).error)
    ensures r.Ok? ==> multiset(r.body) == multiset(MessagesOf(st.messages, id))
    ensures r.Ok? ==> forall m :: m in r.body <==> m in st.messages && m.conversation == id
    ensures r.Ok? ==> forall a, b :: 0 <= a < b < |r.body| ==> r.body[a].createdAt <= r.body[b].createdAt
  {
    match Access(st.convos, id, me, isId)
    case Err(s, e) => Err(s, e)
    case Ok(_) =>
      var sorted := SortBy(MessagesOf(st.messages, id), (m: Message) => m.createdAt);
      assert forall m :: m in sorted <==> m in multiset(sorted);
      Ok(sorted)
  }

  /** The `mediaType` a chat upload gets from its lowercased mime type;
      None rejects the upload. */
  function ChatMediaOf(mimetype: Option<string>): (k: Option<ChatMediaKind>)
    ensures k == Some(ChatImage) <==> StartsWith(Lower(mimetype.GetOr("")), "image/")
    ensures k == Some(ChatAudio) <==> !StartsWith(Lower(mimetype.GetOr("")), "image/") && StartsWith(Lower(mimetype.GetOr("")), "audio/")
  {
    var mime := Lower(mimetype.GetOr(""));
    if StartsWith(mime, "image/") then Some(ChatImage)
    else if StartsWith(mime, "audio/") then Some(ChatAudio)
    else None
  }

  /** POST /api/chat/conversations/:id/messages. `rawText` is
      `(req.body?.text || "").toString()`; `file` is the optional upload. */
  function SendMessage(st: ChatState, id: Id, me: Id, rawText: string, file: Option<Upload>, isId: Id -> bool,
                       envBase: Option<string>, reqBase: string, messageId: Id, now: int): (o: ChatOutcome<Message>)
    ensures o.reply.Err? ==> o.state == st
    ensures Access(st.convos, id, me, isId).Err? ==>
              o.reply == Err(Access(st.convos, id, me, isId).status, Access(st.convos, id, me, isId).error)
    ensures Access(st.convos, id, me, isId).Ok? && IsBlank(rawText) && file.None? ==>
              o.reply == Err(400, "Provide text or a media file")
    ensures Access(st.convos, id, me, isId).Ok? && file.Some? && ChatMediaOf(file.value.mimetype).None? ==>
              o.reply == Err(400, "Only image/* or audio/* allowed")
    ensures o.reply.Ok? <==>
              Access(st.convos, id, me, isId).Ok? && (!IsBlank(rawText) || file.Some?)
              && (file.Some? ==> ChatMediaOf(file.value.mimetype).Some?)
    ensures o.reply.Ok? ==>
              var m := o.reply.body;
              var i := FindConversation(st.convos, id);
              && m == Message(messageId, id, me, Trim(rawText),
                              if file.Some? then Some(PublicUrl(envBase, reqBase, file.value.filename)) else None,
                              if file.Some? then ChatMediaOf(file.value.mimetype) else None, now)
              && (m.text != "" || m.mediaUrl.Some?)
              && (m.mediaUrl.Some? <==> m.mediaType.Some?)
              && o.state.messages == st.messages + [m]
              && o.state.convos == st.convos[i := st.convos[i].(lastMessageAt := now)]
  {
    match Access(st.convos, id, me, isId)
    case Err(s, e) => ChatOutcome(Err(s, e), st)
    case Ok(i) =>
      var text := Trim(rawText);
      if text == "" && file.None? then ChatOutcome(Err(400, "Provide text or a media file"), st)
      else if file.Some? && ChatMediaOf(file.value.mimetype).None? then
        ChatOutcome(Err(400, "Only image/* or audio/* allowed"), st)
      else
        var url := if file.Some? then Some(PublicUrl(envBase, reqBase, file.value.filename)) else None;
        var kind := if file.Some? then ChatMediaOf(file.value.mimetype) else None;
        var m := Message(messageId, id, me, text, url, kind, now);
        ChatOutcome(Ok(m), ChatState(st.convos[i := st.convos[i].(lastMessageAt := now)], st.messages + [m]))
  }

  /** A message that was sent is among the conversation's messages its
      sender reads next. */
  lemma SentMessageIsListed(st: ChatState, id: Id, me: Id, rawText: string, file: Option<Upload>, isId: Id -> bool,
                            envBase: Option<string>, reqBase: string, messageId: Id, now: int)
    requires SendMessage(st, id, me, rawText, file, isId, envBase, reqBase, messageId, now).reply.Ok?
    ensures var o := SendMessage(st, id, me, rawText, file, isId, envBase, reqBase, messageId, now);
            var r := GetMessages(o.state, id, me, isId);
            r.Ok? && o.reply.body in r.body
  {
    var o := SendMessage(st, id, me, rawText, file, isId, envBase, reqBase, messageId, now);
    var i := FindConversation(st.convos, id);
    assert o.state.convos[i] == st.convos[i].(lastMessageAt := now);
    SameIdsFind(st.convos, o.state.convos, id);
  }

  /** With a clock that does not run backwards, a message that was sent
      comes last in the conversation its sender reads next, after exactly
      the messages read before. */
  lemma SentMessageIsLast(st: ChatState, id: Id, me: Id, rawText: string, file: Option<Upload>, isId: Id -> bool,
                          envBase: Option<string>, reqBase: string, messageId: Id, now: int)
    requires SendMessage(st, id, me, rawText, file, isId, envBase, reqBase, messageId, now).reply.Ok?
    requires forall k :: 0 <= k < |st.messages| ==> st.messages[k].createdAt <= now
    ensures var o := SendMessage(st, id, me, rawText, file, isId, envBase, reqBase, messageId, now);
            var before := GetMessages(st, id, me, isId);
            var after := GetMessages(o.state, id, me, isId);
            before.Ok? && after.Ok? && after.body == before.body + [o.reply.body]
  {
    var o := SendMessage(st, id, me, rawText, file, isId, envBase, reqBase, messageId, now);
    var m := o.reply.body;
    SentMessageIsListed(st, id, me, rawText, file, isId, envBase, reqBase, messageId, now);
    MessagesAppendLast(st.messages, m, id);
  }

  /** Appending a message of the conversation that is no older than any
      other message appends it to the conversation's sorted messages. */
  lemma MessagesAppendLast(ms: seq<Message>, m: Message, id: Id)
    requires m.conversation == id
    requires forall k :: 0 <= k < |ms| ==> ms[k].createdAt <= m.createdAt
    ensures var key := (x: Message) => x.createdAt;
            SortBy(MessagesOf(ms + [m], id), key) == SortBy(MessagesOf(ms, id), key) + [m]
  {
    var p := (x: Message) => x.conversation == id;
    FilterAppend(ms, [m], p);
    assert Filter([m], p) == [m] by { assert [m][1..] == []; }
    var xs := MessagesOf(ms, id);
    forall k | 0 <= k < |xs|
      ensures xs[k].createdAt <= m.createdAt
    {
      assert xs[k] in ms;
    }
    SortByAppendLast(xs, m, (x: Message) => x.createdAt);
  }

  lemma SameIdsFind(a: seq<Conversation>, b: seq<Conversation>, id: Id)
    requires |a| == |b|
    requires forall j :: 0 <= j < |a| ==> a[j].id == b[j].id && a[j].participants == b[j].participants
    ensures FindConversation(a, id) == FindConversation(b, id)
  {
    SameFirstIndex(a, (c: Conversation) => c.id == id, (c: Conversation) => c.id == id);
    var p := (c: Conversation) => c.id == id;
    assert forall j :: 0 <= j < |a| ==> p(a[j]) == p(b[j]);
    SameFirstIndexAcross(a, b, p);
  }

  lemma {:induction false} SameFirstIndexAcross<T>(a: seq<T>, b: seq<T>, p: T -> bool)
    requires |a| == |b|
    requires forall j :: 0 <= j < |a| ==> p(a[j]) == p(b[j])
    ensures FindIndex(a, p) == FindIndex(b, p)
  {
    if |a| > 0 {
      SameFirstIndexAcross(a[1..], b[1..], p);
    }
  }

  function FindMessage(messages: seq<Message>, mid: Id): (i: int)
    ensures -1 <= i < |messages|
    ensures i >= 0 ==> messages[i].id == mid
    ensures i == -1 ==> forall j :: 0 <= j < |messages| ==> messages[j].id != mid
  {
    FindIndex(messages, (m: Message) => m.id == mid)
  }

  /** GET /api/chat/messages/:mid/media: the upload file of a message with
      media, when it exists (`fileExists`). The route is public. `Ok(name)`
      stands for handing the path of `name` in the uploads directory to
      `res.sendFile`. */
  function MediaFile(st: ChatState, mid: Id, isId: Id -> bool, pathnameOf: string -> Option<string>,
                     fileExists: string -> bool): (r: Reply<string>)
    ensures !isId(mid) ==> r == Err(400, "Invalid message id")
    ensures isId(mid) && r.Err? ==> r == Err(404, "File not found")
    ensures r.Ok? <==>
              isId(mid) && FindMessage(st.messages, mid) >= 0
              && st.messages[FindMessage(st.messages, mid)].mediaUrl.GetOr("") != ""
              && fileExists(FilenameFromUrl(st.messages[FindMessage(st.messages, mid)].mediaUrl.value, pathnameOf))
    ensures r.Ok? ==> '/' !in r.body && fileExists(r.body)
                      && r.body == FilenameFromUrl(st.messages[FindMessage(st.messages, mid)].mediaUrl.value, pathnameOf)
  {
    if !isId(mid) then Err(400, "Invalid message id")
    else
      var i := FindMessage(st.messages, mid);
      if i < 0 || st.messages[i].mediaUrl.GetOr("") == "" then Err(404, "File not found")
      else
        var fname := FilenameFromUrl(st.messages[i].mediaUrl.value, pathnameOf);
        if !fileExists(fname) then Err(404, "File not found") else Ok(fname)
  }

  /** An http(s) media URL whose parsed path is "/uploads/<name>" names
      that file. */
  lemma UploadsUrlNamesFile(u: string, filename: string, pathnameOf: string -> Option<string>)
    requires '/' !in filename && filename != ""
    requires IsHttpUrl(u) && pathnameOf(u) == Some("/uploads/" + filename)
    ensures FilenameFromUrl(u, pathnameOf) == filename
  {
    var p := "/uploads/" + filename;
    assert StripTrailingSlashes(p) == p by { assert p[|p| - 1] == filename[|filename| - 1]; }
    PostRoutes.AfterLastSlashIs(p, filename);
  }

  /** A message sent with a file under a fresh id, with a public URL whose
      path the URL parser leaves as it is: its media route hands exactly
      the uploaded file to `sendFile` when the file exists, and answers
      404 otherwise. */
  lemma SentFileIsServed(st: ChatState, id: Id, me: Id, rawText: string, f: Upload, isId: Id -> bool,
                         envBase: Option<string>, reqBase: string, messageId: Id, now: int,
                         pathnameOf: string -> Option<string>, fileExists: string -> bool)
    requires SendMessage(st, id, me, rawText, Some(f), isId, envBase, reqBase, messageId, now).reply.Ok?
    requires isId(messageId) && forall j :: 0 <= j < |st.messages| ==> st.messages[j].id != messageId
    requires '/' !in f.filename && f.filename != ""
    requires IsHttpUrl(PublicUrl(envBase, reqBase, f.filename))
    requires pathnameOf(PublicUrl(envBase, reqBase, f.filename)) == Some("/uploads/" + f.filename)
    ensures var o := SendMessage(st, id, me, rawText, Some(f), isId, envBase, reqBase, messageId, now);
            MediaFile(o.state, messageId, isId, pathnameOf, fileExists)
            == if fileExists(f.filename) then Ok(f.filename) else Err(404, "File not found")
  {
    var o := SendMessage(st, id, me, rawText, Some(f), isId, envBase, reqBase, messageId, now);
    StoredUploadIsServed(o.state, |st.messages|, f.filename, isId, pathnameOf, fileExists);
  }

  /** The message at index `k`, the only one with its id, whose media URL is
      an http(s) URL with the parsed path "/uploads/<name>": its media route
      hands that file to `sendFile` when it exists, and answers 404
      otherwise. */
  lemma StoredUploadIsServed(st: ChatState, k: nat, filename: string, isId: Id -> bool,
                             pathnameOf: string -> Option<string>, fileExists: string -> bool)
    requires k < |st.messages| && isId(st.messages[k].id)
    requires forall j :: 0 <= j < |st.messages| && j != k ==> st.messages[j].id != st.messages[k].id
    requires '/' !in filename && filename != ""
    requires st.messages[k].mediaUrl.Some? && IsHttpUrl(st.messages[k].mediaUrl.value)
    requires pathnameOf(st.messages[k].mediaUrl.value) == Some("/uploads/" + filename)
    ensures MediaFile(st, st.messages[k].id, isId, pathnameOf, fileExists)
            == if fileExists(filename) then Ok(filename) else Err(404, "File not found")
  {
    var url := st.messages[k].mediaUrl.value;
    UploadsUrlNamesFile(url, filename, pathnameOf);
  }

  /** The chat media route has no empty-name guard: a message whose media
      URL is the bare uploads directory yields the empty file name, and
      since the path for "" (the uploads directory itself) exists, the
      route hands the directory to `sendFile`, while the post media route
      answers 404 "File not found" for the same URL. */
  lemma EmptyNameReachesSendFile(isId: Id -> bool, pathnameOf: string -> Option<string>, fileExists: string -> bool)
    requires isId("m1") && isId("p1") && fileExists("")
    ensures var m := Message("m1", "c1", "u1", "", Some("uploads/"), Some(ChatImage), 0);
            MediaFile(ChatState([], [m]), "m1", isId, pathnameOf, fileExists) == Ok("")
    ensures var p := Post("p1", "u1", "", "", "uploads/", Image, "", "", [], 0, [], 0, 0);
            PostRoutes.MediaFile([p], "p1", isId, pathnameOf, fileExists) == Err(404, "File not found")
  {
    EmptyChatName(pathnameOf);
    var m := Message("m1", "c1", "u1", "", Some("uploads/"), Some(ChatImage), 0);
    assert FindMessage([m], "m1") == 0;
    var p := Post("p1", "u1", "", "", "uploads/", Image, "", "", [], 0, [], 0, 0);
    assert PostRoutes.FindPost([p], "p1") == 0;
  }

  /** Both `filenameFromUrl` helpers give "" for the bare uploads directory. */
  lemma EmptyChatName(pathnameOf: string -> Option<string>)
    ensures FilenameFromUrl("uploads/", pathnameOf) == ""
    ensures PostRoutes.FilenameFromUrl("uploads/", pathnameOf) == ""
  {
    assert "uploads/" == "uploads/" + "";
    PostRoutes.FilenameOfUploadsPath("", pathnameOf);
    FilenameHelpersAgree("uploads/", pathnameOf);
  }
}

=== FILE: common.dfy ===
/** Shared result shapes: an optional value (JavaScript's null/undefined
    versus a present value) and the outcome of an Express route handler. */
module Common {

  datatype Option<+T> = None | Some(value: T) {
    function GetOr(default: T): T {
      match this
      case Some(v) => v
      case None => default
    }
  }

  /** What a route sends back: a JSON body, or an error status with the
      `{ error: msg }` body every route of the server uses. */
  datatype Reply<+T> = Ok(body: T) | Err(status: int, error: string)

  /** JavaScript `String(x)` of an optional id: a missing id prints as "null". */
  function Stringify(x: Option<string>): string {
    match x
    case Some(s) => s
    case None => "null"
  }

  /** `s.findIndex(p)`: the first index whose element satisfies `p`, or -1. */
  function FindIndex<T>(s: seq<T>, p: T -> bool): (i: int)
    ensures -1 <= i < |s|
    ensures i >= 0 ==> p(s[i]) && forall j :: 0 <= j < i ==> !p(s[j])
    ensures i == -1 ==> forall j :: 0 <= j < |s| ==> !p(s[j])
  {
    if |s| == 0 then -1
    else if p(s[0]) then 0
    else var k := FindIndex(s[1..], p); if k == -1 then -1 else k + 1
  }

  /** `s.splice(i, 1)` */
  function RemoveAt<T>(s: seq<T>, i: nat): (r: seq<T>)
    requires i < |s|
    ensures |r| == |s| - 1
    ensures forall j :: 0 <= j < |r| ==> r[j] == s[if j < i then j else j + 1]
  {
    s[..i] + s[i + 1..]
  }

  /** Splicing out one element takes exactly one copy of it away. */
  lemma RemoveAtMultiset<T>(s: seq<T>, i: nat)
    requires i < |s|
    ensures multiset(RemoveAt(s, i)) == multiset(s) - multiset{s[i]}
  {
    assert s == s[..i] + [s[i]] + s[i + 1..];
  }

  /** `s.filter(p)` */
  function Filter<T(!new)>(s: seq<T>, p: T -> bool): (r: seq<T>)
    ensures |r| <= |s|
    ensures forall x :: x in r <==> x in s && p(x)
  {
    if |s| == 0 then []
    else (if p(s[0]) then [s[0]] else []) + Filter(s[1..], p)
  }

  /** Filtering distributes over concatenation, so it keeps relative order. */
  lemma {:induction false} FilterAppend<T(!new)>(a: seq<T>, b: seq<T>, p: T -> bool)
    ensures Filter(a + b, p) == Filter(a, p) + Filter(b, p)
  {
    if |a| > 0 {
      assert (a + b)[1..] == a[1..] + b;
      FilterAppend(a[1..], b, p);
    } else {
      assert a + b == b;
    }
  }

  /** A filter every element passes leaves the sequence as it is. */
  lemma {:induction false} FilterKeepsAll<T(!new)>(s: seq<T>, p: T -> bool)
    requires forall j :: 0 <= j < |s| ==> p(s[j])
    ensures Filter(s, p) == s
  {
    if |s| > 0 {
      FilterKeepsAll(s[1..], p);
    }
  }

  /** Filtering out exactly one element is the same as splicing it out:
      the client's `filter` by id agrees with the server's `splice` when
      ids are unique. */
  lemma FilterOutOne<T(!new)>(s: seq<T>, p: T -> bool, k: nat)
    requires k < |s| && !p(s[k])
    requires forall j :: 0 <= j < |s| && j != k ==> p(s[j])
    ensures Filter(s, p) == RemoveAt(s, k)
  {
    var a, b := s[..k], s[k + 1..];
    forall j | 0 <= j < |a|
      ensures p(a[j])
    {
      assert a[j] == s[j];
    }
    forall j | 0 <= j < |b|
      ensures p(b[j])
    {
      assert b[j] == s[k + 1 + j];
    }
    assert s == a + [s[k]] + b;
    FilterDropsOne(a, s[k], b, p);
  }

  lemma FilterDropsOne<T(!new)>(a: seq<T>, x: T, b: seq<T>, p: T -> bool)
    requires !p(x)
    requires forall j :: 0 <= j < |a| ==> p(a[j])
    requires forall j :: 0 <= j < |b| ==> p(b[j])
    ensures Filter(a + [x] + b, p) == a + b
  {
    FilterAppend(a + [x], b, p);
    FilterAppend(a, [x], p);
    FilterDropsSingle(x, p);
    FilterKeepsAll(a, p);
    FilterKeepsAll(b, p);
    assert Filter(a + [x], p) == a;
  }

  lemma FilterDropsSingle<T(!new)>(x: T, p: T -> bool)
    requires !p(x)
    ensures Filter([x], p) == []
  {
    assert [x][1..] == [];
  }

  /** `s.slice(0, n)` */
  function Take<T>(s: seq<T>, n: nat): (r: seq<T>)
    ensures |r| <= n && |r| <= |s|
    ensures r == s[..|r|]
    ensures |s| <= n ==> r == s
  {
    if |s| <= n then s else s[..n]
  }
}

=== FILE: debug_routes.dfy ===
/** The decision logic of server/routes/debugRoutes.js: the admin guard and
    the loop of PUT /fix-image-urls, which is meant to rewrite relative
    `imageUrl` values of posts into absolute URLs under the server's own
    base. The loop reads hydrated documents, on which `imageUrl` is not a
    schema path, so as written it rewrites nothing; the intended pass over
    the stored field is modelled beside it. */
module DebugRoutes {
  import opened Common
  import opened Strings
  import opened Records

  /** `req.protocol`: Express reports "http" or "https". */
  datatype Protocol = Http | Https

  /** `${req.protocol}://${req.get("host")}` */
  function BaseUrl(proto: Protocol, host: string): (b: string)
    ensures StartsWith(b, "http")
  {
    var b := (if proto == Http then "http" else "https") + "://" + host;
    assert b[..4] == "http";
    b
  }

  /** How many characters up to the first slash. */
  function HostLength(s: string): (n: nat)
    ensures n <= |s|
    ensures forall i :: 0 <= i < n ==> s[i] != '/'
    ensures n == |s| || s[n] == '/'
  {
    if |s| == 0 || s[0] == '/' then 0 else 1 + HostLength(s[1..])
  }

  /** `url.replace(/^https?:\/\/[^/]+/, "")`: a scheme with a non-empty host
      is cut off; anything else is left as it is. */
  function StripSchemeHost(url: string): (r: string)
    ensures |r| <= |url| && r == url[|url| - |r|..]
    ensures !StartsWith(url, "http") ==> r == url
  {
    var scheme := if StartsWith(url, "https://") then 8 else if StartsWith(url, "http://") then 7 else 0;
    if scheme == 0 then url
    else
      var n := HostLength(url[scheme..]);
      if n == 0 then url else url[scheme + n..]
  }

  /** The posts the loop rewrites: a non-empty `imageUrl` that does not
      start with "http" (case-sensitive). */
  predicate NeedsFix(p: Post) {
    p.imageUrl != "" && !StartsWith(p.imageUrl, "http")
  }

  /** The rewritten URL: leading slashes dropped, "uploads/" put in front
      unless the path already starts with "uploads", joined to the base. */
  function FixedUrl(base: string, url: string): (r: string)
    ensures var clean := StripLeadingSlashes(StripSchemeHost(url));
            var path := if StartsWith(clean, "uploads") then clean else "uploads/" + clean;
            StartsWith(r, base + "/") && r[|base| + 1..] == path
  {
    var clean := StripLeadingSlashes(StripSchemeHost(url));
    var path := if StartsWith(clean, "uploads") then clean else "uploads/" + clean;
    var r := base + "/" + path;
    assert r[..|base| + 1] == base + "/";
    r
  }

  /** A rewritten URL is absolute, so it never equals the relative URL it
      replaces, and it needs no second rewrite. */
  lemma FixedUrlIsAbsolute(proto: Protocol, host: string, url: string)
    requires !StartsWith(url, "http")
    ensures var r := FixedUrl(BaseUrl(proto, host), url);
            StartsWith(r, "http") && r != url
  {
    var b := BaseUrl(proto, host);
    var r := FixedUrl(b, url);
    assert r[..4] == b[..4];
  }

  function FixPost(base: string, p: Post): Post {
    if NeedsFix(p) then p.(imageUrl := FixedUrl(base, p.imageUrl)) else p
  }

  /** Every post after the pass, in order. */
  function FixedPosts(base: string, posts: seq<Post>): (r: seq<Post>)
    ensures |r| == |posts|
    ensures forall i :: 0 <= i < |posts| ==> r[i] == FixPost(base, posts[i])
  {
    if |posts| == 0 then [] else FixedPosts(base, posts[..|posts| - 1]) + [FixPost(base, posts[|posts| - 1])]
  }

  /** How many posts the pass rewrites. */
  function CountNeeding(posts: seq<Post>): (n: nat)
    ensures n <= |posts|
  {
    if |posts| == 0 then 0
    else CountNeeding(posts[..|posts| - 1]) + (if NeedsFix(posts[|posts| - 1]) then 1 else 0)
  }

  lemma {:induction false} CountNeedingZero(posts: seq<Post>)
    requires forall i :: 0 <= i < |posts| ==> !NeedsFix(posts[i])
    ensures CountNeeding(posts) == 0
  {
    if |posts| > 0 {
      CountNeedingZero(posts[..|posts| - 1]);
    }
  }

  /** A second pass rewrites nothing. */
  lemma FixIsIdempotent(proto: Protocol, host: string, posts: seq<Post>)
    ensures var base := BaseUrl(proto, host);
            CountNeeding(FixedPosts(base, posts)) == 0 && FixedPosts(base, FixedPosts(base, posts)) == FixedPosts(base, posts)
  {
    var base := BaseUrl(proto, host);
    var once := FixedPosts(base, posts);
    forall i | 0 <= i < |once|
      ensures !NeedsFix(once[i])
    {
      if NeedsFix(posts[i]) {
        FixedUrlIsAbsolute(proto, host, posts[i].imageUrl);
      }
    }
    CountNeedingZero(once);
  }

  /** The loop of the route: each post whose URL changes is rewritten
      (saved) and counted. */
  method FixAll(proto: Protocol, host: string, posts: seq<Post>) returns (out: seq<Post>, updated: nat)
    ensures out == FixedPosts(BaseUrl(proto, host), posts)
    ensures updated == CountNeeding(posts)
    ensures updated <= |posts|
  {
    var base := BaseUrl(proto, host);
    out := [];
    updated := 0;
    var i := 0;
    while i < |posts|
      invariant 0 <= i <= |posts|
      invariant out == FixedPosts(base, posts[..i])
      invariant updated == CountNeeding(posts[..i])
    {
      var p := posts[i];
      FixStep(base, posts, i);
      if p.imageUrl == "" || StartsWith(p.imageUrl, "http") {
        out := out + [p];
      } else {
        var newUrl := FixedUrl(base, p.imageUrl);
        FixedUrlIsAbsolute(proto, host, p.imageUrl);
        if newUrl != p.imageUrl {
          out := out + [p.(imageUrl := newUrl)];
          updated := updated + 1;
        } else {
          out := out + [p];
        }
      }
      i := i + 1;
    }
    assert posts[..i] == posts;
  }

  /** One more post of the pass: its fixed form is appended and counted
      when it needed the rewrite. */
  lemma FixStep(base: string, posts: seq<Post>, i: nat)
    requires i < |posts|
    ensures FixedPosts(base, posts[..i + 1]) == FixedPosts(base, posts[..i]) + [FixPost(base, posts[i])]
    ensures CountNeeding(posts[..i + 1]) == CountNeeding(posts[..i]) + (if NeedsFix(posts[i]) then 1 else 0)
  {
    assert posts[..i + 1][..i] == posts[..i];
  }

  /** `{ baseUrl, updated, total }` */
  datatype FixReport = FixReport(baseUrl: string, updated: nat, total: nat)

  /** The posts as `Post.find({})` returns them: hydrated documents. */
  function HydratedAll(posts: seq<Post>): (r: seq<Post>)
    ensures |r| == |posts|
    ensures forall i :: 0 <= i < |posts| ==> r[i] == Hydrated(posts[i])
  {
    seq(|posts|, i requires 0 <= i < |posts| => Hydrated(posts[i]))
  }

  /** `doc.save()` for each document the loop saw: the schema paths are
      written back, the stored legacy fields stay. */
  function SaveAll(stored: seq<Post>, docs: seq<Post>): (r: seq<Post>)
    requires |docs| == |stored|
    ensures |r| == |stored|
    ensures forall i :: 0 <= i < |stored| ==> r[i] == SaveSchemaPaths(stored[i], docs[i])
  {
    seq(|stored|, i requires 0 <= i < |stored| => SaveSchemaPaths(stored[i], docs[i]))
  }

  /** Through hydrated documents no post needs the rewrite. */
  lemma HydratedNeedNoFix(base: string, posts: seq<Post>)
    ensures CountNeeding(HydratedAll(posts)) == 0
    ensures FixedPosts(base, HydratedAll(posts)) == HydratedAll(posts)
    ensures SaveAll(posts, HydratedAll(posts)) == posts
  {
    var view := HydratedAll(posts);
    CountNeedingZero(view);
    forall i | 0 <= i < |posts|
      ensures SaveAll(posts, view)[i] == posts[i]
    {
      SaveHydratedUnchanged(posts[i]);
    }
  }

  /** PUT /fix-image-urls as written. With ADMIN_TOKEN set (non-empty), a
      request whose `x-admin-token` header differs gets 401 and nothing
      changes. Otherwise the loop runs over hydrated documents, whose
      `p.imageUrl` is undefined: every post is skipped, nothing is saved
      and the report counts no update. */
  method FixImageUrls(adminToken: Option<string>, header: Option<string>, proto: Protocol, host: string,
                      posts: seq<Post>) returns (reply: Reply<FixReport>, out: seq<Post>)
    ensures adminToken.Some? && adminToken.value != "" && header != adminToken ==>
              reply == Err(401, "Not authorized") && out == posts
    ensures reply.Ok? <==> !(adminToken.Some? && adminToken.value != "" && header != adminToken)
    ensures reply.Ok? ==> out == posts && reply.body == FixReport(BaseUrl(proto, host), 0, |posts|)
  {
    if adminToken.Some? && adminToken.value != "" && header != adminToken {
      return Err(401, "Not authorized"), posts;
    }
    var view := HydratedAll(posts);
    var fixed, updated := FixAll(proto, host, view);
    HydratedNeedNoFix(BaseUrl(proto, host), posts);
    out := SaveAll(posts, fixed);
    reply := Ok(FixReport(BaseUrl(proto, host), updated, |posts|));
  }

  /** The route as intended, reading and writing the stored `imageUrl`
      (`p.get("imageUrl")`, `p.set("imageUrl", …, { strict: false })`):
      every relative URL is rewritten and counted. */
  method FixImageUrlsIntended(adminToken: Option<string>, header: Option<string>, proto: Protocol, host: string,
                              posts: seq<Post>) returns (reply: Reply<FixReport>, out: seq<Post>)
    ensures adminToken.Some? && adminToken.value != "" && header != adminToken ==>
              reply == Err(401, "Not authorized") && out == posts
    ensures reply.Ok? <==> !(adminToken.Some? && adminToken.value != "" && header != adminToken)
    ensures reply.Ok? ==>
              && out == FixedPosts(BaseUrl(proto, host), posts)
              && reply.body == FixReport(BaseUrl(proto, host), CountNeeding(posts), |posts|)
              && reply.body.updated <= reply.body.total
  {
    if adminToken.Some? && adminToken.value != "" && header != adminToken {
      return Err(401, "Not authorized"), posts;
    }
    var updated;
    out, updated := FixAll(proto, host, posts);
    reply := Ok(FixReport(BaseUrl(proto, host), updated, |posts|));
  }

  /** A legacy post with a current `mediaUrl` and a relative `imageUrl`:
      the stored field needs the rewrite, and the intended pass rewrites
      and counts it, but the hydrated document the route reads shows no
      `imageUrl`, so the route as written counts nothing. */
  lemma LegacyPostMissed(proto: Protocol, host: string)
    ensures var p := Post("p1", "u1", "", "", "http://h/uploads/a.jpg", Image, "uploads/x.jpg", "", [], 0, [], 0, 0);
            var base := BaseUrl(proto, host);
            && NeedsFix(p) && CountNeeding([p]) == 1
            && FixedPosts(base, [p])[0] == p.(imageUrl := FixedUrl(base, "uploads/x.jpg"))
            && CountNeeding(HydratedAll([p])) == 0 && FixedPosts(base, HydratedAll([p])) == HydratedAll([p])
  {
    var p := Post("p1", "u1", "", "", "http://h/uploads/a.jpg", Image, "uploads/x.jpg", "", [], 0, [], 0, 0);
    var base := BaseUrl(proto, host);
    assert !StartsWith(p.imageUrl, "http") by { assert p.imageUrl[0] == 'u'; }
    assert [p][..0] == [];
    HydratedNeedNoFix(base, [p]);
  }
}

=== FILE: feed_client.dfy ===
/** client/src/pages/Feed.jsx: how the feed page turns the server's posts
    into the cards it shows (the viewer's `liked` flag and the counters),
    and how it applies a card's patches and removals locally instead of
    reloading. */
module FeedClient {
  import opened Common
  import opened Records
  import PostRoutes

  /** A post as it arrives: `likes` absent when the field is not an array,
      the counters absent when null or missing. */
  datatype Incoming = Incoming(post: Post, likes: Option<seq<Id>>, likesCount: Option<int>, commentsCount: Option<int>)

  /** The JSON of a stored post: the schema fills in every field. */
  function FromServer(p: Post): Incoming {
    Incoming(p, Some(p.likes), Some(p.likesCount), Some(p.commentsCount))
  }

  /** A card of the feed: the post, whether the viewer likes it, and the
      two counters shown. */
  datatype Item = Item(post: Post, liked: bool, likesCount: int, commentsCount: int)

  /** The `map` in `load`: `liked` when some like prints as the viewer's
      id (`String(null)` is "null" when nobody is signed in),
      `likesCount ?? likes.length`, `commentsCount ?? 0`. */
  function Normalize(x: Incoming, me: Option<Id>): (it: Item)
    ensures it.post == x.post
    ensures it.liked <==> Stringify(me) in x.likes.GetOr([])
    ensures x.likesCount.None? ==> it.likesCount == |x.likes.GetOr([])|
    ensures x.commentsCount.None? ==> it.commentsCount == 0
    ensures x.likesCount.Some? ==> it.likesCount == x.likesCount.value
    ensures x.commentsCount.Some? ==> it.commentsCount == x.commentsCount.value
  {
    var likes := x.likes.GetOr([]);
    var liked := exists k | 0 <= k < |likes| :: likes[k] == Stringify(me);
    Item(x.post, liked, x.likesCount.GetOr(|likes|), x.commentsCount.GetOr(0))
  }

  /** The feed after `load` over the server's posts, in the same order. */
  function LoadAll(posts: seq<Post>, me: Option<Id>): (items: seq<Item>)
    ensures |items| == |posts|
    ensures forall k :: 0 <= k < |posts| ==> items[k] == Normalize(FromServer(posts[k]), me)
  {
    seq(|posts|, k requires 0 <= k < |posts| => Normalize(FromServer(posts[k]), me))
  }

  /** A card's `onPatch` argument: the fields it carries, others absent. */
  datatype Patch = Patch(liked: Option<bool>, likesCount: Option<int>, commentsCount: Option<int>)

  /** `{ ...p, ...patch }` */
  function ApplyPatch(it: Item, patch: Patch): (r: Item)
    ensures r.post == it.post
    ensures r.liked == patch.liked.GetOr(it.liked)
    ensures r.likesCount == patch.likesCount.GetOr(it.likesCount)
    ensures r.commentsCount == patch.commentsCount.GetOr(it.commentsCount)
  {
    Item(it.post, patch.liked.GetOr(it.liked), patch.likesCount.GetOr(it.likesCount),
         patch.commentsCount.GetOr(it.commentsCount))
  }

  /** `onPatch(id, patch)`: every card with that id is patched, the others
      stay as they are, and the order is kept. */
  function OnPatch(items: seq<Item>, id: Id, patch: Patch): (r: seq<Item>)
    ensures |r| == |items|
    ensures forall k :: 0 <= k < |items| && items[k].post.id != id ==> r[k] == items[k]
    ensures forall k :: 0 <= k < |items| && items[k].post.id == id ==> r[k] == ApplyPatch(items[k], patch)
  {
    seq(|items|, k requires 0 <= k < |items| => if items[k].post.id == id then ApplyPatch(items[k], patch) else items[k])
  }

  /** `onRemove(id)`: the cards with that id go. */
  function OnRemove(items: seq<Item>, id: Id): (r: seq<Item>)
    ensures forall it :: it in r <==> it in items && it.post.id != id
  {
    Filter(items, (it: Item) => it.post.id != id)
  }

  /** What `toggleLike` patches in after the server's answer. */
  function LikePatch(a: PostRoutes.LikeAnswer): Patch {
    Patch(Some(a.liked), Some(a.likesCount), None)
  }

  /** Patching the like answer into a card shows what reloading the feed
      would show, for a signed-in viewer, as long as the post's likes hold
      no duplicates (which toggling keeps, PostRoutes.ToggleKeepsLikesDistinct). */
  lemma LikePatchMatchesReload(posts: seq<Post>, postId: Id, me: Id, isId: Id -> bool, items: seq<Item>, k: nat)
    requires me != ""
    requires PostRoutes.LikeToggle(posts, postId, me, isId).reply.Ok?
    requires PostRoutes.DistinctLikes(posts[PostRoutes.FindPost(posts, postId)].likes)
    requires k < |items| && items[k] == Normalize(FromServer(posts[PostRoutes.FindPost(posts, postId)]), Some(me))
    ensures var o := PostRoutes.LikeToggle(posts, postId, me, isId);
            var shown := OnPatch(items, postId, LikePatch(o.reply.body))[k];
            var reloaded := Normalize(FromServer(o.posts[PostRoutes.FindPost(posts, postId)]), Some(me));
            shown.liked == reloaded.liked && shown.likesCount == reloaded.likesCount && shown.commentsCount == reloaded.commentsCount
  {
    var i := PostRoutes.FindPost(posts, postId);
    PostRoutes.ToggleAnswerIsMembership(posts[i].likes, me);
  }

  /** Removing a deleted post's card leaves exactly the feed a reload would
      build from the server's remaining posts, when post ids are unique. */
  lemma RemoveMatchesReload(posts: seq<Post>, postId: Id, me: Id, isId: Id -> bool,
                            pathnameOf: string -> Option<string>, viewer: Option<Id>)
    requires PostRoutes.DeletePost(posts, postId, me, isId, pathnameOf).reply.Ok?
    requires forall a, b :: 0 <= a < b < |posts| ==> posts[a].id != posts[b].id
    ensures OnRemove(LoadAll(posts, viewer), postId)
            == LoadAll(PostRoutes.DeletePost(posts, postId, me, isId, pathnameOf).posts, viewer)
  {
    var o := PostRoutes.DeletePost(posts, postId, me, isId, pathnameOf);
    var i := PostRoutes.FindPost(posts, postId);
    var items := LoadAll(posts, viewer);
    var keep := (it: Item) => it.post.id != postId;
    OnlyOneCard(posts, i, viewer);
    FilterOutOne(items, keep, i);
    LoadAllRemoveAt(posts, i, viewer);
  }

  /** With unique post ids, only the card at the post's own position
      carries its id. */
  lemma OnlyOneCard(posts: seq<Post>, i: nat, viewer: Option<Id>)
    requires i < |posts|
    requires forall a, b :: 0 <= a < b < |posts| ==> posts[a].id != posts[b].id
    ensures var items := LoadAll(posts, viewer);
            items[i].post.id == posts[i].id
            && forall j :: 0 <= j < |items| && j != i ==> items[j].post.id != posts[i].id
  {
    var items := LoadAll(posts, viewer);
    forall j | 0 <= j < |items| && j != i
      ensures items[j].post.id != posts[i].id
    {
      if j < i {
        assert posts[j].id != posts[i].id;
      } else {
        assert posts[i].id != posts[j].id;
      }
    }
  }

  /** Loading commutes with splicing out one post. */
  lemma LoadAllRemoveAt(posts: seq<Post>, i: nat, viewer: Option<Id>)
    requires i < |posts|
    ensures RemoveAt(LoadAll(posts, viewer), i) == LoadAll(posts[..i] + posts[i + 1..], viewer)
  {
    var items, rest := LoadAll(posts, viewer), posts[..i] + posts[i + 1..];
    assert forall j :: 0 <= j < |rest| ==> rest[j] == posts[if j < i then j else j + 1];
    assert forall j :: 0 <= j < |rest| ==> RemoveAt(items, i)[j] == items[if j < i then j else j + 1];
  }
}

=== FILE: language_button.dfy ===
/** client/src/components/LanguageButton.jsx: the three interface languages,
    which of them the button shows for i18next's current language, the
    "cycle" variant that steps to the next one, and the "menu" variant's
    options. `language` is `i18n.language`; `changeLanguage` is taken to
    take effect at once. */
module LanguageButton {
  /** An entry of `LANGS`. */
  datatype Lang = Lang(code: string, caption: string)

  /** English, Amharic (its label in Ethiopic script) and Afan Oromo. */
  const Langs: seq<Lang> := [Lang("en", "EN"), Lang("am", "\U{12A0}\U{121B}"), Lang("om", "OM")]

  /** Where `LANGS.find(l => l.code === language)` stops, or English when
      no code matches (a regional tag such as "en-US" included). */
  function CurrentIndex(language: string): (k: nat)
    ensures k < |Langs|
    ensures Langs[k].code == language || (k == 0 && forall j :: 0 <= j < |Langs| ==> Langs[j].code != language)
  {
    if Langs[0].code == language then 0
    else if Langs[1].code == language then 1
    else if Langs[2].code == language then 2
    else 0
  }

  /** `current` */
  function Current(language: string): Lang {
    Langs[CurrentIndex(language)]
  }

  /** The codes are distinct, so a code names one entry. */
  lemma CodesDistinct()
    ensures forall i, j :: 0 <= i < j < |Langs| ==> Langs[i].code != Langs[j].code
  {
  }

  /** Every code of the list is shown as its own entry. */
  lemma KnownCodeIsCurrent(k: nat)
    requires k < |Langs|
    ensures CurrentIndex(Langs[k].code) == k
  {
    CodesDistinct();
  }

  /** The button's state: the language and whether the menu is open. */
  datatype Button = Button(language: string, open: bool)

  /** `changeTo(code)`: switch the language and close the menu. */
  function ChangeTo(b: Button, code: string): (r: Button)
    ensures r.language == code && !r.open
  {
    Button(code, false)
  }

  /** `onCycle`: the entry after the current one, wrapping round. */
  function OnCycle(b: Button): (r: Button)
    ensures !r.open
    ensures CurrentIndex(r.language) == (CurrentIndex(b.language) + 1) % |Langs|
  {
    var idx := CurrentIndex(b.language);
    var next := Langs[(idx + 1) % |Langs|];
    KnownCodeIsCurrent((idx + 1) % |Langs|);
    ChangeTo(b, next.code)
  }

  /** `n` applications of `f`. */
  function Iterate<S>(f: S -> S, x: S, n: nat): S {
    if n == 0 then x else f(Iterate(f, x, n - 1))
  }

  /** The button after `n` presses of the cycle variant. */
  function CycleTimes(b: Button, n: nat): Button {
    Iterate(OnCycle, b, n)
  }

  /** `n` presses move `n` entries on, modulo three: every third press
      comes back to the entry shown at the start, and the two in between
      show the other two. */
  lemma CycleMovesOn(b: Button, n: nat)
    ensures CurrentIndex(CycleTimes(b, n).language) == (CurrentIndex(b.language) + n) % |Langs|
  {
    CycleSteps();
    IterateCounts(OnCycle, Shown, b, n);
    assert |Langs| == 3;
  }

  lemma CycleSteps()
    ensures forall c :: Shown(OnCycle(c)) == (Shown(c) + 1) % 3
  {
    assert |Langs| == 3;
    forall c: Button
      ensures Shown(OnCycle(c)) == (Shown(c) + 1) % 3
    {
      assert Shown(OnCycle(c)) == (Shown(c) + 1) % |Langs|;
    }
  }

  /** The position of the entry the button shows. */
  function Shown(b: Button): nat {
    CurrentIndex(b.language)
  }

  /** A step that moves a position on by one modulo three moves it `n`
      places in `n` steps. */
  lemma {:induction false} IterateCounts<S>(f: S -> S, idx: S -> nat, x: S, n: nat)
    requires idx(x) < 3
    requires forall y :: idx(f(y)) == (idx(y) + 1) % 3
    ensures idx(Iterate(f, x, n)) == (idx(x) + n) % 3
  {
    if n > 0 {
      var before := Iterate(f, x, n - 1);
      IterateCounts(f, idx, x, n - 1);
      assert Iterate(f, x, n) == f(before);
      assert idx(f(before)) == (idx(before) + 1) % 3;
      WrapStep(idx(x) + (n - 1));
    }
  }

  lemma WrapStep(a: nat)
    ensures (a % 3 + 1) % 3 == (a + 1) % 3
  {
  }

  /** The menu button: `setOpen(v => !v)`. */
  function OnToggle(b: Button): (r: Button)
    ensures r.language == b.language && r.open != b.open
  {
    b.(open := !b.open)
  }

  /** A window click while the menu is open: one outside the button's root
      closes it; one inside leaves it. */
  function OnWindowClick(b: Button, inside: bool): (r: Button)
    ensures r.language == b.language
    ensures r.open <==> b.open && inside
  {
    if b.open && !inside then b.(open := false) else b
  }

  /** `aria-selected` of each option, in the list's order. */
  function Selected(language: string): (s: seq<bool>)
    ensures |s| == |Langs|
    ensures forall k :: 0 <= k < |s| ==> (s[k] <==> Langs[k].code == Current(language).code)
  {
    seq(|Langs|, k requires 0 <= k < |Langs| => Langs[k].code == Current(language).code)
  }

  /** Exactly one option is selected: the one the button names. */
  lemma OneOptionSelected(language: string)
    ensures Selected(language)[CurrentIndex(language)]
    ensures forall k :: 0 <= k < |Langs| && k != CurrentIndex(language) ==> !Selected(language)[k]
  {
    CodesDistinct();
  }

  /** Picking an option makes it the selected one and closes the menu. */
  lemma PickedOptionIsSelected(b: Button, k: nat)
    requires k < |Langs|
    ensures var r := ChangeTo(b, Langs[k].code);
            !r.open && Current(r.language) == Langs[k] && Selected(r.language)[k]
  {
    KnownCodeIsCurrent(k);
  }
}

=== FILE: media_client.dfy ===
/** client/src/lib/media.js: `buildMediaSrc`, which the navigation bar and
    the own-profile page (client/src/pages/Profile.jsx) use to turn a
    stored avatar URL into an address the browser can load. `origin` is the client's server origin
    (ApiClient.ServerOrigin). */
module Media {
  import opened Common
  import opened Strings
  import PostCard
  import PostRoutes

  /** `buildMediaSrc(raw)`: null for an empty or absent value; an absolute
      URL (after trimming) as it is; otherwise the path, without leading
      slashes and without a leading lower-case "uploads", under the
      origin's "/uploads/". */
  function BuildMediaSrc(origin: string, raw: Option<string>): (r: Option<string>)
    ensures r.None? <==> raw.GetOr("") == ""
    ensures raw.GetOr("") != "" ==> r == Some(FromTrimmed(origin, Trim(raw.value)))
    ensures raw.GetOr("") != "" && IsHttpUrl(Trim(raw.value)) ==> r == Some(Trim(raw.value))
    ensures raw.GetOr("") != "" && !IsHttpUrl(Trim(raw.value)) ==>
              r == Some(origin + "/uploads/" + StripUploads(StripLeadingSlashes(Trim(raw.value)), false))
  {
    if raw.GetOr("") == "" then None else Some(FromTrimmed(origin, Trim(raw.value)))
  }

  /** The part of `buildMediaSrc` after `String(raw).trim()`. */
  function FromTrimmed(origin: string, s: string): (u: string)
    ensures IsHttpUrl(s) ==> u == s
    ensures !IsHttpUrl(s) ==> u == origin + "/uploads/" + StripUploads(StripLeadingSlashes(s), false)
    ensures !IsHttpUrl(s) ==>
              && StartsWith(u, origin + "/uploads/")
              && EndsWith(s, u[|origin| + 9..])
              && (s == [] || !IsSpace(s[|s| - 1]) ==> !IsSpace(u[|u| - 1]))
  {
    if IsHttpUrl(s) then s
    else
      var path := StripUploads(StripLeadingSlashes(s), false);
      var sep := "/uploads/";
      var u := origin + sep + path;
      assert u[..|origin| + 9] == origin + sep;
      assert u[|origin| + 9..] == path;
      assert u[|u| - 1] == if path == [] then sep[8] else path[|path| - 1];
      u
  }

  /** What `buildMediaSrc` builds under an absolute origin is an absolute
      URL with nothing to trim. */
  lemma FromTrimmedIsClean(origin: string, s: string)
    requires IsHttpUrl(origin)
    requires s == [] || (!IsSpace(s[0]) && !IsSpace(s[|s| - 1]))
    ensures var u := FromTrimmed(origin, s);
            u != [] && IsHttpUrl(u) && Trim(u) == u
  {
    var u := FromTrimmed(origin, s);
    if IsHttpUrl(s) {
      HttpUrlFirstChar(s);
      TrimNoop(s);
    } else {
      var tail := u[|origin|..];
      assert origin + tail == u;
      HttpUrlExtends(origin, tail);
      BuiltEnds(origin, s);
      TrimNoop(u);
    }
  }

  lemma BuiltEnds(origin: string, s: string)
    requires IsHttpUrl(origin) && !IsHttpUrl(s)
    requires s == [] || !IsSpace(s[|s| - 1])
    ensures var u := FromTrimmed(origin, s);
            u != [] && !IsSpace(u[0]) && !IsSpace(u[|u| - 1])
  {
    var u := FromTrimmed(origin, s);
    HttpUrlFirstChar(origin);
    var pre := origin + "/uploads/";
    assert pre[0] == origin[0];
    StartsWithFirst(u, pre);
    BuiltLastChar(origin, s);
  }

  lemma BuiltLastChar(origin: string, s: string)
    requires !IsHttpUrl(s) && (s == [] || !IsSpace(s[|s| - 1]))
    ensures var u := FromTrimmed(origin, s);
            u != [] && !IsSpace(u[|u| - 1])
  {
  }

  lemma StartsWithFirst(u: string, pre: string)
    requires StartsWith(u, pre) && pre != []
    ensures u != [] && u[0] == pre[0]
  {
    assert u[..|pre|][0] == u[0];
  }

  /** Normalising twice is normalising once, for an absolute origin. */
  lemma BuildMediaSrcIdempotent(origin: string, raw: Option<string>)
    requires IsHttpUrl(origin)
    ensures BuildMediaSrc(origin, BuildMediaSrc(origin, raw)) == BuildMediaSrc(origin, raw)
  {
    if raw.GetOr("") != "" {
      var s := Trim(raw.value);
      TrimSpec(raw.value);
      FromTrimmedIsClean(origin, s);
    }
  }

  /** Here "uploads" is matched in lower case only, where the post card
      and the server match it in any case: a path stored as "UPLOADS/name"
      keeps its prefix and names a different file. */
  lemma UpperCaseUploadsKept(origin: string, name: string, pathnameOf: string -> Option<string>)
    requires PostCard.PlainName(name) && '/' !in name
    ensures var f := "UPLOADS/" + name;
            && BuildMediaSrc(origin, Some(f)) == Some(origin + "/uploads/" + f)
            && |PostCard.CandidatesFor(origin, f)| == 2
            && PostCard.CandidatesFor(origin, f)[1] == origin + "/uploads/" + name
            && PostRoutes.FilenameFromUrl(f, pathnameOf) == name
  {
    var f := "UPLOADS/" + name;
    assert f[0] == 'U' && f[|f| - 1] == name[|name| - 1];
    assert f[..8] == "UPLOADS/" && f[8..] == name;
    UpperFormIsRelative(f, name);
    PostCard.UploadsCandidate(origin, f, name);
    PostRoutes.FilenameOfUpperUploadsPath(name, pathnameOf);
    UpperFormBuilt(origin, f);
  }

  lemma UpperFormBuilt(origin: string, f: string)
    requires f != [] && f[0] == 'U' && !IsSpace(f[|f| - 1])
    ensures BuildMediaSrc(origin, Some(f)) == Some(origin + "/uploads/" + f)
  {
    TrimNoop(f);
    NotHttpByFirstChar(f);
    assert StripLeadingSlashes(f) == f;
    assert !StartsWith(f, "uploads") by {
      assert |f| >= 7 ==> f[..7][0] != "uploads"[0];
    }
  }

  lemma UpperFormCleans(f: string, name: string)
    requires |f| == 8 + |name| && f[..8] == "UPLOADS/" && f[8..] == name
    ensures StripUploads(StripLeadingSlashes(PostCard.StripDotSlash(f)), true) == name
  {
    assert f[0] == 'U' && f[7] == '/';
    assert PostCard.StripDotSlash(f) == f;
    assert StripLeadingSlashes(f) == f;
    assert f[..7] == "UPLOADS";
    assert Lower(f[..7]) == Lower("uploads");
  }

  lemma UpperFormIsRelative(f: string, name: string)
    requires name != [] && !IsSpace(name[|name| - 1])
    requires |f| == 8 + |name| && f[..8] == "UPLOADS/" && f[8..] == name
    ensures PostCard.RelativeForm(f, name)
  {
    UpperFormEnds(f, name);
    UpperFormCleans(f, name);
  }

  lemma UpperFormEnds(f: string, name: string)
    requires name != [] && !IsSpace(name[|name| - 1])
    requires |f| == 8 + |name| && f[..8] == "UPLOADS/" && f[8..] == name
    ensures f != "" && !IsSpace(f[0]) && !IsSpace(f[|f| - 1]) && !IsHttpUrl(f)
  {
    assert f[0] == 'U' && f[|f| - 1] == name[|name| - 1];
    NotHttpByFirstChar(f);
  }

  /** The slash after "uploads" is optional, so a file whose name merely
      starts with "uploads" loses those letters. */
  lemma UploadsPrefixOfName(origin: string, rest: string)
    requires rest != [] && rest[0] != '/' && !IsSpace(rest[|rest| - 1])
    ensures BuildMediaSrc(origin, Some("uploads" + rest)) == Some(origin + "/uploads/" + rest)
  {
    var f := "uploads" + rest;
    assert f[0] == 'u' && f[|f| - 1] == rest[|rest| - 1];
    TrimNoop(f);
    NotHttpByFirstChar(f);
    assert StripLeadingSlashes(f) == f;
    assert f[..7] == "uploads" && f[7] == rest[0] && f[7..] == rest;
  }
}

=== FILE: offline_queue.dfy ===
/** The client's pending-request queue (client/src/offlineQueue.js): one
    localStorage key holding a JSON list of jobs, appended to while offline
    and drained in order when the browser comes back online. */
module OfflineQueue {
  import opened Common

  /** An axios request body: nothing, a plain JSON-serialisable value, or a
      FormData object (a file upload, which cannot be serialised). */
  datatype Body = NoBody | Json(text: string) | Form

  /** The part of an axios request config the model follows. */
  datatype RequestConfig = RequestConfig(
    url: string,
    verb: Option<string>,
    data: Body,
    headers: map<string, string>,
    params: map<string, string>,
    baseURL: Option<string>)

  /** A queued request: a fresh id (`crypto.randomUUID()`), the enqueue time
      (`Date.now()`) and the captured config. */
  datatype Job = Job(id: string, createdAt: int, config: RequestConfig)

  /** What `localStorage.getItem("pendingRequests")` holds: nothing, text
      that does not parse or parses to a falsy value (`getAll` reads both
      as `[]`), or the list `setAll` last wrote. Only the app writes the
      key, so it never holds a truthy value that is not a list (which
      `getAll` would return as it is, and `push` would then fail on). */
  datatype Slot = Absent | Unreadable | Stored(jobs: seq<Job>)

  /** `getAll()`: the stored list, or `[]` when the key is missing or its
      text does not parse. */
  function GetAll(slot: Slot): (list: seq<Job>)
    ensures !slot.Stored? ==> list == []
  {
    match slot
    case Stored(jobs) => jobs
    case _ => []
  }

  /** `setAll(list)`: overwrite the key with the serialised list. */
  function SetAll(slot: Slot, list: seq<Job>): (r: Slot)
    ensures GetAll(r) == list
  {
    Stored(list)
  }

  /** `pushRequest(job)`: read the list, append the job stamped with a fresh
      id and the current time, write the list back. */
  function PushRequest(slot: Slot, config: RequestConfig, id: string, now: int): (r: Slot)
    ensures |GetAll(r)| == |GetAll(slot)| + 1
    ensures GetAll(r)[..|GetAll(slot)|] == GetAll(slot)
    ensures GetAll(r)[|GetAll(slot)|] == Job(id, now, config)
  {
    SetAll(slot, GetAll(slot) + [Job(id, now, config)])
  }

  /** The jobs of `list` whose replay fails, in their original order: the
      reference for what a flush keeps. */
  function Failed(list: seq<Job>, success: Job -> bool): seq<Job> {
    if |list| == 0 then []
    else
      var last := list[|list| - 1];
      Failed(list[..|list| - 1], success) + (if success(last) then [] else [last])
  }

  /** A job is kept exactly when it was in the list and its replay failed. */
  lemma {:induction false} FailedMembers(list: seq<Job>, success: Job -> bool)
    ensures forall j :: j in Failed(list, success) <==> j in list && !success(j)
  {
    if |list| > 0 {
      FailedMembers(list[..|list| - 1], success);
      assert list == list[..|list| - 1] + [list[|list| - 1]];
    }
  }

  /** Keeping the failures preserves relative order: the failures of a
      concatenation are the failures of each part, concatenated. */
  lemma {:induction false} FailedAppend(a: seq<Job>, b: seq<Job>, success: Job -> bool)
    ensures Failed(a + b, success) == Failed(a, success) + Failed(b, success)
  {
    if |b| > 0 {
      var ab := a + b;
      assert ab[..|ab| - 1] == a + b[..|b| - 1];
      FailedAppend(a, b[..|b| - 1], success);
    } else {
      assert a + b == a;
    }
  }

  /** `flushWith(api)` run to completion with no other writer: snapshot the
      list; if it is empty, stop; otherwise replay every job in order
      (`success` tells which replays resolve), keep the failures and write
      them back. `attempts` are the requests issued, in order. */
  method FlushWith(slot: Slot, success: Job -> bool) returns (slot': Slot, attempts: seq<Job>)
    ensures attempts == GetAll(slot)
    ensures GetAll(slot) == [] ==> slot' == slot
    ensures GetAll(slot) != [] ==> slot' == Stored(Failed(GetAll(slot), success))
  {
    var list := GetAll(slot);
    if |list| == 0 {
      return slot, [];
    }
    var next := [];
    attempts := [];
    var i := 0;
    while i < |list|
      invariant 0 <= i <= |list|
      invariant attempts == list[..i]
      invariant next == Failed(list[..i], success)
    {
      var job := list[i];
      attempts := attempts + [job];
      if !success(job) {
        next := next + [job];
      }
      assert list[..i + 1][..i] == list[..i];
      i := i + 1;
    }
    assert list[..i] == list;
    slot' := SetAll(slot, next);
  }

  /** A flush ends with exactly the jobs whose replay failed, in order;
      every other job is gone. */
  lemma FlushKeepsFailures(slot: Slot, success: Job -> bool, j: Job)
    requires GetAll(slot) != []
    ensures var r := Stored(Failed(GetAll(slot), success));
            j in GetAll(r) <==> j in GetAll(slot) && !success(j)
  {
    FailedMembers(GetAll(slot), success);
  }

  /** The lost update: a job pushed after the flush took its snapshot but
      before it wrote back is overwritten by `setAll(next)`, whatever the
      replays did. */
  lemma {:induction false} FlushLosesConcurrentPush(
    s0: Slot, success: Job -> bool, config: RequestConfig, id: string, now: int)
    requires forall j :: j in GetAll(s0) ==> j.id != id
    ensures var s1 := PushRequest(s0, config, id, now);
            Job(id, now, config) in GetAll(s1)
    ensures var s1 := PushRequest(s0, config, id, now);
            var s2 := SetAll(s1, Failed(GetAll(s0), success));
            forall j :: j in GetAll(s2) ==> j.id != id
  {
    var s1 := PushRequest(s0, config, id, now);
    assert GetAll(s1)[|GetAll(s0)|] == Job(id, now, config);
    FailedMembers(GetAll(s0), success);
  }
}

=== FILE: paging.dfy ===
/** The query-string handling the server's list routes share: `parseInt`
    with its NaN, the page/limit clamps, `skip`, the page count, and the
    escaping that turns a search text into a literal regular expression. */
module Paging {
  import opened Common
  import opened Strings

  /** A JavaScript number as these routes see it: NaN, or an integer. */
  datatype Num = NaN | Int(v: int)

  predicate IsDigit(c: char) {
    '0' <= c <= '9'
  }

  /** The longest prefix of `s` made of decimal digits. */
  function LeadingDigits(s: string): (d: string)
    ensures |d| <= |s| && d == s[..|d|]
    ensures forall i :: 0 <= i < |d| ==> IsDigit(d[i])
    ensures |d| == |s| || !IsDigit(s[|d|])
  {
    if |s| > 0 && IsDigit(s[0]) then [s[0]] + LeadingDigits(s[1..]) else ""
  }

  function DigitValue(c: char): nat
    requires IsDigit(c)
  {
    c as int - '0' as int
  }

  function DigitsValue(d: string): nat
    requires forall i :: 0 <= i < |d| ==> IsDigit(d[i])
  {
    if |d| == 0 then 0
    else DigitsValue(d[..|d| - 1]) * 10 + DigitValue(d[|d| - 1])
  }

  /** `parseInt(s, 10)`: leading whitespace, an optional sign, then as many
      digits as there are; NaN when there is no digit. */
  function ParseInt(s: string): Num {
    ParseTrimmed(TrimStart(s))
  }

  /** `parseInt` once the leading whitespace is gone. */
  function ParseTrimmed(t: string): Num {
    var neg := |t| > 0 && t[0] == '-';
    var body := if |t| > 0 && (t[0] == '-' || t[0] == '+') then t[1..] else t;
    var d := LeadingDigits(body);
    if d == "" then NaN
    else if neg then Int(-(DigitsValue(d) as int))
    else Int(DigitsValue(d))
  }

  /** The decimal numeral of `n`, as `String(n)` writes it. */
  function Decimal(n: nat): (s: string)
    ensures |s| >= 1
    ensures forall i :: 0 <= i < |s| ==> IsDigit(s[i])
  {
    if n < 10 then [('0' as int + n) as char]
    else Decimal(n / 10) + [('0' as int + n % 10) as char]
  }

  lemma {:induction false} DecimalValue(n: nat)
    ensures DigitsValue(Decimal(n)) == n
  {
    if n >= 10 {
      var s := Decimal(n);
      assert s[..|s| - 1] == Decimal(n / 10);
      DecimalValue(n / 10);
    }
  }

  lemma {:induction false} AllDigitsLeading(s: string)
    requires forall i :: 0 <= i < |s| ==> IsDigit(s[i])
    ensures LeadingDigits(s) == s
  {
    if |s| > 0 {
      AllDigitsLeading(s[1..]);
    }
  }

  /** A string of digits is read as its value. */
  lemma ParseIntDigits(s: string)
    requires |s| >= 1 && forall i :: 0 <= i < |s| ==> IsDigit(s[i])
    ensures ParseInt(s) == Int(DigitsValue(s))
  {
    AllDigitsLeading(s);
    NoLeadingSpace(s);
    assert s[0] != '-' && s[0] != '+';
  }

  /** So is a minus sign and a string of digits, negated. */
  lemma ParseIntNegativeDigits(s: string, v: nat)
    requires |s| >= 1 && forall i :: 0 <= i < |s| ==> IsDigit(s[i])
    requires DigitsValue(s) == v
    ensures ParseInt("-" + s) == Int(-(v as int))
  {
    var t := "-" + s;
    NoLeadingSpace(t);
    assert t[1..] == s;
    AllDigitsLeading(s);
    NegativeTrimmed(t, s);
  }

  lemma NoLeadingSpace(t: string)
    requires |t| >= 1 && (t[0] == '-' || IsDigit(t[0]))
    ensures TrimStart(t) == t
  {
    assert !IsSpace(t[0]);
  }

  lemma NegativeTrimmed(t: string, d: string)
    requires |t| >= 1 && t[0] == '-' && d != "" && LeadingDigits(t[1..]) == d
    ensures ParseTrimmed(t) == Int(-(DigitsValue(d) as int))
  {
  }

  /** `parseInt` reads back every numeral `String` writes. */
  lemma ParseIntDecimal(n: nat)
    ensures ParseInt(Decimal(n)) == Int(n)
  {
    var s := Decimal(n);
    ParseIntDigits(s);
    DecimalValue(n);
    assert DigitsValue(s) == n;
  }

  /** ... and the same numeral behind a minus sign. */
  lemma ParseIntNegative(n: nat)
    ensures ParseInt("-" + Decimal(n)) == Int(-(n as int))
  {
    DecimalValue(n);
    ParseIntNegativeDigits(Decimal(n), n);
  }

  /** `Math.max(x, lo)` and `Math.min(x, hi)`: NaN stays NaN. */
  function MaxNum(x: Num, lo: int): Num {
    match x
    case NaN => NaN
    case Int(v) => Int(if v < lo then lo else v)
  }

  function MinNum(x: Num, hi: int): Num {
    match x
    case NaN => NaN
    case Int(v) => Int(if v > hi then hi else v)
  }

  /** `req.query.x || dflt`: a missing or empty value takes the default. */
  function OrDefault(raw: Option<string>, dflt: string): string {
    match raw
    case Some(s) => if s == "" then dflt else s
    case None => dflt
  }

  /** `Math.max(parseInt(req.query.page || "1", 10), 1)` */
  function PageOf(raw: Option<string>): (p: Num)
    ensures p.Int? ==> p.v >= 1
    ensures p.NaN? <==> ParseInt(OrDefault(raw, "1")).NaN?
  {
    MaxNum(ParseInt(OrDefault(raw, "1")), 1)
  }

  /** `Math.min(Math.max(parseInt(req.query.limit || dflt, 10), 1), 50)` */
  function LimitOf(raw: Option<string>, dflt: string): (l: Num)
    ensures l.Int? ==> 1 <= l.v <= 50
    ensures l.NaN? <==> ParseInt(OrDefault(raw, dflt)).NaN?
  {
    MinNum(MaxNum(ParseInt(OrDefault(raw, dflt)), 1), 50)
  }

  /** `(page - 1) * limit` */
  function SkipOf(page: Num, limit: Num): (s: Num)
    ensures page.Int? && limit.Int? && page.v >= 1 && limit.v >= 1 ==> s.Int? && s.v >= 0
    ensures page.Int? && limit.Int? ==> s == Int((page.v - 1) * limit.v)
    ensures page.NaN? || limit.NaN? ==> s.NaN?
  {
    if page.NaN? || limit.NaN? then NaN
    else if page.v >= 1 && limit.v >= 1 then
      var k: nat := page.v - 1;
      var l: nat := limit.v;
      Int(k * l)
    else Int((page.v - 1) * limit.v)
  }

  /** `Math.ceil(total / limit)` for a positive integer limit. */
  function CeilDiv(total: nat, limit: int): nat
    requires limit >= 1
  {
    (total + limit - 1) / limit
  }

  function PagesOf(total: nat, limit: Num): (pages: Num)
    ensures pages.Int? <==> limit.Int? && limit.v >= 1
  {
    match limit
    case NaN => NaN
    case Int(l) => if l >= 1 then Int(CeilDiv(total, l)) else NaN
  }

  /** `Math.ceil(total / limit)` is the least page count whose pages hold
      every result. */
  lemma PagesCover(total: nat, limit: Num)
    requires limit.Int? && limit.v >= 1
    ensures var pages := PagesOf(total, limit);
            pages.Int? && pages.v * limit.v >= total && (pages.v > 0 ==> (pages.v - 1) * limit.v < total)
  {
  }

  /** The characters `/[.*+?^${}()|[\]\\]/` selects for escaping. */
  predicate IsRegexSpecial(c: char) {
    c in ".*+?^${}()|[]\\"
  }

  /** `q.replace(/[.*+?^${}()|[\]\\]/g, "\\$&")` */
  function Escape(q: string): string {
    if |q| == 0 then ""
    else if IsRegexSpecial(q[0]) then ['\\', q[0]] + Escape(q[1..])
    else [q[0]] + Escape(q[1..])
  }

  /** A pattern in which every special character is escaped, so that it
      matches its text literally. */
  predicate IsLiteralPattern(e: string) {
    if |e| == 0 then true
    else if e[0] == '\\' then |e| >= 2 && IsRegexSpecial(e[1]) && IsLiteralPattern(e[2..])
    else !IsRegexSpecial(e[0]) && IsLiteralPattern(e[1..])
  }

  /** The text a literal pattern matches: each escape stands for the
      character it escapes. */
  function LiteralText(e: string): string {
    if |e| == 0 then ""
    else if e[0] == '\\' && |e| >= 2 then [e[1]] + LiteralText(e[2..])
    else [e[0]] + LiteralText(e[1..])
  }

  /** The escaped search text is a literal pattern for exactly that text. */
  lemma {:induction false} EscapeIsLiteral(q: string)
    ensures IsLiteralPattern(Escape(q))
    ensures LiteralText(Escape(q)) == q
  {
    if |q| > 0 {
      EscapeIsLiteral(q[1..]);
      var e := Escape(q);
      if IsRegexSpecial(q[0]) {
        assert e[2..] == Escape(q[1..]);
      } else {
        assert e[1..] == Escape(q[1..]);
      }
    }
  }

  /** The database query a list route issues, once the query string is read. */
  datatype Window = Window(page: Num, limit: Num, skip: Num)

  function WindowOf(rawPage: Option<string>, rawLimit: Option<string>, dfltLimit: string): (w: Window)
    ensures w.page.Int? ==> w.page.v >= 1
    ensures w.limit.Int? ==> 1 <= w.limit.v <= 50
    ensures w.page.Int? && w.limit.Int? ==> w.skip.Int? && w.skip.v >= 0
    ensures w.page.NaN? || w.limit.NaN? ==> w.skip.NaN?
  {
    var page := PageOf(rawPage);
    var limit := LimitOf(rawLimit, dfltLimit);
    var skip := SkipOf(page, limit);
    Window(page, limit, skip)
  }

  /** The results at positions `skip` to `skip + limit`, cut to the
      bounds of `s`. */
  function Slice<T>(s: seq<T>, skip: nat, limit: nat): seq<T> {
    var from := if skip >= |s| then |s| else skip;
    var to := if skip + limit >= |s| then |s| else skip + limit;
    s[from..to]
  }

  /** `.skip(skip).limit(limit)` on a query's ordered results. What the
      database driver makes of a NaN skip or limit is not modelled: those
      windows yield `otherwise`. */
  function WindowItems<T>(s: seq<T>, w: Window, otherwise: seq<T>): (r: seq<T>)
    ensures w.skip.Int? && w.limit.Int? && w.skip.v >= 0 && w.limit.v >= 1 ==>
              |r| == (if w.skip.v >= |s| then 0 else if |s| - w.skip.v < w.limit.v then |s| - w.skip.v else w.limit.v)
              && forall i :: 0 <= i < |r| ==> r[i] == s[w.skip.v + i]
    ensures w.skip.Int? && w.limit.Int? && w.skip.v >= 0 && w.limit.v >= 1 ==> r == Slice(s, w.skip.v, w.limit.v)
    ensures !(w.skip.Int? && w.limit.Int?) ==> r == otherwise
  {
    if w.skip.Int? && w.limit.Int? && w.skip.v >= 0 && w.limit.v >= 1 then
      var from := if w.skip.v >= |s| then |s| else w.skip.v;
      var r := Take(s[from..], w.limit.v);
      assert r == s[from..from + |r|];
      r
    else otherwise
  }

  /** A page numeral of at least 1 is read as itself. */
  lemma PageOfDecimal(page: nat)
    requires page >= 1
    ensures PageOf(Some(Decimal(page))) == Int(page)
  {
    assert OrDefault(Some(Decimal(page)), "1") == Decimal(page);
    ParseIntDecimal(page);
  }

  /** A limit numeral from 1 to 50 is read as itself, whatever the default. */
  lemma LimitOfDecimal(limit: nat, dflt: string)
    requires 1 <= limit <= 50
    ensures LimitOf(Some(Decimal(limit)), dflt) == Int(limit)
  {
    assert OrDefault(Some(Decimal(limit)), dflt) == Decimal(limit);
    ParseIntDecimal(limit);
  }

  /** Decimal page and limit numerals in range are read as themselves. */
  lemma WindowOfDecimals(page: nat, limit: nat)
    requires page >= 1 && 1 <= limit <= 50
    ensures WindowOf(Some(Decimal(page)), Some(Decimal(limit)), "20") == Window(Int(page), Int(limit), Int((page - 1) * limit))
  {
    PageOfDecimal(page);
    LimitOfDecimal(limit, "20");
    WindowOfParts(Some(Decimal(page)), Some(Decimal(limit)), "20", page, limit);
  }

  lemma SkipOfInts(page: nat, limit: nat)
    ensures SkipOf(Int(page), Int(limit)) == Int((page - 1) * limit)
    ensures page >= 1 ==> (page - 1) * limit >= 0
  {
  }

  lemma WindowOfParts(rawPage: Option<string>, rawLimit: Option<string>, dflt: string, page: nat, limit: nat)
    requires PageOf(rawPage) == Int(page) && LimitOf(rawLimit, dflt) == Int(limit)
    ensures WindowOf(rawPage, rawLimit, dflt) == Window(Int(page), Int(limit), Int((page - 1) * limit))
  {
    var p, l := PageOf(rawPage), LimitOf(rawLimit, dflt);
    assert WindowOf(rawPage, rawLimit, dflt) == Window(p, l, SkipOf(p, l));
    SkipOfInts(page, limit);
  }

  lemma WindowItemAt<T>(s: seq<T>, page: Num, skip: int, limit: nat, i: nat, otherwise: seq<T>)
    requires 0 <= skip && 1 <= limit && i < limit && skip + i < |s|
    ensures var r := WindowItems(s, Window(page, Int(limit), Int(skip)), otherwise);
            i < |r| && r[i] == s[skip + i]
  {
  }

  /** Paging covers the results: the result at position
      `(page - 1) * limit + i` is shown on page `page`, at position `i`. */
  lemma PageHoldsResult<T>(s: seq<T>, page: nat, limit: nat, i: nat, otherwise: seq<T>)
    requires page >= 1 && 1 <= limit <= 50 && i < limit
    requires 0 <= (page - 1) * limit + i < |s|
    ensures var r := WindowItems(s, WindowOf(Some(Decimal(page)), Some(Decimal(limit)), "20"), otherwise);
            i < |r| && r[i] == s[(page - 1) * limit + i]
  {
    var skip := (page - 1) * limit;
    WindowOfDecimals(page, limit);
    SkipOfInts(page, limit);
    WindowItemAt(s, Int(page), skip, limit, i, otherwise);
  }

  /** A search route's decision: answer an empty page at once, or look up
      the escaped pattern in the given window. */
  datatype SearchPlan =
    | EmptyAnswer(q: string, w: Window)
    | Lookup(q: string, pattern: string, w: Window)

  /** `(raw || "").trim()` blank answers at once; otherwise the trimmed
      text is escaped for a literal, case-insensitive match. */
  function PlanSearch(rawQ: Option<string>, rawPage: Option<string>, rawLimit: Option<string>): (p: SearchPlan)
    ensures p.EmptyAnswer? <==> IsBlank(rawQ.GetOr(""))
    ensures p.q == Trim(rawQ.GetOr(""))
    ensures p.w == WindowOf(rawPage, rawLimit, "20")
    ensures p.Lookup? ==> IsLiteralPattern(p.pattern) && LiteralText(p.pattern) == p.q
  {
    var q := Trim(rawQ.GetOr(""));
    var w := WindowOf(rawPage, rawLimit, "20");
    if q == "" then EmptyAnswer(q, w)
    else
      EscapeIsLiteral(q);
      Lookup(q, Escape(q), w)
  }

  /** The JSON answer `{ items, total, page, pages, q }` of a search route. */
  datatype PageAnswer<T> = PageAnswer(items: seq<T>, total: nat, page: Num, pages: Num, q: string)

  /** The answer for a plan, given what the database returned for a lookup
      (`items`, `total`); an empty answer ignores them. */
  function Answer<T>(plan: SearchPlan, items: seq<T>, total: nat): (a: PageAnswer<T>)
    ensures plan.EmptyAnswer? ==> a.items == [] && a.total == 0 && a.pages == Int(0)
    ensures plan.Lookup? ==> a.items == items && a.total == total && a.pages == PagesOf(total, plan.w.limit)
    ensures a.page == plan.w.page && a.q == plan.q
  {
    match plan
    case EmptyAnswer(q, w) => PageAnswer([], 0, w.page, Int(0), q)
    case Lookup(q, _, w) => PageAnswer(items, total, w.page, PagesOf(total, w.limit), q)
  }
}

=== FILE: post_card.dfy ===
/** The client-side logic of client/src/components/PostCard.jsx: the URLs
    the media element tries in turn, whether it plays the media as a video,
    who is offered the delete buttons, and how the local comment list
    follows the server's answers. `origin` is the client's server origin
    (ApiClient.ServerOrigin). */
module PostCard {
  import opened Common
  import opened Strings
  import opened Records
  import PostRoutes

  /** `s.replace(/^\.{1,2}\//, "")`: one leading "./" or "../" goes. */
  function StripDotSlash(s: string): (r: string)
    ensures |r| <= |s| && r == s[|s| - |r|..]
    ensures !StartsWith(s, "./") && !StartsWith(s, "../") ==> r == s
    ensures StartsWith(s, "../") ==> s == "../" + r
    ensures !StartsWith(s, "../") && StartsWith(s, "./") ==> s == "./" + r
  {
    if StartsWith(s, "../") then s[3..] else if StartsWith(s, "./") then s[2..] else s
  }

  /** `candidatesFor(raw)`: nothing for an empty value, an absolute URL as
      it is, otherwise the path under the origin and the file under
      "/uploads/" (a leading "uploads" dropped, in any case). */
  function CandidatesFor(origin: string, raw: string): (c: seq<string>)
    ensures raw == "" ==> c == []
    ensures raw != "" ==> c == CandidatesOfTrimmed(origin, Trim(raw))
  {
    if raw == "" then [] else CandidatesOfTrimmed(origin, Trim(raw))
  }

  function CandidatesOfTrimmed(origin: string, s: string): (c: seq<string>)
    ensures IsHttpUrl(s) ==> c == [s]
    ensures !IsHttpUrl(s) ==> |c| == 2 && StartsWith(c[0], origin + "/") && StartsWith(c[1], origin + "/uploads/")
    ensures !IsHttpUrl(s) ==>
              var cleaned := StripLeadingSlashes(StripDotSlash(s));
              c == [origin + "/" + cleaned, origin + "/uploads/" + StripUploads(cleaned, true)]
    ensures "" !in c
  {
    if IsHttpUrl(s) then
      assert |s| >= 7;
      [s]
    else
      var cleaned := StripLeadingSlashes(StripDotSlash(s));
      [Under(origin, "/", cleaned), Under(origin, "/uploads/", StripUploads(cleaned, true))]
  }

  /** `${origin}${sep}${path}` */
  function Under(origin: string, sep: string, path: string): (u: string)
    requires sep != ""
    ensures StartsWith(u, origin + sep) && u[|origin| + |sep|..] == path
  {
    var u := origin + sep + path;
    assert u[..|origin| + |sep|] == origin + sep;
    u
  }

  /** A file name has no white space at its ends, no leading "/" or ".",
      and is neither an absolute URL nor a name starting with "uploads". */
  predicate PlainName(name: string) {
    && name != []
    && !IsSpace(name[0]) && !IsSpace(name[|name| - 1])
    && name[0] != '/' && name[0] != '.'
    && !IsHttpUrl(name) && !StartsWithCI(name, "uploads")
  }

  /** A stored form whose cleaned path is "uploads/" and the file name. */
  predicate RelativeForm(f: string, name: string) {
    && f != "" && !IsSpace(f[0]) && !IsSpace(f[|f| - 1]) && !IsHttpUrl(f)
    && StripUploads(StripLeadingSlashes(StripDotSlash(f)), true) == name
  }

  /** The second candidate of such a form is the file under "/uploads/". */
  lemma UploadsCandidate(origin: string, f: string, name: string)
    requires RelativeForm(f, name)
    ensures |CandidatesFor(origin, f)| == 2 && CandidatesFor(origin, f)[1] == origin + "/uploads/" + name
  {
    TrimNoop(f);
  }

  /** "./" and then "/" come off the front of a stored form before "uploads". */
  lemma CleanedForm(f: string, cut: nat)
    requires cut <= 2 && |f| > cut && f[cut] == 'u'
    requires cut >= 1 ==> f[cut - 1] == '/'
    requires cut == 2 ==> f[0] == '.'
    ensures StripLeadingSlashes(StripDotSlash(f)) == f[cut..]
  {
    if cut == 2 {
      assert StripDotSlash(f) == f[2..] by { assert f[..2] == "./" && f[1] != '.'; }
      KeepsLeadingLetter(f[2..]);
    } else {
      assert StripDotSlash(f) == f by { assert f[0] != '.'; }
      if cut == 1 {
        KeepsLeadingLetter(f[1..]);
      } else {
        KeepsLeadingLetter(f);
      }
    }
  }

  lemma KeepsLeadingLetter(s: string)
    requires |s| > 0 && s[0] != '/'
    ensures StripLeadingSlashes(s) == s
  {
  }

  /** The ways the server and older clients have stored an upload's URL
      relative to the origin. */
  function StoredForms(name: string): seq<string> {
    [name, "uploads/" + name, "/uploads/" + name, "./uploads/" + name]
  }

  /** The facts about "uploads/name" behind a prefix of `cut` characters. */
  predicate PrefixedForm(f: string, name: string, cut: nat) {
    && name != [] && !IsSpace(name[|name| - 1])
    && cut <= 2 && |f| == cut + 8 + |name| && f[cut..] == "uploads/" + name
    && (cut >= 1 ==> f[cut - 1] == '/')
    && (cut == 2 ==> f[0] == '.')
  }

  lemma PrefixedFormCleans(f: string, name: string, cut: nat)
    requires PrefixedForm(f, name, cut)
    ensures StripUploads(StripLeadingSlashes(StripDotSlash(f)), true) == name
  {
    var up := f[cut..];
    assert StripUploads(up, true) == name by {
      assert up[..7] == "uploads" && up[7] == '/' && up[8..] == name;
    }
    assert f[cut] == up[0] == 'u';
    CleanedForm(f, cut);
  }

  lemma PrefixedFormEnds(f: string, name: string, cut: nat)
    requires PrefixedForm(f, name, cut)
    ensures f != "" && !IsSpace(f[0]) && !IsSpace(f[|f| - 1]) && !IsHttpUrl(f)
  {
    var up := f[cut..];
    assert f[cut] == up[0] == 'u';
    assert f[|f| - 1] == name[|name| - 1];
    NotHttpByFirstChar(f);
  }

  lemma PrefixedFormIsRelative(f: string, name: string, cut: nat)
    requires PrefixedForm(f, name, cut)
    ensures RelativeForm(f, name)
  {
    PrefixedFormCleans(f, name, cut);
    PrefixedFormEnds(f, name, cut);
  }

  lemma BareFormIsRelative(name: string)
    requires PlainName(name)
    ensures RelativeForm(name, name)
  {
    assert StripLeadingSlashes(StripDotSlash(name)) == name;
  }

  lemma StoredFormIsRelative(name: string, k: nat)
    requires PlainName(name) && k < 4
    ensures RelativeForm(StoredForms(name)[k], name)
  {
    var f := StoredForms(name)[k];
    if k == 0 {
      BareFormIsRelative(name);
    } else if k == 1 {
      PrefixedFormIsRelative(f, name, 0);
    } else if k == 2 {
      assert f[1..] == "uploads/" + name;
      PrefixedFormIsRelative(f, name, 1);
    } else {
      assert f[2..] == "uploads/" + name;
      PrefixedFormIsRelative(f, name, 2);
    }
  }

  /** However the upload was stored (a bare name, "uploads/name",
      "/uploads/name" or "./uploads/name"), the second candidate is the
      file under "/uploads/". */
  lemma StoredFormsShareUploadsCandidate(origin: string, name: string)
    requires PlainName(name)
    ensures forall k :: 0 <= k < |StoredForms(name)| ==>
              var c := CandidatesFor(origin, StoredForms(name)[k]);
              |c| == 2 && c[1] == origin + "/uploads/" + name
  {
    forall k | 0 <= k < |StoredForms(name)|
      ensures var c := CandidatesFor(origin, StoredForms(name)[k]);
              |c| == 2 && c[1] == origin + "/uploads/" + name
    {
      StoredFormIsRelative(name, k);
      UploadsCandidate(origin, StoredForms(name)[k], name);
    }
  }

  /** `[first, ...candidatesFor(raw)]`: the post's media route first, then
      what the stored URL suggests. */
  function MediaList(origin: string, p: Post): (l: seq<string>)
    ensures 1 <= |l| <= 3
    ensures l[0] == origin + "/api/posts/" + p.id + "/media"
    ensures l[1..] == CandidatesFor(origin, RawMediaUrl(p))
    ensures "" !in l
  {
    [origin + "/api/posts/" + p.id + "/media"] + CandidatesFor(origin, RawMediaUrl(p))
  }

  /** `list[i] || ""` */
  function Src(l: seq<string>, i: nat): (s: string)
    ensures i < |l| ==> s == l[i]
    ensures i >= |l| ==> s == ""
  {
    if i < |l| then l[i] else ""
  }

  /** `tryNext`: move to the next candidate, if there is one. */
  function TryNext(i: nat, n: nat): (j: nat)
    ensures j == i || j == i + 1
    ensures j == i + 1 <==> i + 1 < n
    ensures i < n ==> j < n
  {
    if i + 1 < n then i + 1 else i
  }

  /** The index after `k` load errors, starting from `i`. */
  function AfterErrors(i: nat, n: nat, k: nat): nat {
    if k == 0 then i else TryNext(AfterErrors(i, n, k - 1), n)
  }

  /** Each load error moves one candidate on, until the last, which stays. */
  lemma {:induction false} ErrorsWalkTheList(n: nat, k: nat)
    requires n >= 1
    ensures AfterErrors(0, n, k) == if k < n - 1 then k else n - 1
  {
    if k > 0 {
      ErrorsWalkTheList(n, k - 1);
    }
  }

  /** Whatever errors happen, the element has a source: the check
      `if (!src) return null` never hides a post's media. */
  lemma MediaAlwaysHasSource(origin: string, p: Post, k: nat)
    ensures var l := MediaList(origin, p);
            Src(l, AfterErrors(0, |l|, k)) != ""
  {
    var l := MediaList(origin, p);
    ErrorsWalkTheList(|l|, k);
  }

  /** The media element's state: the post it shows and the candidate index. */
  datatype MediaView = MediaView(post: Post, i: nat)

  predicate InList(origin: string, v: MediaView) {
    v.i < |MediaList(origin, v.post)|
  }

  /** `<video onError={tryNext}>` / `<img onError={tryNext}>` */
  function OnLoadError(origin: string, v: MediaView): (w: MediaView)
    ensures w.post == v.post
    ensures InList(origin, v) ==> InList(origin, w)
    ensures w.i == v.i + 1 <==> v.i + 1 < |MediaList(origin, v.post)|
  {
    v.(i := TryNext(v.i, |MediaList(origin, v.post)|))
  }

  /** New props: `useEffect(() => setI(0), [post._id, raw])` starts over
      when the id or the stored URL changes, and keeps the index otherwise
      (the list, built from the same two values, is then the same). */
  function OnProps(origin: string, v: MediaView, p: Post): (w: MediaView)
    ensures w.post == p
    ensures p.id != v.post.id || RawMediaUrl(p) != RawMediaUrl(v.post) ==> w.i == 0
    ensures InList(origin, v) ==> InList(origin, w)
  {
    if p.id != v.post.id || RawMediaUrl(p) != RawMediaUrl(v.post) then MediaView(p, 0)
    else MediaView(p, v.i)
  }

  predicate LineTerminator(c: char) {
    c == '\n' || c == '\r' || c == '\U{2028}' || c == '\U{2029}'
  }

  /** `/\.ext(\?.*)?$/i` matches at `k`: the extension ends the URL, or a
      "?" follows it with no line terminator after it (`.` does not match
      one). */
  predicate ExtAt(src: string, ext: string, k: int) {
    && 0 <= k && k + |ext| <= |src|
    && Lower(src[k..k + |ext|]) == Lower(ext)
    && (k + |ext| == |src|
        || (src[k + |ext|] == '?' && forall j | k + |ext| < j < |src| :: !LineTerminator(src[j])))
  }

  predicate HasExt(src: string, ext: string) {
    exists k | 0 <= k <= |src| - |ext| :: ExtAt(src, ext, k)
  }

  /** `isVid` */
  predicate IsVid(p: Post, src: string) {
    p.mediaType == Video || HasExt(src, ".mp4") || HasExt(src, ".webm")
  }

  /** A URL ending in ".mp4" or ".webm", in any case, plays as a video. */
  lemma VideoBySuffix(p: Post, src: string)
    requires EndsWithCI(src, ".mp4") || EndsWithCI(src, ".webm")
    ensures IsVid(p, src)
  {
    if EndsWithCI(src, ".mp4") {
      assert ExtAt(src, ".mp4", |src| - 4);
    } else {
      assert ExtAt(src, ".webm", |src| - 5);
    }
  }

  /** So does one with a query string after the extension. */
  lemma VideoWithQuery(p: Post, path: string, query: string)
    requires forall j :: 0 <= j < |query| ==> !LineTerminator(query[j])
    ensures IsVid(p, path + ".mp4?" + query)
  {
    var src := path + ".mp4?" + query;
    var k := |path|;
    assert src[k..k + 4] == ".mp4";
    assert src[k + 4] == '?';
    assert forall j :: k + 4 < j < |src| ==> src[j] == query[j - k - 5];
    assert ExtAt(src, ".mp4", k);
  }

  /** `me && String(post.user?._id || post.user) === String(me)`: an absent
      reference prints as "null". */
  predicate OwnsPost(postUser: Option<Id>, me: Option<Id>) {
    me.Some? && me.value != "" && Stringify(postUser) == Stringify(me)
  }

  /** `canDeleteComment(cm)` */
  predicate CanDeleteComment(postUser: Option<Id>, commentUser: Option<Id>, me: Option<Id>) {
    Stringify(commentUser) == Stringify(me) || OwnsPost(postUser, me)
  }

  /** For a signed-in viewer, the client offers "Delete" on a comment
      exactly when the server would allow the deletion. */
  lemma DeleteButtonMatchesServer(p: Post, c: Comment, me: Id)
    requires me != ""
    ensures CanDeleteComment(Some(p.user), Some(c.user), Some(me)) <==> PostRoutes.MayDeleteComment(p, c, me)
  {
  }

  /** With nobody signed in, a comment whose author no longer exists (the
      populated reference is null) still shows a "Delete" button, since
      `String(null) === String(null)`; the server refuses the request. */
  lemma SignedOutSeesDeleteOnOrphan(postUser: Option<Id>)
    ensures CanDeleteComment(postUser, None, None)
    ensures !OwnsPost(postUser, None)
  {
  }

  /** `setComments(arr => [data.comment, ...(arr || [])])` */
  function PrependComment(arr: Option<seq<Comment>>, c: Comment): (r: seq<Comment>)
    ensures |r| == |arr.GetOr([])| + 1 && r[0] == c && r[1..] == arr.GetOr([])
  {
    [c] + arr.GetOr([])
  }

  /** `setComments(arr => (arr || []).filter(c => c._id !== cid))` */
  function DropComment(arr: Option<seq<Comment>>, cid: Id): (r: seq<Comment>)
    ensures forall c :: c in r <==> c in arr.GetOr([]) && c.id != cid
  {
    Filter(arr.GetOr([]), (c: Comment) => c.id != cid)
  }

  predicate NewestFirst(cs: seq<Comment>) {
    forall a, b :: 0 <= a < b < |cs| ==> cs[a].createdAt >= cs[b].createdAt
  }

  predicate UniqueIds(cs: seq<Comment>) {
    forall a, b :: 0 <= a < b < |cs| ==> cs[a].id != cs[b].id
  }

  /** A list that held the post's comments newest first still does after a
      successful add is prepended, as long as the clock did not go back. */
  lemma AddedCommentKeepsList(shown: seq<Comment>, posts: seq<Post>, postId: Id, me: Id, text: Option<string>,
                              isId: Id -> bool, commentId: Id, now: int)
    requires PostRoutes.AddComment(posts, postId, me, text, isId, commentId, now).reply.Ok?
    requires NewestFirst(shown)
    requires multiset(shown) == multiset(posts[PostRoutes.FindPost(posts, postId)].comments)
    requires forall c :: c in shown ==> c.createdAt <= now
    ensures var o := PostRoutes.AddComment(posts, postId, me, text, isId, commentId, now);
            var r := PrependComment(Some(shown), o.reply.body.comment);
            && NewestFirst(r)
            && multiset(r) == multiset(o.posts[PostRoutes.FindPost(posts, postId)].comments)
            && |r| == o.reply.body.commentsCount
  {
    var o := PostRoutes.AddComment(posts, postId, me, text, isId, commentId, now);
    var r := PrependComment(Some(shown), o.reply.body.comment);
    assert r[0].createdAt == now;
    assert forall b :: 1 <= b < |r| ==> r[b] == shown[b - 1];
    var i := PostRoutes.FindPost(posts, postId);
    assert o.posts[i].comments == posts[i].comments + [o.reply.body.comment];
    assert r == [o.reply.body.comment] + shown;
    assert |r| == |shown| + 1 by {
      assert |multiset(shown)| == |multiset(posts[i].comments)|;
    }
  }

  /** Dropping a deleted comment by id leaves what the server kept, when
      the shown list holds the post's comments with unique ids. */
  lemma DeletedCommentMatchesServer(shown: seq<Comment>, posts: seq<Post>, postId: Id, cid: Id, me: Id,
                                    isId: Id -> bool)
    requires PostRoutes.DeleteComment(posts, postId, cid, me, isId).reply.Ok?
    requires UniqueIds(shown)
    requires multiset(shown) == multiset(posts[PostRoutes.FindPost(posts, postId)].comments)
    ensures var o := PostRoutes.DeleteComment(posts, postId, cid, me, isId);
            var r := DropComment(Some(shown), cid);
            && multiset(r) == multiset(o.posts[PostRoutes.FindPost(posts, postId)].comments)
            && |r| == o.reply.body
  {
    var i := PostRoutes.FindPost(posts, postId);
    var s := posts[i].comments;
    var k := PostRoutes.FindComment(s, cid);
    var o := PostRoutes.DeleteComment(posts, postId, cid, me, isId);
    assert o.posts[i].comments == RemoveAt(s, k);
    var m := ShownCopy(shown, s, k);
    DropOneUnique(shown, cid, m);
    RemoveAtMultiset(shown, m);
    RemoveAtMultiset(s, k);
    assert |shown| == |s| by {
      assert |multiset(shown)| == |multiset(s)|;
    }
  }

  /** An element of a list is somewhere in any list with the same multiset. */
  lemma ShownCopy(shown: seq<Comment>, s: seq<Comment>, k: nat) returns (m: nat)
    requires k < |s| && multiset(shown) == multiset(s)
    ensures m < |shown| && shown[m] == s[k]
  {
    assert s[k] in multiset(shown);
    m :| 0 <= m < |shown| && shown[m] == s[k];
  }

  /** With unique ids, dropping one id splices out the one comment with it. */
  lemma DropOneUnique(shown: seq<Comment>, cid: Id, m: nat)
    requires UniqueIds(shown) && m < |shown| && shown[m].id == cid
    ensures DropComment(Some(shown), cid) == RemoveAt(shown, m)
  {
    var keep := (c: Comment) => c.id != cid;
    forall j | 0 <= j < |shown| && j != m
      ensures keep(shown[j])
    {
      if j < m {
        assert shown[j].id != shown[m].id;
      } else {
        assert shown[m].id != shown[j].id;
      }
    }
    FilterOutOne(shown, keep, m);
  }
}

=== FILE: post_routes.dfy ===
/** The decision logic of server/routes/postRoutes.js: file names from
    stored URLs, public upload URLs, post creation, the like toggle, owner
    deletion, and listing, adding and deleting comments. The posts
    collection is a sequence; each route returns its reply and the
    collection afterwards. `isId` stands for `mongoose.isValidObjectId`,
    `pathnameOf` for the pathname of `new URL(s)` (None when it throws). */
module PostRoutes {
  import opened Common
  import opened Strings
  import opened Records
  import opened Sorting
  import opened Paging

  datatype Outcome<T> = Outcome(reply: Reply<T>, posts: seq<Post>)

  /** `filenameFromUrl(u)`: "" for "", the last non-empty path segment of an
      http(s) URL ("" when it does not parse), otherwise the last segment
      once leading slashes and one leading "uploads" (any case, with its
      slash) are gone. */
  function FilenameFromUrl(u: string, pathnameOf: string -> Option<string>): (r: string)
    ensures '/' !in r
    ensures u == "" ==> r == ""
    ensures IsHttpUrl(u) && pathnameOf(u).None? ==> r == ""
    ensures IsHttpUrl(u) && pathnameOf(u).Some? ==> r == AfterLastSlash(StripTrailingSlashes(pathnameOf(u).value))
    ensures !IsHttpUrl(u) ==> EndsWith(u, r) && r == AfterLastSlash(StripUploads(StripLeadingSlashes(u), true))
  {
    if u == "" then ""
    else if IsHttpUrl(u) then
      match pathnameOf(u)
      case None => ""
      case Some(p) =>
        LastNonEmptySegment(p);
        LastNonEmpty(SplitOn(p, '/'))
    else
      var a := StripLeadingSlashes(u);
      var b := StripUploads(a, true);
      var r := AfterLastSlash(b);
      SuffixOfSuffix(u, a, b);
      SuffixOfSuffix(u, b, r);
      r
  }

  /** What follows the last slash is pinned down by its three properties:
      a slash-free suffix that is all of `s` or sits right after a slash. */
  lemma AfterLastSlashIs(s: string, t: string)
    requires |t| <= |s| && s[|s| - |t|..] == t && '/' !in t
    requires |t| == |s| || s[|s| - |t| - 1] == '/'
    ensures AfterLastSlash(s) == t
  {
  }

  /** A stored relative path "/uploads/<name>" or "uploads/<name>" yields
      the file name. */
  lemma FilenameOfUploadsPath(name: string, pathnameOf: string -> Option<string>)
    requires '/' !in name
    ensures FilenameFromUrl("/uploads/" + name, pathnameOf) == name
    ensures FilenameFromUrl("uploads/" + name, pathnameOf) == name
  {
    var a := "/uploads/" + name;
    var b := "uploads/" + name;
    assert a[1..] == b;
    NotHttpByFirstChar(a);
    NotHttpByFirstChar(b);
    assert StripLeadingSlashes(b) == b;
    assert StripLeadingSlashes(a) == b;
    assert b[..7] == "uploads";
    assert StripUploads(b, true) == name by { assert b[7] == '/' && b[8..] == name; }
    AfterLastSlashIs(name, name);
  }

  /** Any stored relative path, behind any number of slashes, whose first
      segment is "uploads" in any case yields what follows the last slash
      of the rest of the path. */
  lemma FilenameOfStoredPath(slashes: string, dir: string, rest: string, pathnameOf: string -> Option<string>)
    requires forall i :: 0 <= i < |slashes| ==> slashes[i] == '/'
    requires |dir| == 7 && Lower(dir) == Lower("uploads")
    ensures FilenameFromUrl(slashes + dir + "/" + rest, pathnameOf) == AfterLastSlash(rest)
  {
    var t := dir + "/" + rest;
    var u := slashes + dir + "/" + rest;
    assert u == slashes + t;
    UploadsDirStripped(dir, rest);
    StripSlashRun(slashes, t);
    assert LowerChar(u[0]) != 'h' by {
      if |slashes| > 0 { assert u[0] == slashes[0]; } else { assert u[0] == t[0]; }
    }
    NotHttpByFirstChar(u);
  }

  /** A first segment spelling "uploads" in any case, and its slash, are
      what the case-blind strip removes. */
  lemma UploadsDirStripped(dir: string, rest: string)
    requires |dir| == 7 && Lower(dir) == Lower("uploads")
    ensures var t := dir + "/" + rest;
            t[0] != '/' && LowerChar(t[0]) == 'u' && StripUploads(t, true) == rest
  {
    var t := dir + "/" + rest;
    assert LowerChar(dir[0]) == 'u' by { assert Lower(dir)[0] == Lower("uploads")[0]; }
    assert t[..7] == dir && t[7] == '/';
    assert UploadsAhead(t, true);
    assert t[8..] == rest;
  }

  /** The uploads prefix is matched in any case on the server. */
  lemma FilenameOfUpperUploadsPath(name: string, pathnameOf: string -> Option<string>)
    requires '/' !in name
    ensures FilenameFromUrl("UPLOADS/" + name, pathnameOf) == name
  {
    var c := "UPLOADS/" + name;
    NotHttpByFirstChar(c);
    assert StripLeadingSlashes(c) == c;
    assert c[..7] == "UPLOADS";
    assert Lower(c[..7]) == Lower("uploads");
    assert StripUploads(c, true) == name by { assert c[7] == '/' && c[8..] == name; }
    AfterLastSlashIs(name, name);
  }

  /** A bare file name is its own file name, unless it starts with
      "uploads" (which is then cut off). */
  lemma FilenameOfBareName(name: string, pathnameOf: string -> Option<string>)
    requires name != "" && '/' !in name && !IsHttpUrl(name) && !StartsWithCI(name, "uploads")
    ensures FilenameFromUrl(name, pathnameOf) == name
  {
    assert StripLeadingSlashes(name) == name by { assert name[0] != '/' by { assert name[0] in name; } }
    AfterLastSlashIs(name, name);
  }

  /** `toPublicUrl(req, filename)`: the public base (PUBLIC_BASE_URL, else
      the request's protocol and host) without trailing slashes, then
      "/uploads/" and the file name. */
  function ToPublicUrl(envBase: Option<string>, reqBase: string, filename: string): (url: string)
    ensures EndsWith(url, "/uploads/" + filename)
    ensures |url| == |"/uploads/" + filename| || url[|url| - |"/uploads/" + filename| - 1] != '/'
    ensures var raw := if envBase.Some? && envBase.value != "" then envBase.value else reqBase;
            url == StripTrailingSlashes(raw) + "/uploads/" + filename
  {
    var raw := if envBase.Some? && envBase.value != "" then envBase.value else reqBase;
    var base := StripTrailingSlashes(raw);
    var url := base + "/uploads/" + filename;
    assert url[|base|..] == "/uploads/" + filename;
    url
  }

  /** The file a post was created with is the file its deletion and its
      media route look for, when the public base is an http(s) origin. */
  lemma PublicUrlFilenameRoundTrip(envBase: Option<string>, reqBase: string, filename: string,
                                    pathnameOf: string -> Option<string>)
    requires '/' !in filename && filename != ""
    requires IsHttpUrl(ToPublicUrl(envBase, reqBase, filename))
    requires pathnameOf(ToPublicUrl(envBase, reqBase, filename)) == Some("/uploads/" + filename)
    ensures FilenameFromUrl(ToPublicUrl(envBase, reqBase, filename), pathnameOf) == filename
  {
    var p := "/uploads/" + filename;
    assert StripTrailingSlashes(p) == p by { assert p[|p| - 1] == filename[|filename| - 1]; }
    AfterLastSlashIs(p, filename);
  }

  /** The post search's match on the escaped pattern: the caption, the
      verse or the author's username passes the regex test. `rxTest`
      stands for `new RegExp(pattern, "i").test(text)`. */
  predicate PostMatches(p: Post, pattern: string, users: seq<User>, rxTest: (string, string) -> bool) {
    || rxTest(pattern, p.caption)
    || rxTest(pattern, p.verse)
    || exists k | 0 <= k < |users| :: users[k].id == p.user && rxTest(pattern, users[k].username)
  }

  /** The order the post lists are served in: `sort({ createdAt: -1 })`. */
  function NewestFirst(posts: seq<Post>): (r: seq<Post>)
    ensures multiset(r) == multiset(posts)
    ensures forall i, j :: 0 <= i < j < |r| ==> r[i].createdAt >= r[j].createdAt
  {
    SortBy(posts, (p: Post) => -p.createdAt)
  }

  /** One window of the given posts, newest first. */
  function NewestFirstPage(matched: seq<Post>, w: Window, otherwise: seq<Post>): (items: seq<Post>)
    ensures !(w.skip.Int? && w.limit.Int?) ==> items == otherwise
    ensures w.skip.Int? && w.limit.Int? && w.skip.v >= 0 && w.limit.v >= 1 ==>
              && items == Slice(NewestFirst(matched), w.skip.v, w.limit.v)
              && |items| <= w.limit.v
              && (forall p :: p in items ==> p in matched)
              && (forall i, j :: 0 <= i < j < |items| ==> items[i].createdAt >= items[j].createdAt)
  {
    var ordered := NewestFirst(matched);
    assert forall p :: p in ordered ==> p in matched by {
      assert forall p :: p in ordered <==> p in multiset(ordered);
    }
    WindowItems(ordered, w, otherwise)
  }

  const FeedLimit: nat := 50

  /** GET /api/posts/feed: the newest fifty posts, newest first. No post
      left out is newer than one shown. */
  function Feed(posts: seq<Post>): (r: seq<Post>)
    ensures |r| == if |posts| < FeedLimit then |posts| else FeedLimit
    ensures forall i, j :: 0 <= i < j < |r| ==> r[i].createdAt >= r[j].createdAt
    ensures multiset(r) <= multiset(posts)
    ensures |posts| <= FeedLimit ==> multiset(r) == multiset(posts)
    ensures forall q, p :: q in multiset(posts) - multiset(r) && p in r ==> q.createdAt <= p.createdAt
  {
    var ordered := NewestFirst(posts);
    var r := Take(ordered, FeedLimit);
    NewestPrefix(posts, ordered, |r|);
    r
  }

  /** A prefix of the posts in newest-first order: part of the posts, and
      nothing left behind is newer than anything in it. */
  lemma NewestPrefix(posts: seq<Post>, ordered: seq<Post>, n: nat)
    requires multiset(ordered) == multiset(posts)
    requires forall i, j :: 0 <= i < j < |ordered| ==> ordered[i].createdAt >= ordered[j].createdAt
    requires n <= |ordered|
    ensures multiset(ordered[..n]) <= multiset(posts)
    ensures forall q, p :: q in multiset(posts) - multiset(ordered[..n]) && p in ordered[..n] ==> q.createdAt <= p.createdAt
  {
    var r := ordered[..n];
    var rest := ordered[n..];
    assert ordered == r + rest;
    assert multiset(posts) - multiset(r) == multiset(rest);
    forall q: Post, p: Post | q in multiset(rest) && p in r
      ensures q.createdAt <= p.createdAt
    {
      var a :| 0 <= a < n && r[a] == p;
      var b :| 0 <= b < |rest| && rest[b] == q;
      assert ordered[a] == p && ordered[n + b] == q;
    }
  }

  /** GET /api/posts/search: a blank query answers an empty page; otherwise
      the matching posts, newest first, in the requested window, with the
      number of matches and of pages. `otherwise` stands for what the
      database returns for a NaN window. */
  function SearchPosts(posts: seq<Post>, users: seq<User>, rawQ: Option<string>, rawPage: Option<string>,
                       rawLimit: Option<string>, rxTest: (string, string) -> bool, otherwise: seq<Post>): (a: PageAnswer<Post>)
    ensures a.q == Trim(rawQ.GetOr(""))
    ensures a.page == PageOf(rawPage)
    ensures IsBlank(rawQ.GetOr("")) ==> a.items == [] && a.total == 0 && a.pages == Int(0)
    ensures !IsBlank(rawQ.GetOr("")) ==>
              var pattern := PlanSearch(rawQ, rawPage, rawLimit).pattern;
              && IsLiteralPattern(pattern) && LiteralText(pattern) == a.q
              && a.total == |Filter(posts, (p: Post) => PostMatches(p, pattern, users, rxTest))|
              && a.pages == PagesOf(a.total, LimitOf(rawLimit, "20"))
    ensures !IsBlank(rawQ.GetOr("")) && WindowOf(rawPage, rawLimit, "20").skip.Int? ==>
              && (LimitOf(rawLimit, "20").Int? ==> |a.items| <= LimitOf(rawLimit, "20").v)
              && (forall p :: p in a.items ==> p in posts && PostMatches(p, PlanSearch(rawQ, rawPage, rawLimit).pattern, users, rxTest))
              && (forall i, j :: 0 <= i < j < |a.items| ==> a.items[i].createdAt >= a.items[j].createdAt)
    ensures !IsBlank(rawQ.GetOr("")) && WindowOf(rawPage, rawLimit, "20").skip.Int? ==>
              var w := WindowOf(rawPage, rawLimit, "20");
              var pattern := PlanSearch(rawQ, rawPage, rawLimit).pattern;
              a.items == Slice(NewestFirst(Filter(posts, (p: Post) => PostMatches(p, pattern, users, rxTest))), w.skip.v, w.limit.v)
  {
    var plan := PlanSearch(rawQ, rawPage, rawLimit);
    match plan
    case EmptyAnswer(_, _) => Answer(plan, [], 0)
    case Lookup(_, pattern, w) =>
      var matched := Filter(posts, (p: Post) => PostMatches(p, pattern, users, rxTest));
      Answer(plan, NewestFirstPage(matched, w, otherwise), |matched|)
  }

  /** `mime.startsWith("video/") ? "video" : "image"` on the lowercased mime. */
  function MediaTypeOf(mimetype: Option<string>): (k: PostMedia)
    ensures k == Video <==> StartsWith(Lower(mimetype.GetOr("")), "video/")
  {
    if StartsWith(Lower(mimetype.GetOr("")), "video/") then Video else Image
  }

  /** POST /api/posts: a post needs its uploaded file; the new post, owned
      by the requester, is appended with no likes and no comments. */
  function CreatePost(posts: seq<Post>, me: Id, file: Option<Upload>, caption: Option<string>, verse: Option<string>,
                      envBase: Option<string>, reqBase: string, newId: Id, now: int): (o: Outcome<Post>)
    ensures file.None? <==> o.reply.Err?
    ensures file.None? ==> o.reply == Err(400, "Missing file. Use FormData key 'media'.") && o.posts == posts
    ensures o.reply.Ok? ==> o.posts == posts + [o.reply.body]
    ensures o.reply.Ok? ==> var p := o.reply.body;
              p.user == me && p.likes == [] && p.comments == [] && p.likesCount == 0 && p.commentsCount == 0
              && p.caption == caption.GetOr("") && p.verse == verse.GetOr("")
              && (p.mediaType == Video <==> StartsWith(Lower(file.value.mimetype.GetOr("")), "video/"))
              && p.id == newId && p.createdAt == now
              && p.mediaUrl == ToPublicUrl(envBase, reqBase, file.value.filename)
              && EndsWith(p.mediaUrl, "/uploads/" + file.value.filename)
              && p.imageUrl == "" && p.videoUrl == ""
  {
    match file
    case None => Outcome(Err(400, "Missing file. Use FormData key 'media'."), posts)
    case Some(f) =>
      var p := Post(newId, me, caption.GetOr(""), verse.GetOr(""), ToPublicUrl(envBase, reqBase, f.filename),
                    MediaTypeOf(f.mimetype), "", "", [], 0, [], 0, now);
      Outcome(Ok(p), posts + [p])
  }

  /** A post created with a fresh id and an http(s) public base whose
      pathname the URL parser leaves as it is: its media route serves
      exactly the uploaded file (when it exists), and its owner's deletion
      names that file and leaves the collection as it was before. */
  lemma CreatedPostFileRoundTrip(posts: seq<Post>, me: Id, f: Upload, caption: Option<string>, verse: Option<string>,
                                 envBase: Option<string>, reqBase: string, newId: Id, now: int,
                                 isId: Id -> bool, pathnameOf: string -> Option<string>, fileExists: string -> bool)
    requires '/' !in f.filename && f.filename != ""
    requires IsHttpUrl(ToPublicUrl(envBase, reqBase, f.filename))
    requires pathnameOf(ToPublicUrl(envBase, reqBase, f.filename)) == Some("/uploads/" + f.filename)
    requires isId(newId) && forall j :: 0 <= j < |posts| ==> posts[j].id != newId
    ensures var o := CreatePost(posts, me, Some(f), caption, verse, envBase, reqBase, newId, now);
            && (MediaFile(o.posts, newId, isId, pathnameOf, fileExists).Ok? <==> fileExists(f.filename))
            && (fileExists(f.filename) ==> MediaFile(o.posts, newId, isId, pathnameOf, fileExists) == Ok(f.filename))
            && DeletePost(o.posts, newId, me, isId, pathnameOf) == Outcome(Ok(f.filename), posts)
  {
    var o := CreatePost(posts, me, Some(f), caption, verse, envBase, reqBase, newId, now);
    var p := o.reply.body;
    PublicUrlFilenameRoundTrip(envBase, reqBase, f.filename, pathnameOf);
    AppendedPostFound(posts, p);
    assert RawMediaUrl(p) == p.mediaUrl by { assert p.mediaUrl != ""; }
  }

  /** A post appended under a fresh id is found last, and removing it gives
      the collection back. */
  lemma AppendedPostFound(posts: seq<Post>, p: Post)
    requires forall j :: 0 <= j < |posts| ==> posts[j].id != p.id
    ensures FindPost(posts + [p], p.id) == |posts|
    ensures RemoveAt(posts + [p], |posts|) == posts
  {
    assert (posts + [p])[|posts|] == p;
    assert (posts + [p])[..|posts|] == posts;
  }

  function FindPost(posts: seq<Post>, id: Id): (i: int)
    ensures -1 <= i < |posts|
    ensures i >= 0 ==> posts[i].id == id && forall j :: 0 <= j < i ==> posts[j].id != id
    ensures i == -1 ==> forall j :: 0 <= j < |posts| ==> posts[j].id != id
  {
    FindIndex(posts, (p: Post) => p.id == id)
  }

  /** Remove the requester's first like, or append it when absent. */
  function ToggleLikes(likes: seq<Id>, me: Id): (r: (seq<Id>, bool))
    ensures r.1 <==> me !in likes
    ensures r.1 ==> r.0 == likes + [me]
    ensures !r.1 ==> |r.0| == |likes| - 1 && multiset(r.0) == multiset(likes) - multiset{me}
  {
    var ix := FindIndex(likes, (v: Id) => v == me);
    if ix >= 0 then
      RemoveAtMultiset(likes, ix);
      (RemoveAt(likes, ix), false)
    else (likes + [me], true)
  }

  /** Liking then unliking, from a post the requester had not liked,
      restores the likes. */
  lemma LikeTwiceRestores(likes: seq<Id>, me: Id)
    requires me !in likes
    ensures ToggleLikes(ToggleLikes(likes, me).0, me).0 == likes
  {
    var l1 := likes + [me];
    assert l1[|likes|] == me;
    var ix := FindIndex(l1, (v: Id) => v == me);
    assert ix == |likes|;
    assert l1[..ix] == likes;
  }

  /** No user appears twice among a post's likes. */
  predicate DistinctLikes(likes: seq<Id>) {
    forall a, b :: 0 <= a < b < |likes| ==> likes[a] != likes[b]
  }

  /** Toggling keeps likes free of duplicates: a like is only appended
      when absent. */
  lemma ToggleKeepsLikesDistinct(likes: seq<Id>, me: Id)
    requires DistinctLikes(likes)
    ensures DistinctLikes(ToggleLikes(likes, me).0)
  {
    var ix := FindIndex(likes, (v: Id) => v == me);
    if ix >= 0 {
      var r := likes[..ix] + likes[ix + 1..];
      assert forall a :: 0 <= a < |r| ==> r[a] == likes[if a < ix then a else a + 1];
    }
  }

  lemma {:induction false} DistinctOnce(likes: seq<Id>, x: Id)
    requires DistinctLikes(likes)
    ensures multiset(likes)[x] <= 1
  {
    if |likes| > 0 {
      var rest := likes[1..];
      assert DistinctLikes(rest) by {
        assert forall a :: 0 <= a < |rest| ==> rest[a] == likes[a + 1];
      }
      DistinctOnce(rest, x);
      assert likes == [likes[0]] + rest;
      if likes[0] == x {
        assert x !in rest by {
          assert forall a :: 0 <= a < |rest| ==> rest[a] == likes[a + 1];
        }
      }
    }
  }

  /** With distinct likes, the answer's `liked` says whether the requester
      is among the likes afterwards. */
  lemma ToggleAnswerIsMembership(likes: seq<Id>, me: Id)
    requires DistinctLikes(likes)
    ensures ToggleLikes(likes, me).1 <==> me in ToggleLikes(likes, me).0
  {
    var (after, liked) := ToggleLikes(likes, me);
    if liked {
      assert after[|likes|] == me;
    } else {
      DistinctOnce(likes, me);
      assert multiset(after)[me] == 0;
    }
  }

  datatype LikeAnswer = LikeAnswer(liked: bool, likesCount: int)

  /** POST /api/posts/:id/like */
  function LikeToggle(posts: seq<Post>, postId: Id, me: Id, isId: Id -> bool): (o: Outcome<LikeAnswer>)
    ensures !isId(postId) ==> o == Outcome(Err(400, "Invalid post id"), posts)
    ensures isId(postId) && FindPost(posts, postId) < 0 ==> o == Outcome(Err(404, "Post not found"), posts)
    ensures o.reply.Ok? <==> isId(postId) && FindPost(posts, postId) >= 0
    ensures |o.posts| == |posts|
    ensures o.reply.Ok? ==>
              var i := FindPost(posts, postId);
              var before := posts[i].likes;
              var after := o.posts[i].likes;
              && (forall j :: 0 <= j < |posts| && j != i ==> o.posts[j] == posts[j])
              && o.posts[i] == posts[i].(likes := after, likesCount := |after|)
              && (o.reply.body.liked <==> me !in before)
              && (o.reply.body.liked ==> after == before + [me])
              && (!o.reply.body.liked ==> multiset(after) == multiset(before) - multiset{me})
              && o.reply.body.likesCount == |after|
              && (o.reply.body.liked, after) == (ToggleLikes(before, me).1, ToggleLikes(before, me).0)
  {
    if !isId(postId) then Outcome(Err(400, "Invalid post id"), posts)
    else
      var i := FindPost(posts, postId);
      if i < 0 then Outcome(Err(404, "Post not found"), posts)
      else
        var p := posts[i];
        var (likes', liked) := ToggleLikes(p.likes, me);
        var p' := p.(likes := likes', likesCount := |likes'|);
        Outcome(Ok(LikeAnswer(liked, |likes'|)), posts[i := p'])
  }

  /** DELETE /api/posts/:id: only the owner may delete. The answer names
      the upload file the route then tries to remove ("" for none). The
      post is read with `findById` and no `.lean()`, so the fallback
      `post.mediaUrl || post.imageUrl || post.videoUrl` sees a hydrated
      document, where the legacy fields read as undefined. */
  function DeletePost(posts: seq<Post>, postId: Id, me: Id, isId: Id -> bool,
                      pathnameOf: string -> Option<string>): (o: Outcome<string>)
    ensures !isId(postId) ==> o == Outcome(Err(400, "Invalid post id"), posts)
    ensures isId(postId) && FindPost(posts, postId) < 0 ==> o == Outcome(Err(404, "Post not found"), posts)
    ensures isId(postId) && FindPost(posts, postId) >= 0 && posts[FindPost(posts, postId)].user != me ==>
              o == Outcome(Err(403, "Not allowed"), posts)
    ensures o.reply.Ok? <==> isId(postId) && FindPost(posts, postId) >= 0 && posts[FindPost(posts, postId)].user == me
    ensures o.reply.Ok? ==>
              var i := FindPost(posts, postId);
              o.posts == posts[..i] + posts[i + 1..]
              && o.reply.body == FilenameFromUrl(posts[i].mediaUrl, pathnameOf)
  {
    if !isId(postId) then Outcome(Err(400, "Invalid post id"), posts)
    else
      var i := FindPost(posts, postId);
      if i < 0 then Outcome(Err(404, "Post not found"), posts)
      else if posts[i].user != me then Outcome(Err(403, "Not allowed"), posts)
      else
        Outcome(Ok(FilenameFromUrl(HydratedMediaFallback(posts[i]), pathnameOf)), posts[..i] + posts[i + 1..])
  }

  /** The delete route with its fallback reading the stored fields (as
      `post.get("imageUrl")` or a `.lean()` read would): the same answers
      and the same removal, but the file named comes from the first
      non-empty media field. */
  function DeletePostIntended(posts: seq<Post>, postId: Id, me: Id, isId: Id -> bool,
                              pathnameOf: string -> Option<string>): (o: Outcome<string>)
    ensures o.reply.Ok? <==> DeletePost(posts, postId, me, isId, pathnameOf).reply.Ok?
    ensures o.posts == DeletePost(posts, postId, me, isId, pathnameOf).posts
    ensures o.reply.Err? ==> o.reply == DeletePost(posts, postId, me, isId, pathnameOf).reply
    ensures o.reply.Ok? ==> o.reply.body == FilenameFromUrl(RawMediaUrl(posts[FindPost(posts, postId)]), pathnameOf)
  {
    var o := DeletePost(posts, postId, me, isId, pathnameOf);
    if o.reply.Ok? then Outcome(Ok(FilenameFromUrl(RawMediaUrl(posts[FindPost(posts, postId)]), pathnameOf)), o.posts)
    else o
  }

  /** With the stored fields read, deleting a post removes exactly the file
      its media route serves. */
  lemma DeleteRemovesServedFile(posts: seq<Post>, postId: Id, me: Id, isId: Id -> bool,
                                pathnameOf: string -> Option<string>, fileExists: string -> bool)
    requires MediaFile(posts, postId, isId, pathnameOf, fileExists).Ok?
    requires DeletePostIntended(posts, postId, me, isId, pathnameOf).reply.Ok?
    ensures DeletePostIntended(posts, postId, me, isId, pathnameOf).reply.body
            == MediaFile(posts, postId, isId, pathnameOf, fileExists).body
  {
  }

  /** A legacy post stored with only `imageUrl`: its media route serves the
      file, but deleting the post names no file, so the upload stays. */
  lemma LegacyFileKeptOnDelete(isId: Id -> bool, pathnameOf: string -> Option<string>, fileExists: string -> bool)
    requires isId("p1") && fileExists("x.jpg")
    ensures var p := Post("p1", "u1", "", "", "", Image, "uploads/x.jpg", "", [], 0, [], 0, 0);
            && MediaFile([p], "p1", isId, pathnameOf, fileExists) == Ok("x.jpg")
            && DeletePost([p], "p1", "u1", isId, pathnameOf).reply == Ok("")
            && DeletePostIntended([p], "p1", "u1", isId, pathnameOf).reply == Ok("x.jpg")
  {
    var p := Post("p1", "u1", "", "", "", Image, "uploads/x.jpg", "", [], 0, [], 0, 0);
    assert FindPost([p], "p1") == 0;
    assert RawMediaUrl(p) == "uploads/x.jpg" == "uploads/" + "x.jpg";
    FilenameOfUploadsPath("x.jpg", pathnameOf);
    var stored := FilenameFromUrl(RawMediaUrl(p), pathnameOf);
    assert stored == "x.jpg";
    assert FilenameFromUrl(p.mediaUrl, pathnameOf) == "";
    LegacyServed(p, isId, pathnameOf, fileExists);
  }

  lemma LegacyServed(p: Post, isId: Id -> bool, pathnameOf: string -> Option<string>, fileExists: string -> bool)
    requires p.id == "p1" && isId("p1")
    requires FilenameFromUrl(RawMediaUrl(p), pathnameOf) == "x.jpg" && fileExists("x.jpg")
    ensures MediaFile([p], "p1", isId, pathnameOf, fileExists) == Ok("x.jpg")
  {
    assert FindPost([p], "p1") == 0;
  }

  datatype CommentList = CommentList(comments: seq<Comment>, commentsCount: int)

  /** GET /api/posts/:id/comments: newest first. */
  function ListComments(posts: seq<Post>, postId: Id, isId: Id -> bool): (r: Reply<CommentList>)
    ensures !isId(postId) ==> r == Err(400, "Invalid post id")
    ensures isId(postId) && FindPost(posts, postId) < 0 ==> r == Err(404, "Post not found")
    ensures r.Ok? ==>
              var p := posts[FindPost(posts, postId)];
              && multiset(r.body.comments) == multiset(p.comments)
              && (forall a, b :: 0 <= a < b < |r.body.comments| ==>
                    r.body.comments[a].createdAt >= r.body.comments[b].createdAt)
              && r.body.commentsCount == p.commentsCount
  {
    if !isId(postId) then Err(400, "Invalid post id")
    else
      var i := FindPost(posts, postId);
      if i < 0 then Err(404, "Post not found")
      else
        var sorted := SortBy(posts[i].comments, (c: Comment) => -c.createdAt);
        Ok(CommentList(sorted, posts[i].commentsCount))
  }

  datatype Added = Added(comment: Comment, commentsCount: int)

  /** POST /api/posts/:id/comments: the trimmed text must be non-empty; the
      comment is appended and the count recomputed. */
  function AddComment(posts: seq<Post>, postId: Id, me: Id, rawText: Option<string>, isId: Id -> bool,
                      commentId: Id, now: int): (o: Outcome<Added>)
    ensures !isId(postId) ==> o == Outcome(Err(400, "Invalid post id"), posts)
    ensures isId(postId) && IsBlank(rawText.GetOr("")) ==> o == Outcome(Err(400, "Text required"), posts)
    ensures isId(postId) && !IsBlank(rawText.GetOr("")) && FindPost(posts, postId) < 0 ==>
              o == Outcome(Err(404, "Post not found"), posts)
    ensures o.reply.Ok? ==>
              var i := FindPost(posts, postId);
              && i >= 0
              && o.reply.body.comment == Comment(commentId, me, Trim(rawText.GetOr("")), now)
              && o.posts == posts[i := posts[i].(comments := posts[i].comments + [o.reply.body.comment],
                                                 commentsCount := |posts[i].comments| + 1)]
              && o.reply.body.commentsCount == |o.posts[i].comments|
  {
    if !isId(postId) then Outcome(Err(400, "Invalid post id"), posts)
    else
      var text := Trim(rawText.GetOr(""));
      if text == "" then Outcome(Err(400, "Text required"), posts)
      else
        var i := FindPost(posts, postId);
        if i < 0 then Outcome(Err(404, "Post not found"), posts)
        else
          var c := Comment(commentId, me, text, now);
          var comments' := posts[i].comments + [c];
          var p' := posts[i].(comments := comments', commentsCount := |comments'|);
          Outcome(Ok(Added(c, |comments'|)), posts[i := p'])
  }

  function FindComment(comments: seq<Comment>, cid: Id): (k: int)
    ensures -1 <= k < |comments|
    ensures k >= 0 ==> comments[k].id == cid && forall j :: 0 <= j < k ==> comments[j].id != cid
    ensures k == -1 ==> forall j :: 0 <= j < |comments| ==> comments[j].id != cid
  {
    FindIndex(comments, (c: Comment) => c.id == cid)
  }

  /** Who may delete a comment: its author or the post's owner. */
  predicate MayDeleteComment(p: Post, c: Comment, me: Id) {
    c.user == me || p.user == me
  }

  /** DELETE /api/posts/:id/comments/:cid */
  function DeleteComment(posts: seq<Post>, postId: Id, cid: Id, me: Id, isId: Id -> bool): (o: Outcome<int>)
    ensures !isId(postId) || !isId(cid) ==> o == Outcome(Err(400, "Invalid id"), posts)
    ensures o.reply.Err? ==> o.posts == posts
    ensures o.reply.Ok? <==>
              isId(postId) && isId(cid) && FindPost(posts, postId) >= 0
              && FindComment(posts[FindPost(posts, postId)].comments, cid) >= 0
              && var p := posts[FindPost(posts, postId)];
                 MayDeleteComment(p, p.comments[FindComment(p.comments, cid)], me)
    ensures o.reply.Err? && o.reply.status == 403 <==>
              isId(postId) && isId(cid) && FindPost(posts, postId) >= 0
              && FindComment(posts[FindPost(posts, postId)].comments, cid) >= 0
              && var p := posts[FindPost(posts, postId)];
                 !MayDeleteComment(p, p.comments[FindComment(p.comments, cid)], me)
    ensures isId(postId) && isId(cid) && FindPost(posts, postId) < 0 ==> o.reply == Err(404, "Post not found")
    ensures isId(postId) && isId(cid) && FindPost(posts, postId) >= 0 && FindComment(posts[FindPost(posts, postId)].comments, cid) < 0 ==>
              o.reply == Err(404, "Comment not found")
    ensures o.reply.Err? && o.reply.status == 403 ==> o.reply.error == "Not allowed"
    ensures o.reply.Ok? ==>
              var i := FindPost(posts, postId);
              var k := FindComment(posts[i].comments, cid);
              var after := posts[i].comments[..k] + posts[i].comments[k + 1..];
              && o.posts == posts[i := posts[i].(comments := after, commentsCount := |after|)]
              && o.reply.body == |after| == |posts[i].comments| - 1
  {
    if !isId(postId) || !isId(cid) then Outcome(Err(400, "Invalid id"), posts)
    else
      var i := FindPost(posts, postId);
      if i < 0 then Outcome(Err(404, "Post not found"), posts)
      else
        var k := FindComment(posts[i].comments, cid);
        if k < 0 then Outcome(Err(404, "Comment not found"), posts)
        else if !MayDeleteComment(posts[i], posts[i].comments[k], me) then Outcome(Err(403, "Not allowed"), posts)
        else
          var after := RemoveAt(posts[i].comments, k);
          Outcome(Ok(|after|), posts[i := posts[i].(comments := after, commentsCount := |after|)])
  }

  /** GET /api/posts/:id/media: the upload file behind the post, if its
      name can be recovered and the file exists (`fileExists`). */
  function MediaFile(posts: seq<Post>, postId: Id, isId: Id -> bool, pathnameOf: string -> Option<string>,
                     fileExists: string -> bool): (r: Reply<string>)
    ensures !isId(postId) ==> r == Err(400, "Invalid post id")
    ensures isId(postId) && FindPost(posts, postId) < 0 ==> r == Err(404, "Post not found")
    ensures r.Ok? <==>
              isId(postId) && FindPost(posts, postId) >= 0
              && var fname := FilenameFromUrl(RawMediaUrl(posts[FindPost(posts, postId)]), pathnameOf);
                 fname != "" && fileExists(fname)
    ensures isId(postId) && FindPost(posts, postId) >= 0 && r.Err? ==> r == Err(404, "File not found")
    ensures r.Ok? ==> r.body != "" && '/' !in r.body && fileExists(r.body)
                      && r.body == FilenameFromUrl(RawMediaUrl(posts[FindPost(posts, postId)]), pathnameOf)
  {
    if !isId(postId) then Err(400, "Invalid post id")
    else
      var i := FindPost(posts, postId);
      if i < 0 then Err(404, "Post not found")
      else
        var fname := FilenameFromUrl(RawMediaUrl(posts[i]), pathnameOf);
        if fname == "" then Err(404, "File not found")
        else if !fileExists(fname) then Err(404, "File not found")
        else Ok(fname)
  }
}

=== FILE: records.dfy ===
/** The server's stored documents, after the shapes of server/models: users,
    posts with their embedded likes and comments, conversations and
    messages. Ids are their string forms (`String(doc._id)`). */
module Records {
  import opened Common

  type Id = string

  datatype PostMedia = Image | Video

  datatype Comment = Comment(id: Id, user: Id, text: string, createdAt: int)

  /** A post. `imageUrl` and `videoUrl` are the fields of older documents
      ("" when absent); `mediaUrl` is the current one. */
  datatype Post = Post(
    id: Id,
    user: Id,
    caption: string,
    verse: string,
    mediaUrl: string,
    mediaType: PostMedia,
    imageUrl: string,
    videoUrl: string,
    likes: seq<Id>,
    likesCount: int,
    comments: seq<Comment>,
    commentsCount: int,
    createdAt: int)

  datatype User = User(
    id: Id,
    username: string,
    email: string,
    passwordHash: Option<string>,
    avatarUrl: string,
    bio: Option<string>,
    createdAt: int,
    updatedAt: int)

  datatype Conversation = Conversation(id: Id, participants: seq<Id>, lastMessageAt: int)

  datatype ChatMediaKind = ChatImage | ChatAudio

  datatype Message = Message(
    id: Id,
    conversation: Id,
    sender: Id,
    text: string,
    mediaUrl: Option<string>,
    mediaType: Option<ChatMediaKind>,
    createdAt: int)

  /** A post as a hydrated Mongoose document (a query without `.lean()`)
      shows it: only the schema's paths have property accessors, and the
      schema (server/models/post.js) no longer declares `imageUrl` or
      `videoUrl`, so both read as undefined (""). The stored document
      keeps them. */
  function Hydrated(p: Post): (h: Post)
    ensures h.imageUrl == "" && h.videoUrl == ""
    ensures h.(imageUrl := p.imageUrl, videoUrl := p.videoUrl) == p
  {
    p.(imageUrl := "", videoUrl := "")
  }

  /** Saving a hydrated document writes its schema paths back; the stored
      legacy fields stay as they were. */
  function SaveSchemaPaths(stored: Post, doc: Post): (r: Post)
    ensures r.imageUrl == stored.imageUrl && r.videoUrl == stored.videoUrl
    ensures Hydrated(r) == Hydrated(doc)
  {
    doc.(imageUrl := stored.imageUrl, videoUrl := stored.videoUrl)
  }

  /** Reading a document and saving it unchanged leaves the store as it was. */
  lemma SaveHydratedUnchanged(p: Post)
    ensures SaveSchemaPaths(p, Hydrated(p)) == p
  {
  }

  /** Through a hydrated document the fallback sees only `mediaUrl`. */
  lemma HydratedMediaUrl(p: Post)
    ensures RawMediaUrl(Hydrated(p)) == p.mediaUrl
    ensures p.mediaUrl == "" && p.imageUrl != "" ==> RawMediaUrl(p) == p.imageUrl != RawMediaUrl(Hydrated(p))
  {
  }

  /** `doc.mediaUrl || doc.imageUrl || doc.videoUrl` on the hydrated
      document of a stored post. */
  function HydratedMediaFallback(p: Post): (u: string)
    ensures u == p.mediaUrl
  {
    HydratedMediaUrl(p);
    RawMediaUrl(Hydrated(p))
  }

  /** A multer upload: the stored file name and the client's mime type. */
  datatype Upload = Upload(filename: string, mimetype: Option<string>)

  /** `post.mediaUrl || post.imageUrl || post.videoUrl` (with `|| ""`) on
      a plain object (a `.lean()` read), where every stored field is seen. */
  function RawMediaUrl(p: Post): (u: string)
    ensures u == "" <==> p.mediaUrl == "" && p.imageUrl == "" && p.videoUrl == ""
    ensures p.mediaUrl != "" ==> u == p.mediaUrl
  {
    if p.mediaUrl != "" then p.mediaUrl
    else if p.imageUrl != "" then p.imageUrl
    else p.videoUrl
  }
}

=== FILE: service_worker.dfy ===
/** The service worker of client/public/sw.js: the versioned cache buckets,
    install and activate, the routing of GET requests by path prefix, and the
    three caching strategies. CacheStorage is a value (the buckets in the
    order they were created); each network fetch is an oracle outcome. */
module ServiceWorker {
  import opened Common
  import opened Strings

  const Version: string := "v1.0.0"
  const AppShellCache: string := "app-shell-" + Version
  const ApiCache: string := "api-cache-" + Version
  const UploadsCache: string := "uploads-cache-" + Version
  const StaticCache: string := "static-cache-" + Version

  /** A parsed request URL: origin, pathname and query string. */
  datatype Url = Url(origin: string, path: string, search: string)

  datatype Request = Request(url: Url, verb: string, accept: Option<string>)

  datatype Response = Response(status: int, body: string)

  datatype Bucket = Bucket(name: string, entries: map<Url, Response>)

  /** CacheStorage: the buckets, oldest first. */
  type Storage = seq<Bucket>

  predicate UniqueNames(st: Storage) {
    NoDup(Names(st))
  }

  predicate NoDup(names: seq<string>) {
    forall i, j :: 0 <= i < j < |names| ==> names[i] != names[j]
  }

  function Names(st: Storage): (names: seq<string>)
    ensures |names| == |st|
    ensures forall i :: 0 <= i < |st| ==> names[i] == st[i].name
  {
    seq(|st|, i requires 0 <= i < |st| => st[i].name)
  }

  /** `caches.open(name)`: the storage, with an empty bucket of that name
      appended if there was none. */
  function Open(st: Storage, name: string): (r: Storage)
    ensures name in Names(r)
    ensures name in Names(st) ==> r == st
    ensures name !in Names(st) ==> r == st + [Bucket(name, map[])]
    ensures UniqueNames(st) ==> UniqueNames(r)
  {
    if name in Names(st) then st
    else
      var r := st + [Bucket(name, map[])];
      assert Names(r) == Names(st) + [name];
      r
  }

  /** `cache.match(req)` on the bucket called `name`. */
  function Lookup(st: Storage, name: string, key: Url): Option<Response> {
    if |st| == 0 then None
    else if st[0].name == name then (if key in st[0].entries then Some(st[0].entries[key]) else None)
    else Lookup(st[1..], name, key)
  }

  /** `cache.put(req, res)` on the bucket called `name` (opened first). */
  function Put(st: Storage, name: string, key: Url, res: Response): (r: Storage)
    ensures Names(r) == Names(Open(st, name))
    ensures Lookup(r, name, key) == Some(res)
    ensures forall n, k :: n != name || k != key ==> Lookup(r, n, k) == Lookup(st, n, k)
  {
    var st1 := Open(st, name);
    OpenKeepsLookups(st, name);
    PutOpened(st1, name, key, res)
  }

  /** `cache.put` of each key in turn, all into the bucket `name`. */
  function PutAll(st: Storage, name: string, keys: seq<Url>, f: Url -> Option<Response>): (r: Storage)
    requires forall k :: k in keys ==> f(k).Some?
    ensures |keys| > 0 ==> Names(r) == Names(Open(st, name))
    ensures forall k :: k in keys ==> Lookup(r, name, k) == f(k)
    ensures forall n, k :: n != name || k !in keys ==> Lookup(r, n, k) == Lookup(st, n, k)
    decreases |keys|
  {
    if |keys| == 0 then st
    else
      var s1 := Put(st, name, keys[0], f(keys[0]).value);
      assert Open(s1, name) == s1;
      PutAll(s1, name, keys[1..], f)
  }

  function PutOpened(st: Storage, name: string, key: Url, res: Response): (r: Storage)
    ensures Names(r) == Names(st)
    ensures name in Names(st) ==> Lookup(r, name, key) == Some(res)
    ensures forall n, k :: n != name || k != key ==> Lookup(r, n, k) == Lookup(st, n, k)
  {
    if |st| == 0 then []
    else if st[0].name == name then [st[0].(entries := st[0].entries[key := res])] + st[1..]
    else [st[0]] + PutOpened(st[1..], name, key, res)
  }

  /** `caches.match(key)`: the first bucket, oldest first, holding the key. */
  function MatchAny(st: Storage, key: Url): Option<Response> {
    if |st| == 0 then None
    else if key in st[0].entries then Some(st[0].entries[key])
    else MatchAny(st[1..], key)
  }

  /** `caches.delete(name)` for every name the predicate rejects. */
  function KeepIf(st: Storage, keep: string -> bool): (r: Storage)
    ensures forall b :: b in r <==> b in st && keep(b.name)
  {
    if |st| == 0 then []
    else if keep(st[0].name) then [st[0]] + KeepIf(st[1..], keep)
    else KeepIf(st[1..], keep)
  }

  /** `APP_SHELL`, resolved against the worker's own origin. */
  function AppShell(self: string): seq<Url> {
    [Url(self, "/", ""), Url(self, "/offline.html", ""), Url(self, "/manifest.webmanifest", "")]
  }

  function OfflinePage(self: string): Url {
    Url(self, "/offline.html", "")
  }

  /** `cache.addAll` fails when any fetch fails or answers outside 200-299. */
  predicate FetchedOk(r: Option<Response>) {
    r.Some? && 200 <= r.value.status <= 299
  }

  datatype Installed = Installed(ok: bool, storage: Storage)

  /** `install`: open `app-shell-VERSION` and add the app-shell entries, all
      or none. `fetchShell` says how each shell URL's fetch ends. */
  function Install(st: Storage, self: string, fetchShell: Url -> Option<Response>): (r: Installed)
    requires UniqueNames(st)
    ensures UniqueNames(r.storage)
    ensures Names(r.storage) == Names(Open(st, AppShellCache))
    ensures r.ok <==> forall u :: u in AppShell(self) ==> FetchedOk(fetchShell(u))
    ensures r.ok ==> forall u :: u in AppShell(self) ==> Lookup(r.storage, AppShellCache, u) == fetchShell(u)
    ensures forall n, u :: n != AppShellCache || u !in AppShell(self) || !r.ok ==>
              Lookup(r.storage, n, u) == Lookup(st, n, u)
  {
    var st1 := Open(st, AppShellCache);
    OpenKeepsLookups(st, AppShellCache);
    var shell := AppShell(self);
    if forall u :: u in shell ==> FetchedOk(fetchShell(u)) then
      Installed(true, PutAll(st, AppShellCache, shell, fetchShell))
    else Installed(false, st1)
  }

  /** `activate`: delete every bucket whose name does not contain VERSION. */
  function Activate(st: Storage): (r: Storage)
    ensures forall b :: b in r <==> b in st && Contains(b.name, Version)
  {
    KeepIf(st, n => Contains(n, Version))
  }

  /** Every bucket of the current version survives activation, and a bucket
      of another version does not. */
  lemma ActivateKeepsCurrent(st: Storage)
    ensures forall b :: b in st && b.name in {AppShellCache, ApiCache, UploadsCache, StaticCache} ==> b in Activate(st)
    ensures forall b :: b in st && b.name == "api-cache-v0.9.0" ==> b !in Activate(st)
  {
    assert OccursAt(AppShellCache, Version, 10);
    assert OccursAt(ApiCache, Version, 10);
    assert OccursAt(UploadsCache, Version, 14);
    assert OccursAt(StaticCache, Version, 13);
    var stale := "api-cache-v0.9.0";
    assert forall i :: 0 <= i < |stale| ==> stale[i] != '1';
    forall k | 0 <= k <= |stale| - |Version| ensures !OccursAt(stale, Version, k) {
      assert stale[k + 1] != Version[1];
    }
  }

  /** Which strategy, with which bucket, the fetch handler picks. */
  datatype Strategy =
    | PassThrough
    | NetworkFirst(cache: string)
    | StaleWhileRevalidate(cache: string)
    | CacheFirst(cache: string)

  /** The fetch handler's routing: non-GET and cross-origin requests are
      left alone; `/api/` first, then `/uploads/`, then anything else. */
  function Route(req: Request, self: string): (s: Strategy)
    ensures req.verb != "GET" || req.url.origin != self <==> s.PassThrough?
    ensures s.NetworkFirst? <==> req.verb == "GET" && req.url.origin == self && StartsWith(req.url.path, "/api/")
    ensures s.StaleWhileRevalidate? <==> req.verb == "GET" && req.url.origin == self
                                         && !StartsWith(req.url.path, "/api/") && StartsWith(req.url.path, "/uploads/")
    ensures s.NetworkFirst? ==> s.cache == ApiCache
    ensures s.StaleWhileRevalidate? ==> s.cache == UploadsCache
    ensures s.CacheFirst? ==> s.cache == StaticCache
  {
    if req.verb != "GET" then PassThrough
    else if req.url.origin != self then PassThrough
    else if StartsWith(req.url.path, "/api/") then NetworkFirst(ApiCache)
    else if StartsWith(req.url.path, "/uploads/") then StaleWhileRevalidate(UploadsCache)
    else CacheFirst(StaticCache)
  }

  /** A strategy's outcome: what `respondWith` receives (None: the promise
      resolved to null or undefined), the storage afterwards, and whether
      the network was asked. */
  datatype Served = Served(response: Option<Response>, storage: Storage, fetched: bool)

  predicate WantsHtml(req: Request) {
    req.accept.Some? && Contains(req.accept.value, "text/html")
  }

  const OfflineJson: Response := Response(503, "{\"error\":\"offline\"}")
  const OfflineText: Response := Response(503, "offline")

  /** `networkFirst`: on a response, store it and return it whatever its
      status; when fetch rejects, the cached match, else the offline page
      for HTML requests, else a 503 JSON error. */
  function NetworkFirstServe(st: Storage, name: string, req: Request, self: string, net: Option<Response>): (r: Served)
    requires UniqueNames(st)
    ensures r.fetched
    ensures net.Some? ==> r.response == net && Lookup(r.storage, name, req.url) == net
    ensures net.None? && Lookup(st, name, req.url).Some? ==> r.response == Lookup(st, name, req.url)
    ensures net.None? && Lookup(st, name, req.url).None? && WantsHtml(req) ==>
              r.response == MatchAny(Open(st, name), OfflinePage(self))
    ensures net.None? && Lookup(st, name, req.url).None? && !WantsHtml(req) ==> r.response == Some(OfflineJson)
    ensures net.None? ==> r.storage == Open(st, name)
  {
    var st1 := Open(st, name);
    OpenKeepsLookups(st, name);
    match net
    case Some(got) => Served(Some(got), Put(st, name, req.url, got), true)
    case None =>
      var cached := Lookup(st1, name, req.url);
      if cached.Some? then Served(cached, st1, true)
      else if WantsHtml(req) then Served(MatchAny(st1, OfflinePage(self)), st1, true)
      else Served(Some(OfflineJson), st1, true)
  }

  lemma {:induction false} LookupAppend(st: Storage, b: Bucket, n: string, k: Url)
    requires n != b.name || n !in Names(st)
    ensures Lookup(st + [b], n, k) == (if n == b.name then (if k in b.entries then Some(b.entries[k]) else None)
                                       else Lookup(st, n, k))
  {
    if |st| > 0 {
      assert (st + [b])[1..] == st[1..] + [b];
      assert Names(st[1..]) == Names(st)[1..];
      LookupAppend(st[1..], b, n, k);
    }
  }

  /** Opening a bucket changes no lookup. */
  lemma OpenKeepsLookups(st: Storage, name: string)
    ensures forall n, k :: Lookup(Open(st, name), n, k) == Lookup(st, n, k)
  {
    forall n, k ensures Lookup(Open(st, name), n, k) == Lookup(st, n, k) {
      if name !in Names(st) {
        LookupAppend(st, Bucket(name, map[]), n, k);
        if n == name { LookupAbsent(st, n, k); }
      }
    }
  }

  lemma {:induction false} LookupAbsent(st: Storage, name: string, key: Url)
    requires name !in Names(st)
    ensures Lookup(st, name, key) == None
  {
    if |st| > 0 {
      assert Names(st[1..]) == Names(st)[1..];
      LookupAbsent(st[1..], name, key);
    }
  }

  /** What `cached || networkPromise || caches.match('/offline.html')`
      evaluates to. */
  datatype SwrPick = FromCache | FromNetwork | FromOfflinePage

  /** The JavaScript values the operands of that `||` can take. */
  datatype JsValue = JsUndefined | JsNull | JsBool(b: bool) | JsNumber(n: int) | JsString(s: string) | JsObject

  /** JavaScript truthiness (NaN is not modelled: numbers are integers). */
  predicate Truthy(v: JsValue) {
    match v
    case JsUndefined => false
    case JsNull => false
    case JsBool(b) => b
    case JsNumber(n) => n != 0
    case JsString(s) => s != ""
    case JsObject => true
  }

  /** `cache.match(req)`: a Response object on a hit, undefined on a miss. */
  function CachedOperand(cached: Option<Response>): (v: JsValue)
    ensures Truthy(v) <==> cached.Some?
  {
    if cached.Some? then JsObject else JsUndefined
  }

  /** `fetch(req).then(...).catch(() => null)` is a Promise object, whatever
      the fetch later settles to. */
  const NetworkOperand: JsValue := JsObject

  /** JavaScript `a || b || c`: the first truthy operand, else the last. */
  function PickSwr(cached: JsValue, networkPromise: JsValue): (k: SwrPick)
    ensures k == FromCache <==> Truthy(cached)
    ensures k == FromOfflinePage <==> !Truthy(cached) && !Truthy(networkPromise)
  {
    if Truthy(cached) then FromCache
    else if Truthy(networkPromise) then FromNetwork
    else FromOfflinePage
  }

  /** `staleWhileRevalidate`: the fetch always starts and, when it resolves,
      refreshes the bucket; the answer is the cached entry if any, else the
      network result, which is null when the fetch rejected. */
  function StaleWhileRevalidateServe(st: Storage, name: string, req: Request, self: string, net: Option<Response>): (r: Served)
    requires UniqueNames(st)
    ensures r.fetched
    ensures Lookup(st, name, req.url).Some? ==> r.response == Lookup(st, name, req.url)
    ensures Lookup(st, name, req.url).None? ==> r.response == net
    ensures net.Some? ==> Lookup(r.storage, name, req.url) == net
    ensures net.None? ==> r.storage == Open(st, name)
  {
    var st1 := Open(st, name);
    OpenKeepsLookups(st, name);
    var cached := Lookup(st1, name, req.url);
    var st2 := if net.Some? then Put(st, name, req.url, net.value) else st1;
    match PickSwr(CachedOperand(cached), NetworkOperand)
    case FromCache => Served(cached, st2, true)
    case FromNetwork => Served(net, st2, true)
    case FromOfflinePage => Served(MatchAny(st1, OfflinePage(self)), st2, true)
  }

  /** The offline-page operand of stale-while-revalidate is dead: with no
      cached entry and a failed fetch the worker answers null, not the
      offline page. */
  lemma SwrOfflinePageUnreachable(cached: Option<Response>)
    ensures PickSwr(CachedOperand(cached), NetworkOperand) != FromOfflinePage
    ensures cached.None? ==> PickSwr(CachedOperand(cached), NetworkOperand) == FromNetwork
  {
  }

  /** `cacheFirst`: a hit is returned without touching the network; a miss
      fetches, stores and returns; a failed fetch gives the offline page to
      HTML requests and a 503 text answer to the rest. */
  function CacheFirstServe(st: Storage, name: string, req: Request, self: string, net: Option<Response>): (r: Served)
    requires UniqueNames(st)
    ensures Lookup(st, name, req.url).Some? ==> r.response == Lookup(st, name, req.url) && !r.fetched && r.storage == Open(st, name)
    ensures Lookup(st, name, req.url).None? ==> r.fetched
    ensures Lookup(st, name, req.url).None? && net.Some? ==> r.response == net && Lookup(r.storage, name, req.url) == net
    ensures Lookup(st, name, req.url).None? && net.None? && WantsHtml(req) ==>
              r.response == MatchAny(Open(st, name), OfflinePage(self))
    ensures Lookup(st, name, req.url).None? && net.None? && !WantsHtml(req) ==> r.response == Some(OfflineText)
  {
    var st1 := Open(st, name);
    OpenKeepsLookups(st, name);
    var cached := Lookup(st1, name, req.url);
    if cached.Some? then Served(cached, st1, false)
    else match net
      case Some(got) => Served(Some(got), Put(st, name, req.url, got), true)
      case None =>
        if WantsHtml(req) then Served(MatchAny(st1, OfflinePage(self)), st1, true)
        else Served(Some(OfflineText), st1, true)
  }

  /** The fetch handler: None when the request is left to the browser. */
  function HandleFetch(st: Storage, req: Request, self: string, net: Option<Response>): (r: Option<Served>)
    requires UniqueNames(st)
    ensures r.None? <==> req.verb != "GET" || req.url.origin != self
    ensures r.Some? ==> UniqueNames(r.value.storage)
  {
    match Route(req, self)
    case PassThrough => None
    case NetworkFirst(c) => Some(NetworkFirstServe(st, c, req, self, net))
    case StaleWhileRevalidate(c) => Some(StaleWhileRevalidateServe(st, c, req, self, net))
    case CacheFirst(c) => Some(CacheFirstServe(st, c, req, self, net))
  }
}

=== FILE: sorting.dfy ===
/** A stable sort of records by an integer key (a timestamp): the order
    in which the server returns comments and messages. */
module Sorting {

  predicate SortedBy<T>(s: seq<T>, key: T -> int) {
    forall i, j :: 0 <= i < j < |s| ==> key(s[i]) <= key(s[j])
  }

  /** Insert `x` after every element whose key is at most its own. */
  function Insert<T>(x: T, s: seq<T>, key: T -> int): (r: seq<T>)
    requires SortedBy(s, key)
    ensures SortedBy(r, key)
    ensures multiset(r) == multiset(s) + multiset{x}
    ensures |r| == |s| + 1
    ensures r[0] == x || (|s| > 0 && r[0] == s[0])
  {
    if |s| == 0 then [x]
    else if key(x) < key(s[0]) then [x] + s
    else
      var rest := Insert(x, s[1..], key);
      ConsKeepsOrder(x, s, rest, key);
      [s[0]] + rest
  }

  /** The step of `Insert` that keeps the head in front. */
  lemma ConsKeepsOrder<T>(x: T, s: seq<T>, rest: seq<T>, key: T -> int)
    requires SortedBy(s, key) && |s| > 0 && key(s[0]) <= key(x)
    requires SortedBy(rest, key) && multiset(rest) == multiset(s[1..]) + multiset{x}
    requires |rest| == |s| && (rest[0] == x || (|s| > 1 && rest[0] == s[1]))
    ensures SortedBy([s[0]] + rest, key)
    ensures multiset([s[0]] + rest) == multiset(s) + multiset{x}
  {
    assert s == [s[0]] + s[1..];
    assert key(s[0]) <= key(rest[0]);
    var r := [s[0]] + rest;
    assert forall j :: 1 <= j < |r| ==> r[j] == rest[j - 1];
  }

  /** Insertion sort by `key`, ascending. */
  function SortBy<T>(s: seq<T>, key: T -> int): (r: seq<T>)
    ensures SortedBy(r, key)
    ensures multiset(r) == multiset(s)
    ensures |r| == |s|
  {
    if |s| == 0 then []
    else
      assert s == s[..|s| - 1] + [s[|s| - 1]];
      Insert(s[|s| - 1], SortBy(s[..|s| - 1], key), key)
  }

  /** An element whose key no element of a sorted sequence exceeds is
      inserted at its end. */
  lemma {:induction false} InsertLast<T>(x: T, s: seq<T>, key: T -> int)
    requires SortedBy(s, key)
    requires forall k :: 0 <= k < |s| ==> key(s[k]) <= key(x)
    ensures Insert(x, s, key) == s + [x]
  {
    if |s| > 0 {
      InsertLast(x, s[1..], key);
      assert [s[0]] + (s[1..] + [x]) == s + [x];
    }
  }

  /** Sorting a sequence extended by an element with the greatest key
      appends that element to the sorted sequence. */
  lemma SortByAppendLast<T>(s: seq<T>, x: T, key: T -> int)
    requires forall k :: 0 <= k < |s| ==> key(s[k]) <= key(x)
    ensures SortBy(s + [x], key) == SortBy(s, key) + [x]
  {
    var t := s + [x];
    assert t[..|t| - 1] == s;
    var sorted := SortBy(s, key);
    forall k | 0 <= k < |sorted|
      ensures key(sorted[k]) <= key(x)
    {
      assert sorted[k] in multiset(s);
    }
    InsertLast(x, sorted, key);
  }

  /** In a sorted sequence, every element of a prefix has a key no larger
      than any element after it. */
  lemma PrefixBeforeRest<T>(s: seq<T>, key: T -> int, n: nat)
    requires SortedBy(s, key) && n <= |s|
    ensures forall p, q :: p in s[..n] && q in multiset(s[n..]) ==> key(p) <= key(q)
  {
    forall p, q | p in s[..n] && q in multiset(s[n..])
      ensures key(p) <= key(q)
    {
      var a :| 0 <= a < n && s[..n][a] == p;
      var b :| 0 <= b < |s| - n && s[n..][b] == q;
      assert s[a] == p && s[n + b] == q;
    }
  }
}

=== FILE: strings.dfy ===
/** String operations the source performs through JavaScript built-ins and
    small regular expressions: `trim`, ASCII case folding, prefix and suffix
    tests, stripping slashes, and `split("/")` with its last segment. */
module Strings {

  /** The characters `String.prototype.trim` removes: the WhiteSpace and
      LineTerminator productions of ECMA-262 (space separators listed out). */
  predicate IsSpace(c: char) {
    || c == '\t' || c == '\n' || c == '\U{000B}' || c == '\U{000C}' || c == '\r' || c == ' '
    || c == '\U{00A0}' || c == '\U{1680}' || ('\U{2000}' <= c <= '\U{200A}')
    || c == '\U{2028}' || c == '\U{2029}' || c == '\U{202F}' || c == '\U{205F}'
    || c == '\U{3000}' || c == '\U{FEFF}'
  }

  function TrimStart(s: string): (r: string)
    ensures |r| <= |s| && r == s[|s| - |r|..]
    ensures r == [] || !IsSpace(r[0])
    ensures forall i :: 0 <= i < |s| - |r| ==> IsSpace(s[i])
  {
    if |s| > 0 && IsSpace(s[0]) then
      var r := TrimStart(s[1..]);
      assert forall i :: 1 <= i < |s| - |r| ==> s[i] == s[1..][i - 1];
      r
    else s
  }

  function TrimEnd(s: string): (r: string)
    ensures |r| <= |s| && r == s[..|r|]
    ensures r == [] || !IsSpace(r[|r| - 1])
    ensures forall i :: |r| <= i < |s| ==> IsSpace(s[i])
  {
    if |s| > 0 && IsSpace(s[|s| - 1]) then TrimEnd(s[..|s| - 1]) else s
  }

  /** `s.trim()` */
  function Trim(s: string): string {
    TrimEnd(TrimStart(s))
  }

  /** A string with no white space at either end trims to itself. */
  lemma TrimNoop(s: string)
    requires s != [] ==> !IsSpace(s[0]) && !IsSpace(s[|s| - 1])
    ensures Trim(s) == s
  {
  }

  /** `!s.trim()`: the string is empty once trimmed. */
  predicate IsBlank(s: string) {
    Trim(s) == ""
  }

  /** A trimmed string has no whitespace at either end, and it is blank
      exactly when every character of the input is whitespace. */
  lemma TrimSpec(s: string)
    ensures Trim(s) == [] || (!IsSpace(Trim(s)[0]) && !IsSpace(Trim(s)[|Trim(s)| - 1]))
    ensures IsBlank(s) <==> forall i :: 0 <= i < |s| ==> IsSpace(s[i])
  {
    var t := TrimStart(s);
    if Trim(s) != [] {
      assert Trim(s)[0] == t[0];
    }
  }

  /** Trimming twice is trimming once. */
  lemma TrimIdempotent(s: string)
    ensures Trim(Trim(s)) == Trim(s)
  {
    var r := Trim(s);
    assert TrimStart(r) == r;
  }

  function LowerChar(c: char): char {
    if 'A' <= c <= 'Z' then (c as int + 32) as char else c
  }

  /** `s.toLowerCase()` on the ASCII letters. */
  function Lower(s: string): (r: string)
    ensures |r| == |s|
  {
    seq(|s|, i requires 0 <= i < |s| => LowerChar(s[i]))
  }

  /** Case folding leaves whitespace alone and makes none. */
  lemma LowerCharSpace(c: char)
    ensures IsSpace(LowerChar(c)) <==> IsSpace(c)
  {
  }

  lemma {:induction false} TrimStartLower(s: string)
    ensures TrimStart(Lower(s)) == Lower(TrimStart(s))
  {
    if |s| > 0 {
      LowerCharSpace(s[0]);
      assert Lower(s)[0] == LowerChar(s[0]);
      if IsSpace(s[0]) {
        assert Lower(s)[1..] == Lower(s[1..]);
        TrimStartLower(s[1..]);
      }
    }
  }

  lemma {:induction false} TrimEndLower(s: string)
    ensures TrimEnd(Lower(s)) == Lower(TrimEnd(s))
  {
    if |s| > 0 {
      LowerCharSpace(s[|s| - 1]);
      assert Lower(s)[|s| - 1] == LowerChar(s[|s| - 1]);
      if IsSpace(s[|s| - 1]) {
        assert Lower(s)[..|s| - 1] == Lower(s[..|s| - 1]);
        TrimEndLower(s[..|s| - 1]);
      }
    }
  }

  /** Lowercasing and trimming commute. */
  lemma LowerTrimCommute(s: string)
    ensures Lower(Trim(s)) == Trim(Lower(s))
  {
    TrimStartLower(s);
    TrimEndLower(TrimStart(s));
  }

  predicate StartsWith(s: string, p: string) {
    |p| <= |s| && s[..|p|] == p
  }

  predicate EndsWith(s: string, p: string) {
    |p| <= |s| && s[|s| - |p|..] == p
  }

  /** A suffix of a suffix is a suffix. */
  lemma SuffixOfSuffix(s: string, a: string, b: string)
    requires EndsWith(s, a) && EndsWith(a, b)
    ensures EndsWith(s, b)
  {
    assert s[|s| - |b|..] == s[|s| - |a|..][|a| - |b|..];
  }

  /** A prefix test under the `/i` flag: both sides compared case-folded. */
  predicate StartsWithCI(s: string, p: string) {
    |p| <= |s| && Lower(s[..|p|]) == Lower(p)
  }

  predicate EndsWithCI(s: string, p: string) {
    |p| <= |s| && Lower(s[|s| - |p|..]) == Lower(p)
  }

  predicate OccursAt(s: string, sub: string, k: int) {
    0 <= k && k + |sub| <= |s| && s[k..k + |sub|] == sub
  }

  /** `s.includes(sub)` */
  predicate Contains(s: string, sub: string) {
    exists k | 0 <= k <= |s| - |sub| :: OccursAt(s, sub, k)
  }

  lemma ContainsWitness(s: string, sub: string, k: int)
    requires OccursAt(s, sub, k)
    ensures Contains(s, sub)
  {
  }

  /** `/^https?:\/\//i.test(s)` */
  predicate IsHttpUrl(s: string) {
    StartsWithCI(s, "http://") || StartsWithCI(s, "https://")
  }

  /** A string whose first letter is not "h" in any case is no absolute URL. */
  lemma NotHttpByFirstChar(s: string)
    requires |s| > 0 && LowerChar(s[0]) != 'h'
    ensures !IsHttpUrl(s)
  {
    if |s| >= 7 {
      assert Lower(s[..7])[0] != Lower("http://")[0];
    }
    if |s| >= 8 {
      assert Lower(s[..8])[0] != Lower("https://")[0];
    }
  }

  /** An absolute URL starts with "h" or "H", so not with white space. */
  lemma HttpUrlFirstChar(s: string)
    requires IsHttpUrl(s)
    ensures |s| >= 7 && LowerChar(s[0]) == 'h' && !IsSpace(s[0])
  {
    if StartsWithCI(s, "http://") {
      assert Lower(s[..7])[0] == Lower("http://")[0];
    } else {
      assert Lower(s[..8])[0] == Lower("https://")[0];
    }
  }

  /** Text appended to an absolute URL keeps it absolute. */
  lemma HttpUrlExtends(s: string, tail: string)
    requires IsHttpUrl(s)
    ensures IsHttpUrl(s + tail)
  {
    var t := s + tail;
    if StartsWithCI(s, "http://") {
      assert t[..7] == s[..7];
    } else {
      assert t[..8] == s[..8];
    }
  }

  /** `s.replace(/^\/+/, "")` */
  function StripLeadingSlashes(s: string): (r: string)
    ensures r == [] || r[0] != '/'
    ensures |r| <= |s| && r == s[|s| - |r|..]
    ensures forall i :: 0 <= i < |s| - |r| ==> s[i] == '/'
  {
    if |s| > 0 && s[0] == '/' then StripLeadingSlashes(s[1..]) else s
  }

  /** A run of slashes in front of a text that does not start with one is
      exactly what the leading-slash strip removes. */
  lemma {:induction false} StripSlashRun(slashes: string, t: string)
    requires forall i :: 0 <= i < |slashes| ==> slashes[i] == '/'
    requires t == [] || t[0] != '/'
    ensures StripLeadingSlashes(slashes + t) == t
  {
    if |slashes| > 0 {
      assert (slashes + t)[1..] == slashes[1..] + t;
      StripSlashRun(slashes[1..], t);
    } else {
      assert slashes + t == t;
    }
  }

  /** `s.replace(/\/+$/, "")` */
  function StripTrailingSlashes(s: string): (r: string)
    ensures r == [] || r[|r| - 1] != '/'
    ensures |r| <= |s| && r == s[..|r|]
    ensures forall i :: |r| <= i < |s| ==> s[i] == '/'
  {
    if |s| > 0 && s[|s| - 1] == '/' then StripTrailingSlashes(s[..|s| - 1]) else s
  }

  /** Whether `s` starts with "uploads", in any case when `ci`. */
  predicate UploadsAhead(s: string, ci: bool) {
    if ci then StartsWithCI(s, "uploads") else StartsWith(s, "uploads")
  }

  /** `s.replace(/^uploads\/?/i, "")` when `ci`, and `s.replace(/^uploads\/?/, "")`
      otherwise: a leading "uploads" goes, with the one slash after it if any. */
  function StripUploads(s: string, ci: bool): (r: string)
    ensures |r| <= |s| && r == s[|s| - |r|..]
    ensures !UploadsAhead(s, ci) ==> r == s
    ensures UploadsAhead(s, ci) && |s| > 7 && s[7] == '/' ==> s == s[..8] + r
    ensures UploadsAhead(s, ci) && !(|s| > 7 && s[7] == '/') ==> s == s[..7] + r
  {
    var hit := UploadsAhead(s, ci);
    if !hit then s
    else if |s| > 7 && s[7] == '/' then s[8..]
    else s[7..]
  }

  /** `s.split("/").pop()`: what follows the last slash, or all of `s`. */
  function AfterLastSlash(s: string): (r: string)
    ensures '/' !in r
    ensures |r| <= |s| && r == s[|s| - |r|..]
    ensures |r| < |s| ==> s[|s| - |r| - 1] == '/'
  {
    if |s| == 0 then ""
    else if s[|s| - 1] == '/' then ""
    else AfterLastSlash(s[..|s| - 1]) + [s[|s| - 1]]
  }

  /** `s.split(c)`: the maximal runs between occurrences of `c`; never empty. */
  function SplitOn(s: string, c: char): (parts: seq<string>)
    ensures |parts| >= 1
    ensures forall i :: 0 <= i < |parts| ==> c !in parts[i]
  {
    if |s| == 0 then [""]
    else
      var init := SplitOn(s[..|s| - 1], c);
      if s[|s| - 1] == c then init + [""]
      else init[..|init| - 1] + [init[|init| - 1] + [s[|s| - 1]]]
  }

  /** `parts.filter(Boolean).at(-1) || ""` */
  function LastNonEmpty(parts: seq<string>): string {
    if |parts| == 0 then ""
    else if parts[|parts| - 1] != "" then parts[|parts| - 1]
    else LastNonEmpty(parts[..|parts| - 1])
  }

  /** The last element of `split("/")` is the text after the last slash. */
  lemma {:induction false} SplitLast(s: string)
    ensures var parts := SplitOn(s, '/'); parts[|parts| - 1] == AfterLastSlash(s)
  {
    if |s| > 0 && s[|s| - 1] != '/' {
      SplitLast(s[..|s| - 1]);
    }
  }

  /** The last non-empty segment of a path is the text after its last slash
      once trailing slashes are gone. */
  lemma {:induction false} LastNonEmptySegment(p: string)
    ensures LastNonEmpty(SplitOn(p, '/')) == AfterLastSlash(StripTrailingSlashes(p))
  {
    if |p| == 0 {
    } else if p[|p| - 1] == '/' {
      var init := SplitOn(p[..|p| - 1], '/');
      assert SplitOn(p, '/') == init + [""];
      assert (init + [""])[..|init|] == init;
      LastNonEmptySegment(p[..|p| - 1]);
    } else {
      SplitLast(p);
    }
  }
}

=== FILE: user_profile.dfy ===
/** client/src/pages/UserProfile.jsx: someone's public profile. The page has
    its own `buildMediaSrc`, different from client/src/lib/media.js; it
    decides when a post plays as a video, stamps the avatar URL against the
    browser cache, and steps through the user's posts twelve at a time. */
module UserProfile {
  import opened Common
  import opened Strings
  import opened Records
  import opened Paging
  import ApiClient
  import Media
  import PostCard
  import UserRoutes

  /** The page's `buildMediaSrc(u)`: "" for an empty value; an absolute
      URL as it is (nothing is trimmed); anything else joined, without its
      leading slashes, to the client's server origin by one slash. No
      "uploads/" is put in front. */
  function BuildMediaSrc(env: Option<string>, u: string): (r: string)
    ensures u == "" ==> r == ""
    ensures IsHttpUrl(u) ==> r == u
    ensures u != "" && !IsHttpUrl(u) ==>
              var base := ApiClient.ServerOrigin(env);
              |r| > |base| && StartsWith(r, base) && r[|base|] == '/' && r[|base| + 1..] == StripLeadingSlashes(u)
  {
    if u == "" then ""
    else if IsHttpUrl(u) then u
    else
      var base := ApiClient.ServerOrigin(env);
      var r := base + "/" + StripLeadingSlashes(u);
      assert r[..|base|] == base;
      r
  }

  /** With VITE_API_URL set to the server's BASE_URL, a relative path is
      joined exactly as the server's `absoluteUrl` joins it. */
  lemma SameJoinAsServer(base: string, rel: string)
    requires base != "" && rel != "" && !IsHttpUrl(rel)
    ensures BuildMediaSrc(Some(base), rel) == UserRoutes.AbsoluteUrl(Some(base), "", rel)
  {
  }

  /** Building again changes nothing, under an absolute origin. */
  lemma BuildMediaSrcIdempotent(env: Option<string>, u: string)
    requires IsHttpUrl(ApiClient.ServerOrigin(env))
    ensures BuildMediaSrc(env, BuildMediaSrc(env, u)) == BuildMediaSrc(env, u)
  {
    if u != "" && !IsHttpUrl(u) {
      JoinedIsAbsolute(env, u);
    }
  }

  lemma JoinedIsAbsolute(env: Option<string>, u: string)
    requires IsHttpUrl(ApiClient.ServerOrigin(env)) && u != "" && !IsHttpUrl(u)
    ensures IsHttpUrl(BuildMediaSrc(env, u))
  {
    var base, tail := ApiClient.ServerOrigin(env), "/" + StripLeadingSlashes(u);
    assert BuildMediaSrc(env, u) == base + tail;
    HttpUrlExtends(base, tail);
  }

  /** A post stored under a bare file name: media.js looks for it under
      "/uploads/", this page at the root of the server. */
  lemma BareNameDiffersFromMedia(env: Option<string>, name: string)
    requires PostCard.PlainName(name)
    ensures var origin := ApiClient.ServerOrigin(env);
            && BuildMediaSrc(env, name) == origin + "/" + name
            && Media.BuildMediaSrc(origin, Some(name)) == Some(origin + "/uploads/" + name)
            && Some(BuildMediaSrc(env, name)) != Media.BuildMediaSrc(origin, Some(name))
  {
    var origin := ApiClient.ServerOrigin(env);
    TrimNoop(name);
    assert StripLeadingSlashes(name) == name;
    assert StripUploads(name, false) == name;
  }

  /** `post.mediaUrl || post.imageUrl || ""`: the older `videoUrl` is not
      consulted. */
  function CardUrl(env: Option<string>, p: Post): (url: string)
    ensures p.mediaUrl == "" && p.imageUrl == "" ==> url == ""
    ensures p.mediaUrl != "" ==> url == BuildMediaSrc(env, p.mediaUrl)
    ensures p.mediaUrl == "" ==> url == BuildMediaSrc(env, p.imageUrl)
  {
    BuildMediaSrc(env, if p.mediaUrl != "" then p.mediaUrl else p.imageUrl)
  }

  /** A legacy post with only a `videoUrl` shows nothing here, while the
      feed's card plays it. */
  lemma VideoOnlyPostHasNoUrl(env: Option<string>, p: Post)
    requires p.mediaUrl == "" && p.imageUrl == "" && p.videoUrl != ""
    ensures CardUrl(env, p) == "" && RawMediaUrl(p) == p.videoUrl
  {
  }

  /** `isVideo`: the stored type is "video", or the URL ends in ".mp4",
      ".webm" or ".ogg" in any case (`$` with nothing after it). */
  predicate IsVideo(p: Post, url: string) {
    p.mediaType == Video || EndsWithCI(url, ".mp4") || EndsWithCI(url, ".webm") || EndsWithCI(url, ".ogg")
  }

  /** Unlike the feed's card, this page does not accept a query string
      after the extension: such an image-typed post shows as an image. */
  lemma QueryVideoShowsAsImage(p: Post, path: string)
    requires p.mediaType == Image
    ensures PostCard.IsVid(p, path + ".mp4?") && !IsVideo(p, path + ".mp4?")
  {
    var src := path + ".mp4?";
    PostCard.VideoWithQuery(p, path, "");
    assert path + ".mp4?" + "" == src;
    assert src[|src| - 1] == '?';
    assert Lower(src[|src| - 4..])[3] == '?';
    assert Lower(src[|src| - 5..])[4] == '?';
  }

  /** `String(n)` of a millisecond time, sign included. */
  function TimeText(t: int): string {
    if t < 0 then "-" + Decimal(-t) else Decimal(t)
  }

  /** `parseInt` reads the stamp back. */
  lemma TimeTextReadsBack(t: int)
    ensures ParseInt(TimeText(t)) == Int(t)
  {
    if t < 0 {
      var n: nat := -t;
      assert TimeText(t) == "-" + Decimal(n);
      ParseIntNegative(n);
    } else {
      ParseIntDecimal(t);
    }
  }

  /** The avatar memo: null without an avatar; else the built URL, then
      "&" if it already has a "?" and "?" otherwise, then `t=` and the
      user's update time. */
  function AvatarSrc(env: Option<string>, v: UserRoutes.PublicView): (r: Option<string>)
    ensures r.None? <==> v.avatarUrl.GetOr("") == ""
    ensures r.Some? ==>
              var base := BuildMediaSrc(env, v.avatarUrl.value);
              && |r.value| > |base| + 2 && StartsWith(r.value, base)
              && r.value[|base|] == (if '?' in base then '&' else '?')
              && r.value[|base| + 1..|base| + 3] == "t="
              && ParseInt(r.value[|base| + 3..]) == Int(v.updatedAt)
  {
    if v.avatarUrl.GetOr("") == "" then None
    else
      var base := BuildMediaSrc(env, v.avatarUrl.value);
      var sep := if '?' in base then "&" else "?";
      var r := base + sep + "t=" + TimeText(v.updatedAt);
      assert r[..|base|] == base;
      assert r[|base| + 3..] == TimeText(v.updatedAt);
      TimeTextReadsBack(v.updatedAt);
      Some(r)
  }

  /** Every change of the user's update time gives the avatar a new URL,
      so the browser cannot serve the old picture from its cache. */
  lemma NewStampNewAvatar(env: Option<string>, v: UserRoutes.PublicView, w: UserRoutes.PublicView)
    requires v.avatarUrl == w.avatarUrl && v.avatarUrl.GetOr("") != ""
    requires v.updatedAt != w.updatedAt
    ensures AvatarSrc(env, v) != AvatarSrc(env, w)
  {
  }

  /** The pager: `page || 1`, `pages || 0`, `total || 0` from an answer
      (a NaN page arrives as null). */
  datatype Pager = Pager(page: int, pages: int, total: int)

  function PagerOf(a: UserRoutes.PostsPage): (pg: Pager)
    ensures pg.total == a.total
    ensures a.page.Int? && a.page.v != 0 ==> pg.page == a.page.v
    ensures a.page.NaN? || a.page == Int(0) ==> pg.page == 1
    ensures a.pages.Int? ==> pg.pages == a.pages.v
    ensures a.pages.NaN? ==> pg.pages == 0
  {
    Pager(if a.page.Int? && a.page.v != 0 then a.page.v else 1,
          if a.pages.Int? then a.pages.v else 0,
          a.total)
  }

  /** The pager is shown when there is more than one page. */
  predicate ShowsPager(pg: Pager) {
    pg.pages > 1
  }

  /** The page "Prev" asks for: none on the first page. */
  function PrevTarget(pg: Pager): (q: Option<int>)
    ensures q.Some? <==> pg.page > 1
    ensures q.Some? ==> 1 <= q.value < pg.page
  {
    if pg.page <= 1 then None else Some(pg.page - 1)
  }

  /** The page "Next" asks for: none from the last page on. */
  function NextTarget(pg: Pager): (q: Option<int>)
    ensures q.Some? <==> pg.page < pg.pages
    ensures q.Some? ==> pg.page < q.value <= pg.pages
  {
    if pg.page >= pg.pages then None else Some(pg.page + 1)
  }

  /** GET /api/users/:id/posts with `page` and `limit: 12`, as the pager
      then shows it; None when the request fails. */
  function LoadPage(users: seq<User>, posts: seq<Post>, k: string, isId: Id -> bool, q: nat, otherwise: seq<Post>)
    : (r: Option<(seq<Post>, Pager)>)
    ensures r.Some? <==> UserRoutes.IdOrName(users, k, isId).Some?
  {
    match UserRoutes.UserPosts(users, posts, k, isId, Some(Decimal(q)), Some(Decimal(12)), otherwise)
    case Err(_, _) => None
    case Ok(a) => Some((a.posts, PagerOf(a)))
  }

  /** A page the pager asks for is the page it then shows, and the count
      of pages is the number of twelve-post pages the user's posts fill. */
  lemma LoadedPageIsRequested(users: seq<User>, posts: seq<Post>, k: string, isId: Id -> bool, q: nat, otherwise: seq<Post>)
    requires q >= 1
    requires UserRoutes.IdOrName(users, k, isId).Some?
    ensures var r := LoadPage(users, posts, k, isId, q, otherwise).value.1;
            var total := |UserRoutes.PostsOf(posts, UserRoutes.IdOrName(users, k, isId).value.id)|;
            && r.page == q && r.total == total
            && r.pages * 12 >= total && (r.pages > 0 ==> (r.pages - 1) * 12 < total)
  {
    TwelveToAPage(q);
  }

  /** The pager's request is read as page `q` of twelve. */
  lemma TwelveToAPage(q: nat)
    requires q >= 1
    ensures WindowOf(Some(Decimal(q)), Some(Decimal(12)), "12") == Window(Int(q), Int(12), Int((q - 1) * 12))
  {
    PageOfDecimal(q);
    LimitOfDecimal(12, "12");
    WindowOfParts(Some(Decimal(q)), Some(Decimal(12)), "12", q, 12);
  }

  /** "Next" then "Prev" comes back to the page one started from, while
      the user's posts stay the same. */
  lemma NextThenPrevReturns(users: seq<User>, posts: seq<Post>, k: string, isId: Id -> bool, q: nat, otherwise: seq<Post>)
    requires q >= 1
    requires UserRoutes.IdOrName(users, k, isId).Some?
    requires NextTarget(LoadPage(users, posts, k, isId, q, otherwise).value.1).Some?
    ensures NextTarget(LoadPage(users, posts, k, isId, q, otherwise).value.1) == Some(q + 1)
    ensures PrevTarget(LoadPage(users, posts, k, isId, q + 1, otherwise).value.1) == Some(q)
  {
    NextFromLoaded(users, posts, k, isId, q, otherwise);
    PrevFromLoaded(users, posts, k, isId, q + 1, otherwise);
  }

  lemma NextFromLoaded(users: seq<User>, posts: seq<Post>, k: string, isId: Id -> bool, q: nat, otherwise: seq<Post>)
    requires q >= 1
    requires UserRoutes.IdOrName(users, k, isId).Some?
    requires NextTarget(LoadPage(users, posts, k, isId, q, otherwise).value.1).Some?
    ensures NextTarget(LoadPage(users, posts, k, isId, q, otherwise).value.1) == Some(q + 1)
  {
    LoadedPageNumber(users, posts, k, isId, q, otherwise);
    NextOfPage(LoadPage(users, posts, k, isId, q, otherwise).value.1, q);
  }

  lemma PrevFromLoaded(users: seq<User>, posts: seq<Post>, k: string, isId: Id -> bool, q: nat, otherwise: seq<Post>)
    requires q >= 2
    requires UserRoutes.IdOrName(users, k, isId).Some?
    ensures PrevTarget(LoadPage(users, posts, k, isId, q, otherwise).value.1) == Some(q - 1)
  {
    LoadedPageNumber(users, posts, k, isId, q, otherwise);
    PrevOfPage(LoadPage(users, posts, k, isId, q, otherwise).value.1, q);
  }

  lemma NextOfPage(pg: Pager, q: int)
    requires pg.page == q && NextTarget(pg).Some?
    ensures NextTarget(pg) == Some(q + 1)
  {
  }

  lemma PrevOfPage(pg: Pager, q: int)
    requires pg.page == q >= 2
    ensures PrevTarget(pg) == Some(q - 1)
  {
  }

  lemma LoadedPageNumber(users: seq<User>, posts: seq<Post>, k: string, isId: Id -> bool, q: nat, otherwise: seq<Post>)
    requires q >= 1
    requires UserRoutes.IdOrName(users, k, isId).Some?
    ensures LoadPage(users, posts, k, isId, q, otherwise).Some?
    ensures LoadPage(users, posts, k, isId, q, otherwise).value.1.page == q
  {
    LoadedPageIsRequested(users, posts, k, isId, q, otherwise);
  }

  /** What the page holds: the user shown, the posts and the pager. */
  datatype ProfilePage = ProfilePage(user: Option<UserRoutes.Profile>, posts: seq<Post>, pager: Pager)

  const Initial: ProfilePage := ProfilePage(None, [], Pager(1, 0, 0))

  /** The effect on a new `:id`: the profile, then its first page. A
      failed request (a 404 rejects) ends the effect and leaves what the
      page held before. */
  function OnId(pg: ProfilePage, users: seq<User>, posts: seq<Post>, k: string, isId: Id -> bool, otherwise: seq<Post>)
    : (r: ProfilePage)
    ensures UserRoutes.PublicProfile(users, posts, k, isId).Err? ==> r == pg
    ensures UserRoutes.PublicProfile(users, posts, k, isId).Ok? ==>
              r.user == Some(UserRoutes.PublicProfile(users, posts, k, isId).body)
              && Some((r.posts, r.pager)) == LoadPage(users, posts, k, isId, 1, otherwise)
  {
    match UserRoutes.PublicProfile(users, posts, k, isId)
    case Err(_, _) => pg
    case Ok(prof) =>
      match LoadPage(users, posts, k, isId, 1, otherwise)
      case None => pg.(user := Some(prof))
      case Some(loaded) => ProfilePage(Some(prof), loaded.0, loaded.1)
  }

  /** "Posts: {user.postsCount ?? total}" */
  function PostsShown(pg: ProfilePage): int {
    if pg.user.Some? then pg.user.value.postsCount else pg.pager.total
  }

  /** The count in the header is the total the pager pages through. */
  lemma PostsCountMatchesPager(pg: ProfilePage, users: seq<User>, posts: seq<Post>, k: string, isId: Id -> bool, otherwise: seq<Post>)
    requires UserRoutes.PublicProfile(users, posts, k, isId).Ok?
    ensures var r := OnId(pg, users, posts, k, isId, otherwise);
            PostsShown(r) == r.pager.total
  {
    LoadedPageIsRequested(users, posts, k, isId, 1, otherwise);
  }

  /** Moving from one profile to a name nobody has keeps showing the
      previous profile: the page is not cleared before loading. */
  lemma UnknownUserKeepsPrevious(pg: ProfilePage, users: seq<User>, posts: seq<Post>, k: string, isId: Id -> bool, otherwise: seq<Post>)
    requires pg.user.Some?
    requires (!isId(k) || forall j :: 0 <= j < |users| ==> users[j].id != k)
    requires forall j :: 0 <= j < |users| ==> users[j].username != k
    ensures OnId(pg, users, posts, k, isId, otherwise).user == pg.user
  {
  }
}

=== FILE: user_routes.dfy ===
/** The decision logic of server/routes/userRoutes.js: absolute upload
    URLs, the private and public views of a user, reading and editing
    one's own profile and avatar, public lookup by id or username, a
    user's posts page by page, and the username search. The users
    collection is a sequence; `isId` stands for `mongoose.isValidObjectId`. */
module UserRoutes {
  import opened Common
  import opened Strings
  import opened Records
  import opened Sorting
  import opened Paging
  import PostRoutes

  /** `absoluteUrl(req, rel)`: the base (BASE_URL, else the request's
      protocol and host) without trailing slashes, one slash, and the
      relative path without leading slashes. */
  function AbsoluteUrl(envBase: Option<string>, reqBase: string, rel: string): (url: string)
    ensures var base := StripTrailingSlashes(if envBase.Some? && envBase.value != "" then envBase.value else reqBase);
            var tail := StripLeadingSlashes(rel);
            && |url| == |base| + 1 + |tail|
            && StartsWith(url, base) && url[|base|] == '/' && url[|base| + 1..] == tail
            && (base == [] || base[|base| - 1] != '/')
            && (tail == [] || tail[0] != '/')
  {
    var base := StripTrailingSlashes(if envBase.Some? && envBase.value != "" then envBase.value else reqBase);
    var tail := StripLeadingSlashes(rel);
    var url := base + "/" + tail;
    assert url[..|base|] == base;
    url
  }

  /** Extra slashes on either side of the join make no difference. */
  lemma AbsoluteUrlIgnoresExtraSlashes(base: string, rel: string)
    requires base != ""
    ensures AbsoluteUrl(Some(base + "/"), "", "/" + rel) == AbsoluteUrl(Some(base), "", rel)
  {
    var b := base + "/";
    assert b[|b| - 1] == '/' && b[..|b| - 1] == base;
    var r := "/" + rel;
    assert r[0] == '/' && r[1..] == rel;
  }

  /** `cleanPrivate(u)`: the requester's own view, with the email. */
  datatype PrivateView = PrivateView(id: Id, username: string, email: string, avatarUrl: Option<string>,
                                     bio: string, createdAt: int, updatedAt: int)

  /** `cleanPublic(u)`: what anyone may see, without the email. */
  datatype PublicView = PublicView(id: Id, username: string, avatarUrl: Option<string>,
                                   bio: string, createdAt: int, updatedAt: int)

  /** `u.avatarUrl || null` */
  function AvatarOrNull(u: User): (a: Option<string>)
    ensures a == None <==> u.avatarUrl == ""
    ensures a.Some? ==> a.value == u.avatarUrl
  {
    if u.avatarUrl == "" then None else Some(u.avatarUrl)
  }

  function CleanPrivate(u: User): (v: PrivateView)
    ensures v.id == u.id && v.username == u.username && v.email == u.email
    ensures v.avatarUrl == AvatarOrNull(u)
    ensures v.bio == u.bio.GetOr("")
  {
    PrivateView(u.id, u.username, u.email, AvatarOrNull(u), u.bio.GetOr(""), u.createdAt, u.updatedAt)
  }

  function CleanPublic(u: User): (v: PublicView)
    ensures v.id == u.id && v.username == u.username
    ensures v.avatarUrl == AvatarOrNull(u)
    ensures v.bio == u.bio.GetOr("")
  {
    PublicView(u.id, u.username, AvatarOrNull(u), u.bio.GetOr(""), u.createdAt, u.updatedAt)
  }

  /** The public view is the private one with the email left out. */
  lemma PublicIsPrivateWithoutEmail(u: User)
    ensures var p := CleanPrivate(u);
            CleanPublic(u) == PublicView(p.id, p.username, p.avatarUrl, p.bio, p.createdAt, p.updatedAt)
  {
  }

  function FindUser(users: seq<User>, id: Id): (i: int)
    ensures -1 <= i < |users|
    ensures i >= 0 ==> users[i].id == id
    ensures i == -1 ==> forall j :: 0 <= j < |users| ==> users[j].id != id
  {
    FindIndex(users, (u: User) => u.id == id)
  }

  /** GET /api/users/me */
  function GetMe(users: seq<User>, me: Id): (r: Reply<PrivateView>)
    ensures r.Err? <==> forall j :: 0 <= j < |users| ==> users[j].id != me
    ensures r.Err? ==> r == Err(404, "User not found")
    ensures r.Ok? ==> exists j :: 0 <= j < |users| && users[j].id == me && r.body == CleanPrivate(users[j])
  {
    var i := FindUser(users, me);
    if i < 0 then Err(404, "User not found") else Ok(CleanPrivate(users[i]))
  }

  /** A field of a JSON body as `typeof` sees it. */
  datatype Field = Missing | Str(s: string) | NotString

  /** Usernames are unique: the schema's unique index. */
  predicate UniqueNames(users: seq<User>) {
    forall i, j :: 0 <= i < j < |users| ==> users[i].username != users[j].username
  }

  datatype UserOutcome<T> = UserOutcome(reply: Reply<T>, users: seq<User>)

  /** The profile edit PUT /api/users/me applies before saving: a string
      username whose trim is not blank replaces the name (trimmed), and any
      string bio replaces the bio. */
  function EditProfile(u: User, username: Field, bio: Field): (v: User)
    ensures v.id == u.id && v.email == u.email && v.passwordHash == u.passwordHash && v.avatarUrl == u.avatarUrl
    ensures v == u.(username := v.username, bio := v.bio)
    ensures username.Str? && !IsBlank(username.s) ==> v.username == Trim(username.s)
    ensures !(username.Str? && !IsBlank(username.s)) ==> v.username == u.username
    ensures bio.Str? ==> v.bio == Some(bio.s)
    ensures !bio.Str? ==> v.bio == u.bio
  {
    var name := if username.Str? && Trim(username.s) != "" then Trim(username.s) else u.username;
    var b := if bio.Str? then Some(bio.s) else u.bio;
    u.(username := name, bio := b)
  }

  /** PUT /api/users/me. Saving a changed username that another user
      already has fails on the unique index and answers 400; saving a
      modified document stamps `updatedAt`. */
  function UpdateMe(users: seq<User>, me: Id, username: Field, bio: Field, now: int): (o: UserOutcome<PrivateView>)
    ensures o.reply.Err? ==> o.users == users
    ensures FindUser(users, me) < 0 ==> o.reply == Err(404, "User not found")
    ensures FindUser(users, me) >= 0 ==>
              var i := FindUser(users, me);
              var v := EditProfile(users[i], username, bio);
              if v.username != users[i].username && exists j :: 0 <= j < |users| && j != i && users[j].username == v.username
              then o.reply == Err(400, "Username already taken")
              else o.reply.Ok? && |o.users| == |users|
                   && o.users[i].username == v.username && o.users[i].bio == v.bio
                   && o.users[i].(updatedAt := users[i].updatedAt) == v
                   && o.users[i].updatedAt == (if v != users[i] then now else users[i].updatedAt)
                   && (forall j :: 0 <= j < |users| && j != i ==> o.users[j] == users[j])
                   && o.reply.body == CleanPrivate(o.users[i])
  {
    var i := FindUser(users, me);
    if i < 0 then UserOutcome(Err(404, "User not found"), users)
    else
      var u := users[i];
      var v := EditProfile(u, username, bio);
      if v.username != u.username && exists j | 0 <= j < |users| :: j != i && users[j].username == v.username then
        UserOutcome(Err(400, "Username already taken"), users)
      else
        var saved := if v != u then v.(updatedAt := now) else v;
        UserOutcome(Ok(CleanPrivate(saved)), users[i := saved])
  }

  /** Editing the profile never makes two users share a name. */
  lemma UpdateMeKeepsNamesUnique(users: seq<User>, me: Id, username: Field, bio: Field, now: int)
    requires UniqueNames(users)
    ensures UniqueNames(UpdateMe(users, me, username, bio, now).users)
  {
    var o := UpdateMe(users, me, username, bio, now);
    var i := FindUser(users, me);
    if o.reply.Ok? {
      forall a, b | 0 <= a < b < |o.users|
        ensures o.users[a].username != o.users[b].username
      {
        if a != i && b != i {
          assert o.users[a] == users[a] && o.users[b] == users[b];
        }
      }
    }
  }

  /** What PUT /api/users/me/avatar answers and which old file it tries to
      remove. */
  datatype AvatarChange = AvatarChange(view: PrivateView, removed: Option<string>)

  /** PUT /api/users/me/avatar: the upload is required (checked before the
      user); the previous avatar's file (the part after the last slash)
      is removed when it exists (`fileExists`); the new URL is the absolute
      URL of "<upload dir>/<file name>". */
  function UpdateAvatar(users: seq<User>, me: Id, file: Option<Upload>, uploadDir: string, envBase: Option<string>,
                        reqBase: string, fileExists: string -> bool, now: int): (o: UserOutcome<AvatarChange>)
    ensures o.reply.Err? ==> o.users == users
    ensures file.None? ==> o.reply == Err(400, "Avatar file required (field: avatar)")
    ensures file.Some? && FindUser(users, me) < 0 ==> o.reply == Err(404, "User not found")
    ensures o.reply.Ok? <==> file.Some? && FindUser(users, me) >= 0
    ensures o.reply.Ok? ==>
              var i := FindUser(users, me);
              var before := users[i].avatarUrl;
              && o.users == users[i := users[i].(avatarUrl := AbsoluteUrl(envBase, reqBase, uploadDir + "/" + file.value.filename), updatedAt := now)]
              && o.reply.body.view == CleanPrivate(o.users[i])
              && (o.reply.body.removed.Some? <==> before != "" && fileExists(AfterLastSlash(before)))
              && (o.reply.body.removed.Some? ==> o.reply.body.removed.value == AfterLastSlash(before))
  {
    if file.None? then UserOutcome(Err(400, "Avatar file required (field: avatar)"), users)
    else
      var i := FindUser(users, me);
      if i < 0 then UserOutcome(Err(404, "User not found"), users)
      else
        var u := users[i];
        var prev := AfterLastSlash(u.avatarUrl);
        var removed := if u.avatarUrl != "" && fileExists(prev) then Some(prev) else None;
        var u' := u.(avatarUrl := AbsoluteUrl(envBase, reqBase, uploadDir + "/" + file.value.filename), updatedAt := now);
        UserOutcome(Ok(AvatarChange(CleanPrivate(u'), removed)), users[i := u'])
  }

  /** The file name is what follows the last slash of the absolute URL
      of "<dir>/<file name>". */
  lemma AbsoluteUrlLastSegment(envBase: Option<string>, reqBase: string, dir: string, fn: string)
    requires '/' !in fn
    ensures AfterLastSlash(AbsoluteUrl(envBase, reqBase, dir + "/" + fn)) == fn
  {
    var url := AbsoluteUrl(envBase, reqBase, dir + "/" + fn);
    var rel := dir + "/" + fn;
    assert rel[|rel| - |fn|..] == fn;
    var tail := StripLeadingSlashes(rel);
    assert |tail| >= |fn| by {
      if |fn| > 0 {
        assert rel[|rel| - |fn|] == fn[0];
      }
    }
    assert tail[|tail| - |fn|..] == fn;
    assert url[|url| - |tail|..] == tail;
    assert url[|url| - |fn|..] == fn;
    assert url[|url| - |fn| - 1] == '/' by {
      if |tail| > |fn| {
        assert url[|url| - |fn| - 1] == tail[|tail| - |fn| - 1] == rel[|rel| - |fn| - 1];
      }
    }
    PostRoutes.AfterLastSlashIs(url, fn);
  }

  /** The next avatar upload removes the file this one stored. */
  lemma AvatarReplacedNextTime(users: seq<User>, me: Id, f1: Upload, f2: Upload, uploadDir: string,
                               envBase: Option<string>, reqBase: string, fileExists: string -> bool, t1: int, t2: int)
    requires FindUser(users, me) >= 0
    requires '/' !in f1.filename && fileExists(f1.filename)
    ensures var o1 := UpdateAvatar(users, me, Some(f1), uploadDir, envBase, reqBase, fileExists, t1);
            var o2 := UpdateAvatar(o1.users, me, Some(f2), uploadDir, envBase, reqBase, fileExists, t2);
            o2.reply.Ok? && o2.reply.body.removed == Some(f1.filename)
  {
    var o1 := UpdateAvatar(users, me, Some(f1), uploadDir, envBase, reqBase, fileExists, t1);
    var i := FindUser(users, me);
    AbsoluteUrlLastSegment(envBase, reqBase, uploadDir, f1.filename);
    SameUserFound(users, o1.users, me, i);
    assert o1.users[i].avatarUrl != "";
  }

  lemma SameUserFound(a: seq<User>, b: seq<User>, me: Id, i: int)
    requires 0 <= i < |a| == |b| && FindUser(a, me) == i
    requires forall j :: 0 <= j < |a| ==> a[j].id == b[j].id
    ensures FindUser(b, me) == i
  {
  }

  /** `byId || byName`: with a valid id, the user with that id; failing
      that, the user with exactly that username. */
  function IdOrName(users: seq<User>, k: string, isId: Id -> bool): (r: Option<User>)
    ensures r.Some? ==> r.value in users
    ensures r.Some? ==> (isId(k) && r.value.id == k) || r.value.username == k
    ensures isId(k) && (exists j :: 0 <= j < |users| && users[j].id == k) ==> r.Some? && r.value.id == k
    ensures r.None? <==> (!isId(k) || forall j :: 0 <= j < |users| ==> users[j].id != k)
                         && forall j :: 0 <= j < |users| ==> users[j].username != k
  {
    var i := if isId(k) then FindUser(users, k) else -1;
    if i >= 0 then Some(users[i])
    else
      var n := FindIndex(users, (u: User) => u.username == k);
      if n >= 0 then Some(users[n]) else None
  }

  function PostsOf(posts: seq<Post>, id: Id): (r: seq<Post>)
    ensures forall p :: p in r <==> p in posts && p.user == id
  {
    Filter(posts, (p: Post) => p.user == id)
  }

  datatype Profile = Profile(user: PublicView, postsCount: nat)

  /** GET /api/users/:idOrName */
  function PublicProfile(users: seq<User>, posts: seq<Post>, k: string, isId: Id -> bool): (r: Reply<Profile>)
    ensures r.Err? <==> IdOrName(users, k, isId).None?
    ensures r.Err? ==> r == Err(404, "User not found")
    ensures r.Ok? ==> var u := IdOrName(users, k, isId).value;
                      r.body.user == CleanPublic(u) && r.body.postsCount == |PostsOf(posts, u.id)|
  {
    match IdOrName(users, k, isId)
    case None => Err(404, "User not found")
    case Some(u) => Ok(Profile(CleanPublic(u), |PostsOf(posts, u.id)|))
  }

  datatype PostsPage = PostsPage(posts: seq<Post>, total: nat, page: Num, pages: Num)

  /** GET /api/users/:idOrName/posts: the user's posts newest first, twelve
      to a page unless asked otherwise. `otherwise` stands for what the
      database returns for a NaN window. */
  function UserPosts(users: seq<User>, posts: seq<Post>, k: string, isId: Id -> bool,
                     rawPage: Option<string>, rawLimit: Option<string>, otherwise: seq<Post>): (r: Reply<PostsPage>)
    ensures r.Err? <==> IdOrName(users, k, isId).None?
    ensures r.Err? ==> r == Err(404, "User not found")
    ensures r.Ok? ==>
              var u := IdOrName(users, k, isId).value;
              var w := WindowOf(rawPage, rawLimit, "12");
              && r.body.total == |PostsOf(posts, u.id)|
              && r.body.page == w.page
              && r.body.pages == PagesOf(r.body.total, w.limit)
              && (w.skip.Int? && w.limit.Int? ==>
                    && |r.body.posts| <= w.limit.v
                    && (forall p :: p in r.body.posts ==> p in posts && p.user == u.id)
                    && (forall i, j :: 0 <= i < j < |r.body.posts| ==> r.body.posts[i].createdAt >= r.body.posts[j].createdAt))
    ensures r.Ok? && WindowOf(rawPage, rawLimit, "12").skip.Int? ==>
              var u := IdOrName(users, k, isId).value;
              var w := WindowOf(rawPage, rawLimit, "12");
              r.body.posts == Slice(PostRoutes.NewestFirst(PostsOf(posts, u.id)), w.skip.v, w.limit.v)
  {
    match IdOrName(users, k, isId)
    case None => Err(404, "User not found")
    case Some(u) =>
      var w := WindowOf(rawPage, rawLimit, "12");
      var mine := PostsOf(posts, u.id);
      Ok(PostsPage(PostRoutes.NewestFirstPage(mine, w, otherwise), |mine|, w.page, PagesOf(|mine|, w.limit)))
  }

  /** A user as the search lists it: `_id username avatarUrl createdAt
      updatedAt bio`, as stored. */
  datatype Listed = Listed(id: Id, username: string, avatarUrl: string, bio: Option<string>, createdAt: int, updatedAt: int)

  function ListedOf(u: User): Listed {
    Listed(u.id, u.username, u.avatarUrl, u.bio, u.createdAt, u.updatedAt)
  }

  function ListedAll(us: seq<User>): (ls: seq<Listed>)
    ensures |ls| == |us|
    ensures forall i :: 0 <= i < |us| ==> ls[i] == ListedOf(us[i])
  {
    if |us| == 0 then [] else [ListedOf(us[0])] + ListedAll(us[1..])
  }

  /** The search's answer: `{ users: [] }` when the query string has no
      `q` at all, else a page. */
  datatype SearchReply = NoQuery | Found(answer: PageAnswer<Listed>)

  /** GET /api/users?q=...: the users whose username passes the test of
      the escaped pattern (`rxTest` stands for `new RegExp(pattern,
      "i").test(text)`), in username order (`rank` stands for the
      database's ordering of usernames), twenty to a page unless asked
      otherwise. */
  function SearchUsers(users: seq<User>, rawQ: Option<string>, rawPage: Option<string>, rawLimit: Option<string>,
                       rxTest: (string, string) -> bool, rank: string -> int, otherwise: seq<Listed>): (r: SearchReply)
    ensures r.NoQuery? <==> rawQ.None?
    ensures r.Found? ==> r.answer.q == Trim(rawQ.GetOr("")) && r.answer.page == PageOf(rawPage)
    ensures r.Found? && IsBlank(rawQ.GetOr("")) ==> r.answer.items == [] && r.answer.total == 0 && r.answer.pages == Int(0)
    ensures r.Found? && !IsBlank(rawQ.GetOr("")) ==>
              var pattern := PlanSearch(rawQ, rawPage, rawLimit).pattern;
              var hits := Filter(users, (u: User) => rxTest(pattern, u.username));
              && IsLiteralPattern(pattern) && LiteralText(pattern) == r.answer.q
              && r.answer.total == |hits|
              && r.answer.pages == PagesOf(|hits|, LimitOf(rawLimit, "20"))
              && (WindowOf(rawPage, rawLimit, "20").skip.Int? ==>
                    (forall l :: l in r.answer.items ==> exists u :: u in hits && l == ListedOf(u))
                    && forall i, j :: 0 <= i < j < |r.answer.items| ==> rank(r.answer.items[i].username) <= rank(r.answer.items[j].username))
    ensures r.Found? && !IsBlank(rawQ.GetOr("")) && WindowOf(rawPage, rawLimit, "20").skip.Int? ==>
              var pattern := PlanSearch(rawQ, rawPage, rawLimit).pattern;
              var w := WindowOf(rawPage, rawLimit, "20");
              r.answer.items == ListedAll(Slice(ByName(Filter(users, (u: User) => rxTest(pattern, u.username)), rank), w.skip.v, w.limit.v))
  {
    if rawQ.None? then NoQuery
    else
      var plan := PlanSearch(rawQ, rawPage, rawLimit);
      match plan
      case EmptyAnswer(_, _) => Found(Answer(plan, [], 0))
      case Lookup(_, pattern, w) =>
        var hits := Filter(users, (u: User) => rxTest(pattern, u.username));
        Found(Answer(plan, NamePage(hits, w, rank, otherwise), |hits|))
  }

  /** The order the search lists users in: `sort({ username: 1 })`. */
  function ByName(hits: seq<User>, rank: string -> int): (r: seq<User>)
    ensures multiset(r) == multiset(hits)
    ensures forall i, j :: 0 <= i < j < |r| ==> rank(r[i].username) <= rank(r[j].username)
  {
    var key := (u: User) => rank(u.username);
    var r := SortBy(hits, key);
    forall i, j | 0 <= i < j < |r|
      ensures rank(r[i].username) <= rank(r[j].username)
    {
      assert key(r[i]) <= key(r[j]);
    }
    r
  }

  /** Listing commutes with cutting a window. */
  lemma ListedSlice(us: seq<User>, skip: nat, limit: nat)
    ensures ListedAll(Slice(us, skip, limit)) == Slice(ListedAll(us), skip, limit)
  {
    var from := if skip >= |us| then |us| else skip;
    var to := if skip + limit >= |us| then |us| else skip + limit;
    var a, b := ListedAll(us[from..to]), ListedAll(us)[from..to];
    assert |a| == |b|;
    forall k | 0 <= k < |a|
      ensures a[k] == b[k]
    {
      assert a[k] == ListedOf(us[from + k]);
    }
  }

  /** One window of the given users in username order. */
  function NamePage(hits: seq<User>, w: Window, rank: string -> int, otherwise: seq<Listed>): (ls: seq<Listed>)
    ensures !(w.skip.Int? && w.limit.Int?) ==> ls == otherwise
    ensures w.skip.Int? && w.limit.Int? && w.skip.v >= 0 && w.limit.v >= 1 ==>
              && ls == ListedAll(Slice(ByName(hits, rank), w.skip.v, w.limit.v))
              && |ls| <= w.limit.v
              && (forall l :: l in ls ==> exists u :: u in hits && l == ListedOf(u))
              && (forall i, j :: 0 <= i < j < |ls| ==> rank(ls[i].username) <= rank(ls[j].username))
  {
    var ordered := ByName(hits, rank);
    var ls := WindowItems(ListedAll(ordered), w, otherwise);
    if w.skip.Int? && w.limit.Int? && w.skip.v >= 0 && w.limit.v >= 1 then
      ListedSlice(ordered, w.skip.v, w.limit.v);
      SortedKeepsMembers(hits, ordered);
      WindowFromHits(hits, ordered, w, otherwise);
      WindowInRankOrder(ordered, w, rank, otherwise);
      ls
    else ls
  }

  lemma SortedKeepsMembers(hits: seq<User>, ordered: seq<User>)
    requires multiset(ordered) == multiset(hits)
    ensures forall u :: u in ordered ==> u in hits
  {
    assert forall u :: u in ordered <==> u in multiset(ordered);
  }

  /** Every entry of the window lists one of the hits. */
  lemma WindowFromHits(hits: seq<User>, ordered: seq<User>, w: Window, otherwise: seq<Listed>)
    requires forall u :: u in ordered ==> u in hits
    requires w.skip.Int? && w.limit.Int? && w.skip.v >= 0 && w.limit.v >= 1
    ensures forall l :: l in WindowItems(ListedAll(ordered), w, otherwise) ==> exists u :: u in hits && l == ListedOf(u)
  {
    var ls := WindowItems(ListedAll(ordered), w, otherwise);
    forall l | l in ls
      ensures exists u :: u in hits && l == ListedOf(u)
    {
      var i :| 0 <= i < |ls| && ls[i] == l;
      assert ordered[w.skip.v + i] in ordered;
    }
  }

  /** The window of a rank-ordered list is in rank order. */
  lemma WindowInRankOrder(ordered: seq<User>, w: Window, rank: string -> int, otherwise: seq<Listed>)
    requires SortedBy(ordered, (u: User) => rank(u.username))
    requires w.skip.Int? && w.limit.Int? && w.skip.v >= 0 && w.limit.v >= 1
    ensures var ls := WindowItems(ListedAll(ordered), w, otherwise);
            forall i, j :: 0 <= i < j < |ls| ==> rank(ls[i].username) <= rank(ls[j].username)
  {
    var key := (u: User) => rank(u.username);
    var ls := WindowItems(ListedAll(ordered), w, otherwise);
    forall i, j | 0 <= i < j < |ls|
      ensures rank(ls[i].username) <= rank(ls[j].username)
    {
      assert key(ordered[w.skip.v + i]) <= key(ordered[w.skip.v + j]);
    }
  }

  /** Which handler of the router a GET under /api/users reaches, by its
      one path segment ("" for the root). */
  datatype UsersGet = SearchRoute | ProfileRoute(k: string) | OwnRoute

  function RouteGet(segment: string): (h: UsersGet)
    ensures segment == "" <==> h == SearchRoute
    ensures segment == "me" <==> h == OwnRoute
  {
    if segment == "" then SearchRoute else if segment == "me" then OwnRoute else ProfileRoute(segment)
  }

  /** The search answers at the router's root; "/api/users/search" is a
      profile lookup of a user named "search". */
  lemma SearchPathIsProfileLookup()
    ensures RouteGet("search") == ProfileRoute("search")
  {
  }
}
